=== FILE: README.md ===
# Road-safety dashboard data pipeline in Dafny

The dashboard draws six D3 charts and a metrics panel from CSV exports of
Australian road-enforcement data (fines, arrests and charges by year,
jurisdiction, location, age group and detection method). Every chart
script runs the same small, deterministic pipeline before it draws:

1. coerce the CSV cells;
2. filter on the selectors, where 'All' or '' means no filter;
3. group and sum (d3.rollup, d3.group, d3.sum);
4. complete, prune and rank the series;
5. choose the axis bounds and the labels.

This project models that pipeline as pure Dafny functions over sequences
of records and proves what the charts rely on. Examples:

- every series has one point per year of the file;
- sums are conserved through grouping, sorting and pruning;
- a pruned series has a positive total;
- end-of-line labels stay 16 pixels apart;
- the axis bounds are never 0 wide and reach every value;
- legend clicks are involutions;
- the nearest-year search is a true arg-min;
- the police/camera split never exceeds the fines total.

Modules follow the scripts:

| module | file | models |
|---|---|---|
| `Common` | common.dfy | JS number coercion, the count columns, `formatNumber`, `sanitizeId`, ASCII case mapping, the string order of `sort()` |
| `Aggregate` | aggregate.dfy | `Array.filter`, `d3.group`, `d3.rollup`, `d3.sum`, `map.get`, `d3.max`/`d3.min` |
| `Ordering` | ordering.dfy | `Array.sort` by a descending numeric comparator (stable), and `new Set(...)` followed by a sort |
| `BarChart` | barchart.dfy | the guards of `renderBarChart` (chart5, chart6) and the value axis of chart3's bar chart |
| `Legend` | legend.dfy | the multi-select legend of chart2 and chart4 |
| `LineChart` | linechart.dfy | the line-chart pipeline shared by chart2 and chart4: year-complete series, pruning, y domain, label de-overlap, tooltip items |
| `Chart1` … `Chart6` | chart1.dfy … chart6.dfy | what each script adds |
| `Metrics` | metrics.dfy | the year filter and headline totals of metrics.js |

Numbers are `real`: counts are whole reals, and FINES_log and fines per
10k are fractional. A JS number that may be NaN is
`JsNum = NaN | Num(real)`. A CSV cell is `Cell = Absent | Text(num)`, which
carries the number its text spells. So `+cell || 0`, `d3.sum` (which skips
NaN) and the `=== null` tests are written out case by case. Parsing a
string into a number is not modelled.

## Model

| member | source | states |
|---|---|---|
| Common.NumberOrZero | js/chart1.js:44-46 | unary plus with a 0 fallback is the cell's number when it holds one, and 0 for a missing cell or NaN; it is non-zero exactly when the cell holds a non-zero number |
| Common.MetricNamed | js/chart2.js:50 | exactly the upper-cased keys "FINES", "ARRESTS" and "CHARGES" name a count column; any other key names none |
| Common.CountOf | js/chart2.js:101 | `d[metricKey]` is the named column's count for FINES, ARRESTS and CHARGES, the keys the upper-cased offence select yields; with no column named the row adds 0, as d3.sum does for undefined |
| Common.FormatNumber | js/chart4.js:34-36 | the placeholder dash is shown exactly for null, undefined or 0; any other number is passed on unchanged to the formatter |
| Common.SanitizeChars | js/chart4.js:30 | keeps the number of characters and maps each character to itself when it is in `[a-zA-Z0-9_-]`, otherwise to '_' |
| Common.SanitizeId | js/chart4.js:28-31 | '' for null or undefined; otherwise the same number of characters, every output character id-safe, safe characters kept and unsafe ones replaced by '_' |
| Common.SanitizeIdIdempotent | js/chart4.js:28-31 | sanitizing a sanitized id changes nothing |
| Common.Lower | js/metrics.js:62 | `toLowerCase` keeps the length and lowers exactly the letters A-Z |
| Common.Upper | js/chart3.js:73 | `toUpperCase` keeps the length and raises exactly the letters a-z |
| Common.StrLtIrreflexive | js/chart6.js:97 | the character-by-character order the model gives the default `sort()` is irreflexive |
| Common.StrLtTotal | js/chart6.js:97 | that order relates any two distinct strings |
| Common.StrLtAsymmetric | js/chart6.js:97 | that order is asymmetric |
| Common.StrLtTransitive | js/chart6.js:97 | that order is transitive |
| Aggregate.Select | js/chart2.js:93 | a `d3.group` group holds exactly the rows with its key |
| Aggregate.Filter | js/chart4.js:98 | `Array.filter` keeps exactly the elements the predicate accepts and never lengthens the list |
| Aggregate.FilterAppend | js/chart4.js:98 | filtering a concatenation filters each part, so the kept elements stay in input order |
| Aggregate.FilterSnoc | js/chart4.js:98 | filtering one more element appends it exactly when the predicate keeps it |
| Aggregate.FilterKeepsOrder | js/chart4.js:135 | a filter keeps relative order: a rank that strictly increases along the input strictly increases along the output |
| Aggregate.SelectMultiplicity | js/chart2.js:93 | a group keeps every row of its key as many times as the input has it, and no other row |
| Aggregate.DistinctKeys | js/chart1.js:157 | the keys of a rollup: no duplicates, and exactly the keys some row has |
| Aggregate.DistinctFirstSeen | js/chart1.js:157 | the key list of a Map keeps insertion order: of two distinct values, the earlier one first occurs earlier in the input |
| Aggregate.Rollup | js/chart3.js:81-85 | one bucket per distinct key, no key twice, whose total is the metric summed over that key's rows |
| Aggregate.RollupKeys | js/chart3.js:81-85 | the buckets' keys are the distinct keys of the rows, in the same order |
| Aggregate.RollupFirstSeen | js/chart3.js:81-85 | the buckets come in the order in which their keys first occur among the rows, as a JS Map keeps insertion order |
| Aggregate.RollupFirstLargest | js/chart1.js:68-69 | the bucket that is the first of largest total has a key occurring in the rows, whose sum is at least every key's sum and strictly more than the sum of every key first seen before it |
| Aggregate.Lookup | js/chart3.js:101 | `map.get` is undefined exactly for a key with no bucket, and otherwise that bucket's total |
| Aggregate.LookupRollup | js/chart3.js:81-101 | getting a key from a rollup gives that key's sum over the rows, or undefined when no row has the key |
| Aggregate.RollupConserves | js/chart5.js:93 | the rollup's totals add up to the metric summed over all rows |
| Aggregate.SelectSum | js/chart2.js:93-103 | summing a group is summing the rows with that key |
| Aggregate.MaxOf | js/chart6.js:163 | none for an empty list; otherwise a member of the list that bounds every element from above |
| Aggregate.MinOf | js/chart6.js:164 | none for an empty list; otherwise a member of the list that bounds every element from below |
| Ordering.SortDesc | js/chart5.js:94 | `sort((a, b) => b.value - a.value)` returns a permutation of its input in non-increasing order |
| Ordering.SortDescSum | js/chart5.js:94 | sorting leaves the sum of any measure unchanged |
| Ordering.SortDescKeys | js/chart5.js:94 | sorting neither adds nor drops a key |
| Ordering.SortDescKeepsDistinctKeys | js/chart5.js:93-94 | sorting distinct-keyed buckets keeps the keys distinct |
| Ordering.SortDescHeadIsFirstMaximal | js/chart1.js:68-69 | because the sort is stable, the head is the first element of largest score in input order |
| Ordering.SortUniqueAsc | js/chart2.js:96 | `new Set` plus an ascending sort gives a strictly increasing list with exactly the input's members |
| Ordering.SortUniqueDesc | js/chart5.js:141 | `new Set` plus `(a, b) => b - a` gives a strictly decreasing list with exactly the input's members |
| Ordering.SortUniqueStr | js/chart6.js:94-97 | `new Set` plus the default sort gives a strictly increasing string list with exactly the input's members |
| BarChart.MaxOrOne | js/chart5.js:55 | the largest value with a fallback of 1 is never 0, bounds every value, and is a member of the list, or 1 when no value is positive (always 1 for an empty list) |
| BarChart.RenderBarChart | js/chart5.js:26-55 | the no-data branch is taken exactly for an empty series; otherwise the axis top is never 0, reaches every bar, and is a bar's value or 1 |
| BarChart.BarHeight | js/chart5.js:72 | `Math.max(0, height - y(value))` is never negative; on a positive axis it is positive exactly for a positive value and no taller than the plot for a value within the axis |
| BarChart.BarHeightMonotone | js/chart5.js:72 | a larger value never gets a shorter bar |
| Legend.Toggle | js/chart2.js:404-412 | a click flips the clicked name's membership in the selection and leaves every other name as it was |
| Legend.ToggleTwice | js/chart4.js:390-398 | clicking the same entry twice restores the selection |
| Legend.HiddenIsNotVisible | js/chart2.js:416-429 | a series is hidden (and its legend entry dimmed) exactly when it is not visible, i.e. the selection is non-empty and lacks it |
| Legend.FirstClickIsolates | js/chart2.js:404-422 | the first click on an empty selection shows only the clicked series |
| Legend.LastDeselectShowsAll | js/chart2.js:404-422 | deselecting the only selected name shows every series again |
| LineChart.AllYears | js/chart4.js:111 | the years of the whole file, each once, in ascending order |
| LineChart.AllYearsCover | js/chart4.js:111 | the whole file's years cover every row of any filtered subset |
| LineChart.CompleteValues | js/chart4.js:120-126 | one point per year in the year list's order, holding the group's sum for that year (0 when the year has no row) |
| LineChart.ZeroGroupSeries | js/chart4.js:120-126 | a group whose metric is 0 everywhere gets a series summing to 0 |
| LineChart.BuildSeries | js/chart4.js:108-132 | one series per distinct group key, in the order the keys first occur in the rows, each with a point per year holding that group's sum for the year |
| LineChart.BuildSeriesFirstSeen | js/chart4.js:108-132 | of two series, the earlier one's name first occurs earlier among the rows' group keys, as d3.group insertion order gives |
| LineChart.SeriesTotalIsGroupSum | js/chart4.js:113-132 | a series' total is the metric summed over its group's rows |
| LineChart.BuildSeriesConserves | js/chart4.js:108-132 | the series totals together add up to the metric over all rows |
| LineChart.BuildSeriesNonNegative | js/chart4.js:114-121 | non-negative counts give non-negative series totals |
| LineChart.PruneEmpty | js/chart4.js:135 | exactly the series whose total is positive are kept |
| LineChart.PruneEmptyKeepsOrder | js/chart4.js:135 | pruning keeps the first-seen order of the series that remain |
| LineChart.PruneEmptyKeepsTotal | js/chart4.js:135 | with non-negative totals, pruning does not change the grand total |
| LineChart.PruneEmptyKeepsName | js/chart4.js:135 | a group's name survives pruning exactly when its series total is positive |
| LineChart.PlottedSeries | js/chart4.js:108-135 | the plotted series have distinct names and positive totals, each is one of the built series, they keep the first-seen order of their group keys, and point j of each is year j holding the group's sum for that year |
| LineChart.PlottedSeriesKeepsPositiveGroups | js/chart4.js:108-135 | a group is plotted exactly when its metric sum is positive |
| LineChart.PlottedSeriesConserves | js/chart4.js:108-135 | with non-negative counts, the plotted totals add up to the metric over all rows |
| LineChart.PlottedSeriesEmptyWhenAllZero | js/chart4.js:135 | nothing is plotted when the metric is 0 on every row |
| LineChart.AllValues | js/chart4.js:141 | every plotted point's value is among the values `d3.max` ranges over |
| LineChart.SomePointPlotted | js/chart4.js:141 | a series with a positive total gives `d3.max` a value to return |
| LineChart.YDomainMaxAsWritten | js/chart4.js:141-152 | as written, `Math.max(1, max * 1.05)` is a number of at least 1 whenever some value exists |
| LineChart.YDomainMaxAsWrittenNaN | js/chart4.js:141-152 | as written, with no series the bound is NaN (`d3.max` of nothing is undefined) |
| LineChart.YDomainMax | js/chart4.js:152 | the corrected bound is at least 1 and at least 1.05 times every value; it is 1 or 1.05 times a value; wherever the source gives a number, it is that number |
| LineChart.YScale | js/chart4.js:150-153 | the y scale maps 0 to the bottom of the plot and the domain top to its top |
| LineChart.YScaleReverses | js/chart4.js:150-153 | a larger value is drawn no lower on screen |
| LineChart.LastPositive | js/chart4.js:232-234 | a series' last point is labelled exactly when it exists and is positive |
| LineChart.LabelCandidates | js/chart4.js:231-243 | exactly the series whose last value is positive get a label, which starts at the point's own y |
| LineChart.LabelCandidatesArePositiveLast | js/chart4.js:231-243 | one label per series with a positive last point, in series order, each named after its series and placed at the y of that last positive value |
| LineChart.Place | js/chart4.js:248-254 | placement keeps every label's name and y, only moving finalY |
| LineChart.PlaceAt | js/chart4.js:250-253 | each finalY is the smaller of its own finalY and the previous label's finalY (height - 5 for the first) minus 16 |
| LineChart.PlaceSpacesLabels | js/chart4.js:248-254 | placement never moves a label down, keeps each label 16 pixels above the previous one, and moves only what it must |
| LineChart.PlaceLabels | js/chart4.js:231-254 | the labels are exactly the candidates, sorted by descending y |
| LineChart.PlaceLabelsSeparated | js/chart4.js:245-254 | every placed label is at or above its point and at least 16 pixels above the previous one (the first at most height - 21) |
| LineChart.PointAt | js/chart4.js:316 | `values.find` is undefined exactly when no point has the year; otherwise it is the first point of that year |
| LineChart.ItemFor | js/chart4.js:316-324 | a tooltip item carries the series name, and a value only when that year's point exists and is positive (null otherwise) |
| LineChart.VisibleItems | js/chart4.js:311-326 | exactly the visible series contribute an item |
| LineChart.VisibleItemsAreVisibleSeries | js/chart4.js:311-326 | the items are one per visible series, in series order, each that series' item for the year |
| LineChart.TooltipItems | js/chart4.js:311-329 | the items are a permutation of the visible series' items, with nulls for non-positive values, sorted by descending value |
| LineChart.TooltipEmptyIffNothingVisible | js/chart2.js:319-357 | the item list is empty, and the tooltip hidden, exactly when no series is visible |
| Chart1.AgeGroupsDistinct | js/chart1.js:158 | the six stacked age groups are distinct |
| Chart1.FilterRows | js/chart1.js:97-101 | a row passes iff (age is '' or matches) and (jurisdiction is 'All' or matches) and (location is '' or matches) |
| Chart1.XByFor | js/chart1.js:114 | the x axis is by location iff a jurisdiction is chosen and no location is |
| Chart1.ValueColumnFor | js/chart1.js:108-109 | "Fines (log)" or "" pick FINES_log, "Arrests" picks ARRESTS, anything else CHARGES |
| Chart1.StackColumnFor | js/chart1.js:126-139 | the stacked column: FINES_log for "Fines (log)" or "", ARRESTS, CHARGES, or none for any other text |
| Chart1.RawColumnFor | js/chart1.js:129-139 | the tooltip's raw column follows the stacked one: FINES with FINES_log, otherwise the same count |
| Chart1.ValueColumnMatchesStackColumn | js/chart1.js:108-139 | the metrics-panel column and the stacked column agree whenever the latter exists, which is for exactly the four known texts |
| Chart1.StackValue | js/chart1.js:142-147 | a row contributes the stacked column's value, and 0 when no column is chosen |
| Chart1.StackedData | js/chart1.js:142-166 | one bar per distinct x key, none twice, with one segment per age group in the fixed order, holding that key's and age's sum (0 when none) |
| Chart1.StackedDataFirstSeen | js/chart1.js:142-157 | the bars come in the order in which their x key first occurs among the rows |
| Chart1.BarKeysAreDistinctKeys | js/chart1.js:157 | the bars' keys are the rollup's keys |
| Chart1.BarTotalCountsStackedAges | js/chart1.js:160-172 | a bar's height is its key's sum over the rows in the six age groups |
| Chart1.BarTotalIsKeySum | js/chart1.js:142-172 | when every age is one of the six, a bar's height is its key's whole sum |
| Chart1.BarTotalsAreKeyTotals | js/chart1.js:142-172 | when every age is one of the six, the bar heights are the per-key rollup totals, position by position |
| Chart1.StackedDataConserves | js/chart1.js:142-166 | when every age is one of the six, the bars together hold the whole stacked sum |
| Chart1.BarTotals | js/chart1.js:172 | the stack heights, one per bar |
| Chart1.YDomainTop | js/chart1.js:171-173 | the axis top is NaN exactly when there is no bar; otherwise 1.1 times the tallest bar |
| Chart1.BarTooltip | js/chart1.js:201-206 | the stacked sum is the segment's rows summed over the stacked column and the raw sum the same rows over the raw one (FINES beside FINES_log); the two agree unless fines are stacked as FINES_log |
| Chart1.AgeLabel | js/chart1.js:47 | a missing age group counts as "Unknown"; a present one as itself |
| Chart1.PanelMetric | js/chart1.js:59-65 | "Fines (log)" and "Fines" rank by fines, "Arrests" by arrests, "Charges" by charges, anything else by nothing |
| Chart1.TopAgeGroup | js/chart1.js:68-69 | "N/A" with no rows; otherwise one of the rows' age labels |
| Chart1.AgeGroupTotals | js/chart1.js:56-65 | one total per age label present in the rows, none twice, holding the chosen count summed over that age's rows |
| Chart1.AgeGroupTotalsConserve | js/chart1.js:56-65 | each age total is the chosen count summed over that age's rows, and together they hold the whole sum |
| Chart1.AgeTotalsSplitPanelTotal | js/chart1.js:43-65 | the age totals add up to the panel's total for the chosen offence, and are all 0 for an unknown offence |
| Chart1.UpdateMetrics | js/chart1.js:39-80 | the three totals are the coerced counts summed over the rows; the age totals split the chosen one; 0, 0, 0 and "N/A" for no rows |
| Chart1.SortedHeadIsFirstLargest | js/chart1.js:68-69 | after the descending sort, the head is the first-seen bucket with the largest total |
| Chart1.TopAgeGroupIsSortedHead | js/chart1.js:68-69 | with rows, the top age group is the sorted head's key |
| Chart1.TopAgeGroupIsFirstLargest | js/chart1.js:57-69 | the top age group is an age label of the rows; its total is at least every label's, and strictly more than that of every label first seen before it |
| Chart2.DataToAggregate | js/chart2.js:83-91 | 'All' keeps every row; a jurisdiction keeps exactly its own rows |
| Chart2.ChartSeries | js/chart2.js:93-131 | series have distinct names and come in the order their group keys first occur in the aggregated rows; point j of a series is file year j holding the series' group sum for that year (0 without rows); under 'All' the names are exactly the file's jurisdictions in first-seen order, which is the colour domain and legend order; otherwise every series has a positive total |
| Chart2.LocationDrawnIffPositive | js/chart2.js:121-123 | inside a jurisdiction, a location is drawn exactly when its metric sum is positive |
| Chart2.ChartSeriesConserves | js/chart2.js:93-128 | with non-negative counts, the drawn series hold the metric summed over the aggregated rows |
| Chart2.YDomainAsWritten | js/chart2.js:134-145 | as written, the y bound is a number of at least 1 in the 'All' view of a non-empty file |
| Chart2.AllViewHasPoint | js/chart2.js:86-134 | the 'All' view of a non-empty file always has a point for `d3.max` |
| Chart2.YDomainNaNWhenJurisdictionEmpty | js/chart2.js:121-145 | as written, a jurisdiction whose metric is 0 on every row prunes every series and the y bound is NaN |
| Chart2.YDomain | js/chart2.js:134-145 | the corrected bound is at least 1 and 1.05 times every value; it is 1 or 1.05 times a plotted value; wherever the source gives a number, it is that number |
| Chart2.TooltipShown | js/chart2.js:319-357 | the tooltip is shown exactly when some series is visible |
| Chart4.GroupingFor | js/chart4.js:60-76 | series are grouped by detection method exactly when the method selector is 'All', otherwise by jurisdiction |
| Chart4.FilterRows | js/chart4.js:94-104 | a row passes iff its jurisdiction matches unless 'All' and its detection method matches unless 'All' |
| Chart4.ChartSeries | js/chart4.js:106-135 | series have distinct names and positive totals and come in the order their group keys first occur in the filtered rows, the legend order; point j of a series is file year j holding the series' group sum for that year (0 without rows) |
| Chart4.ChartSeriesKeepsPositiveGroups | js/chart4.js:106-135 | a group of the filtered rows is drawn exactly when its metric sum is positive |
| Chart4.ChartSeriesConserves | js/chart4.js:106-135 | with non-negative counts, the drawn series hold the metric summed over the filtered rows |
| Chart4.YDomainAsWritten | js/chart4.js:141-152 | as written, the y bound is a number of at least 1 whenever some series is drawn |
| Chart4.YDomainNaNWhenNothingToPlot | js/chart4.js:135-152 | as written, when the metric is 0 on every filtered row every series is pruned and the y bound is NaN |
| Chart4.YDomain | js/chart4.js:141-152 | the corrected bound is at least 1 and 1.05 times every value; it is 1 or 1.05 times a plotted value; it agrees with the source whenever a series is drawn |
| Chart4.Labels | js/chart4.js:229-254 | the end labels are a permutation of the drawn series' candidates, each at or above its point and 16 pixels above the previous one (the first at most height - 21) |
| Chart3.FilterRows | js/chart3.js:76-78 | a row passes iff its year matches, its jurisdiction matches unless 'All', and its location matches unless '' |
| Chart3.FindPair | js/chart3.js:99 | a key lookup in the name table finds something exactly when some entry has that key, and what it finds is paired with the key |
| Chart3.FindPairOfEntry | js/chart3.js:88-97 | with distinct keys, looking up any entry's key yields that entry's value |
| Chart3.StateTableDistinct | js/chart3.js:88-97 | no two states share a name and no two share an abbreviation |
| Chart3.Abbreviation | js/chart3.js:88-97 | exactly the eight state names have an abbreviation, and it is the one the table pairs with the name |
| Chart3.StateNamed | js/chart3.js:88-97 | exactly the eight abbreviations stand for a state, and the state is the one the table pairs with the abbreviation |
| Chart3.AbbreviationRoundTrip | js/chart3.js:88-97 | the table read forwards and backwards agree entry by entry |
| Chart3.AbbreviationInjective | js/chart3.js:88-97 | no two states share an abbreviation |
| Chart3.FeatureValue | js/chart3.js:99-102 | a feature's value is never undefined: 0 for an unmapped name or an abbreviation without rows |
| Chart3.FeatureValueIsStateSum | js/chart3.js:81-102 | a feature's value is its state's sum over the filtered rows, and 0 for an unmapped name |
| Chart3.FeatureValues | js/chart3.js:99-102 | one value per feature, in feature order |
| Chart3.MapTotals | js/chart3.js:81-85 | the map's keys are the filtered rows' distinct jurisdictions, in first-seen order, each with its sum |
| Chart3.OrUnknown | js/chart3.js:135 | the key with an "Unknown" fallback is never empty and keeps a non-empty key |
| Chart3.RelabelledKeys | js/chart3.js:134-137 | relabelling the keys gives exactly the labels of the keys present |
| Chart3.JurisdictionBars | js/chart3.js:115-124 | under 'All', one bar per distinct jurisdiction, in the rollup's key order, holding its sum |
| Chart3.LocationBars | js/chart3.js:128-137 | otherwise, bar i belongs to the i-th distinct location: its label is the location or 'Unknown' for an empty one, and its value the location's sum |
| Chart3.BarData | js/chart3.js:113-138 | 'All' gives the jurisdiction bars and any other jurisdiction the location bars |
| Chart3.BarDataConserves | js/chart3.js:113-138 | in both views, the bars together hold the count over the filtered rows |
| Chart3.UpdateAll | js/chart3.js:66-140 | the colour domain top and the bar axis top are never 0, reach every value, and are one of the values or 1 when none is positive; features and bars are those of the filtered rows |
| Chart3.BarTopReachesBars | js/chart3.js:213 | `d3.max(data, d => d.value) || 1` bounds every bar and is a bar's value, or 1 when no bar is positive |
| Chart5.ParseRow | js/chart5.js:9-18 | year and location are kept; each count is the cell's number, or 0 when missing or not a number |
| Chart5.MetricValue | js/chart5.js:93 | `d[metric]` reads the column named by each of the four keys the metric select offers, including the source's spelling TOAL_OFFENCES; the model adds 0 for a key outside them |
| Chart5.FilterRows | js/chart5.js:91-92 | the rows of the year, narrowed to the location unless the filter is empty or 'All' |
| Chart5.BuildSeriesForYear | js/chart5.js:90-96 | one bucket per location among the filtered rows, holding its sum, in non-increasing order |
| Chart5.RankedRollup | js/chart5.js:93-94 | the ranked rollup has distinct keys, exactly the rows' locations, and each bucket its location's sum |
| Chart5.BuildSeriesForYearConserves | js/chart5.js:90-96 | the buckets together hold the metric over the filtered rows |
| Chart5.SeriesSum | js/chart5.js:123 | the panel total is the metric summed over the filtered rows |
| Chart5.Highest | js/chart5.js:124-126 | none for an empty series; otherwise a bucket of it, the largest when the series is ranked |
| Chart5.DrawSingleChart | js/chart5.js:98-134 | the four totals are the metric sums over the filtered rows; the highest is 'N/A' exactly when no row passes, and otherwise the location of largest sum that occurs first in the rows among equal sums |
| Chart5.HighestIsFirstLargestLocation | js/chart5.js:90-126 | after the stable descending sort the leading bucket is a filtered location whose sum bounds every location's, and every location seen before it sums strictly less |
| Chart5.SeriesEmptyIffNoRows | js/chart5.js:107-111 | the series is empty, and the bar chart shows no data, exactly when no row passes the filter |
| Chart5.HighestIsLargestLocation | js/chart5.js:123-126 | no location of the filtered rows sums to more than the reported highest |
| Chart5.YearOptions | js/chart5.js:141 | the years of the file, each once, newest first |
| Chart5.InitialYearIsLatest | js/chart5.js:175-177 | the initial year is the latest year of the file |
| Chart5.ValueLabel | js/chart5.js:80 | a bar is labelled exactly when its value is positive |
| Chart6.FinesColumn | js/chart6.js:23 | none when no header mentions FINES (case-insensitive); otherwise the first header that does |
| Chart6.FinesColumnIsFirst | js/chart6.js:23 | the first header mentioning FINES is the one found |
| Chart6.CellValue | js/chart6.js:23 | a missing cell is 0, a present one its number |
| Chart6.ParseBarRow | js/chart6.js:17-25 | YEAR and JURISDICTION are kept; VALUE is the first FINES column's cell, or 0 when there is none |
| Chart6.YearList | js/chart6.js:37-39 | the union of both datasets' years, each once, newest first |
| Chart6.RegionName | js/chart6.js:91 | the longest prefix without '+', which ends at the first '+' or the end |
| Chart6.RegionNameIdempotent | js/chart6.js:91 | a region name is its own region name |
| Chart6.LineColumns | js/chart6.js:90 | every column except YEAR |
| Chart6.LineColumnsInOrder | js/chart6.js:90 | the headers keep the file's column order: a concatenation yields the first part's headers then the second's, and a single column is kept exactly when it is not YEAR |
| Chart6.Jurisdictions | js/chart6.js:94-97 | the union of region names and bar jurisdictions, each once, in sort order |
| Chart6.LineValue | js/chart6.js:119-122 | a missing, empty, zero or non-numeric cell becomes null; any other cell keeps its number |
| Chart6.BuildLineSeries | js/chart6.js:116-122 | one series per line column, with its region name and raw key; point j has row j's year, is a gap exactly when the cell is missing, NaN or 0, and otherwise holds the cell's number |
| Chart6.SeriesToShow | js/chart6.js:132 | 'All' shows every series; otherwise exactly those whose id is the jurisdiction |
| Chart6.FindPoint | js/chart6.js:145 | `find` gives the first point of the year, or undefined when none has it |
| Chart6.LatestValue | js/chart6.js:144-147 | a series' latest-year value is the value of the first point of that year, 0 when that point is a gap, when no point has the year, or when there is no latest year |
| Chart6.HighestRegion | js/chart6.js:151-154 | a highest region is reported exactly when some latest value is positive; it is then the earliest series of the largest latest value, and bounds all of them |
| Chart6.SortedHeadIsFirstMaximalSeries | js/chart6.js:151-152 | after the stable descending sort the head is the earliest series whose latest value is largest |
| Chart6.NumbersOf | js/chart6.js:157 | the non-NaN values, and only those |
| Chart6.NumbersOfIsNumericFilter | js/chart6.js:157 | the numbers are exactly the values that pass the NaN filter, read as numbers, with their multiplicity and order |
| Chart6.SummaryStats | js/chart6.js:158-169 | 'N/A' exactly for an empty list; otherwise the highest and lowest are members bounding every value, and lowest ≤ mean ≤ highest with mean times count equal to the sum |
| Chart6.Mean | js/chart6.js:165 | the mean times the count is the sum |
| Chart6.MeanBetween | js/chart6.js:163-165 | the mean of values within bounds is within them |
| Chart6.NumbersOfValues | js/chart6.js:157 | no number is left exactly when every value is NaN; every numeric value is kept, and nothing else |
| Chart6.ValueStats | js/chart6.js:157-169 | 'N/A' exactly when every value is NaN; otherwise the highest and lowest are values bounding every numeric value, the mean lies between them, and mean times count is the sum of the numeric values |
| Chart6.DrawLine | js/chart6.js:130-169 | no data exactly when nothing is shown; the total and highest use every series; stats are 'N/A' exactly when the latest year's bar values are all NaN, and otherwise the highest and lowest are such values bounding all of them, with the mean between and equal to their sum over their count |
| Chart6.BarRowsFor | js/chart6.js:173-174 | the bar rows of the year, and of the jurisdiction unless it is empty or 'All' |
| Chart6.DrawBar | js/chart6.js:173-205 | no data exactly for no rows; the bars are a permutation of the rows, ranked; the total skips NaN; the highest is reported exactly when a bar is positive, is the largest, and is the earliest row of that score; stats are 'N/A' exactly when all bars are NaN, and otherwise the highest and lowest are bar values bounding all of them, with the mean between and equal to their sum over their count |
| Chart6.RankedHead | js/chart6.js:183-189 | in a ranked list the head is the largest, and positive exactly when some bar is |
| Chart6.RankedHeadIsFirstMaximalRow | js/chart6.js:182-189 | after the stable descending sort the head bar is the earliest row of the highest score |
| Chart6.BarAxisTop | js/chart6.js:254 | the largest numeric value with a fallback of 1 is never 0, reaches every numeric bar, and is a bar's value, or 1 when no numeric bar is positive (so 1 when all are NaN) |
| Chart6.Draw | js/chart6.js:125-207 | 'LINE' draws the line view, with no data exactly when no series is shown; anything else the bar view, with no data exactly when no row passes |
| Chart6.NearestYear | js/chart6.js:381-386 | none for no years; otherwise a year minimising the distance to x, the earliest of equally close ones |
| Chart6.AxisYears | js/chart6.js:308 | the years of all points, each once, ascending |
| Metrics.PopulateYearFilter | js/metrics.js:8-24 | nothing without the select; otherwise end - start + 1 options (none if end < start), descending from end, only the first selected |
| Metrics.Coerce | js/metrics.js:99-101 | unary plus: a missing column is NaN, a present cell its number |
| Metrics.CleanRows | js/metrics.js:96-103 | cleaning keeps every row, in order |
| Metrics.OrZero | js/metrics.js:55-59 | unary plus with a 0 fallback turns NaN into 0 and keeps any number |
| Metrics.SelectedOr | js/metrics.js:29-30 | a missing select falls back to the default ('2024', 'All') |
| Metrics.FilterRows | js/metrics.js:39-44 | a row passes iff its year text equals the selected one and its jurisdiction matches unless 'All' |
| Metrics.CalculateMetrics | js/metrics.js:27-71 | the year shown is the selected one; the five totals are the per-row shares summed over the filtered rows |
| Metrics.FinesSplit | js/metrics.js:62-70 | each row's fines go to exactly one of police, camera or neither, so the three totals add up to the fines total |
| Metrics.SplitWithinTotal | js/metrics.js:62-68 | with non-negative fines, police plus camera fines never exceed the total |
| Metrics.PoliceBeforeCamera | js/metrics.js:64-67 | a method naming both police and camera counts as police only |

## Left out

- Loading the CSV and GeoJSON files (`d3.csv`, `d3.json`, `Promise.all`) and their error banners: this is I/O whose results only feed the modelled functions. The loaded rows are parameters.
- Everything the DOM and d3 draw: axes, transitions, dash animation, gradients, the map projection, colour scales and tooltip positioning. These are presentation code and foreign calls. Only the numbers they are given are modelled.
- `debounce`, the `setTimeout` draws and the synthetic events: timer and event-loop behaviour.
- `Intl.NumberFormat`, `toFixed` and `Math.round`: locale formatting and rounding are foreign calls. Only the choice between a number and the '—' or 'N/A' placeholder is modelled.
- `.nice()` on the bar and line y scales: d3 tick rounding is a foreign call. The bounds are modelled before rounding.
- IEEE floating point: values are exact reals, and the 1.05 and 1.1 headroom factors are exact.
- Parsing text into numbers: a cell carries the number its text spells, so `+"abc"` is the cell `Text(NaN)`.
- Common.SanitizeChars: works on characters (Unicode scalar values), while the JS regex works on UTF-16 code units. A character above U+FFFF becomes one '_' here and "__" in JS. The two agree on text in the Basic Multilingual Plane, which covers the dashboard's names.
- Common.SanitizeId: the same character versus code-unit difference as `Common.SanitizeChars`, including the length it keeps.
- Common.Lower: maps only A-Z. JS `toLowerCase` also lowers non-ASCII letters. The only strings lowered are the detection-method texts, which are ASCII.
- Common.Upper: maps only a-z. JS `toUpperCase` also raises non-ASCII letters, and maps 'ı' and 'ſ' to ASCII 'I' and 'S'. The only strings raised are headers and state names, which are ASCII.
- Common.StrLt: compares characters (Unicode scalar values), while the default `sort()` compares UTF-16 code units. They differ only when a character above U+FFFF meets one between U+E000 and U+FFFF.
- Ordering.SortUniqueStr: sorted by `Common.StrLt`, so it inherits that order's difference from the code-unit order of `sort()`.
- Chart6.Jurisdictions: sorted by `Common.SortUniqueStr`, so it has the same difference from the code-unit order of `sort()`.
- The mouse position: `xScale.invert` and `d3.pointer` become the parameter `x` of `Chart6.NearestYear` and the tooltip year of `LineChart.TooltipItems`.
- chart2 and chart4 `d3.bisectCenter` and the `!closestYear` early exit are not modelled; their tooltips take the hovered year as given.
- chart6 tooltip items (js/chart6.js:391-394) are the same find-and-sort as `LineChart.TooltipItems` without the visibility filter, so they are not modelled separately.
- The year filter of chart4 (js/chart4.js:458-468) and `populateYearDropdown` of chart3 (js/chart3.js:51-63) only fill a select from a sorted year list. The list itself is `LineChart.AllYears`.
- chart3's loose `d.YEAR == year` compares a number with the select's text. YEAR is modelled as a number compared with a number.
- The fallbacks `Number(select.value) || years[0]` (js/chart6.js:127) and `|| d3.max(...)` (js/chart5.js:187) are not modelled: the chosen year is a parameter. So is the chart6 year select's initial value (js/chart6.js:46).
- `Object.entries` order for integer-like keys (js/chart1.js:68): age labels are modelled in first-seen order, which JS also uses for non-numeric keys such as the six age groups.
- Chart6.DrawBar: the source's comparator `b.value - a.value` yields NaN when a value is NaN, and the resulting order is then engine-defined. The model ranks NaN as 0.
- Ordering.SortDesc: stated as a non-increasing permutation. Stability is proved only for the head (`Ordering.SortDescHeadIsFirstMaximal`), not for the whole order.
- Chart1.TopAgeGroup: `[0]?.[0] || "N/A"` would also give "N/A" for an empty age label, but `AgeLabel` never yields one. The literal age text "N/A" is not told apart from the placeholder.
- Chart1.StackedData: rows whose age is outside the six groups (including a missing one) are rolled up by the source but never stacked. The conservation lemmas therefore assume every age is one of the six.
- Chart2.ChartSeriesConserves, Chart4.ChartSeriesConserves: conservation through pruning needs non-negative counts, which the data has but the source does not check.
- js/smallmetric.js only adds four inputs and writes them to the page. It is not part of this model.

## Findings

| source | as written | input that shows it | evidently intended | confidence | as-written member | corrected member |
|---|---|---|---|---|---|---|
| js/chart4.js:141-152 | `Math.max(1, d3.max(series, ...) * 1.05)`; `d3.max` of an empty list is undefined, so the bound is NaN | filters that match no row, or a metric that is 0 on every matching row: every series is pruned | a y domain of [0, 1] when nothing is plotted, as the comment on line 151 says | not executed | Chart4.YDomainAsWritten, Chart4.YDomainNaNWhenNothingToPlot, LineChart.YDomainMaxAsWrittenNaN | Chart4.YDomain, LineChart.YDomainMax |
| js/chart2.js:134-145 | the same expression, after pruning the single-jurisdiction view | a jurisdiction whose locations all sum to 0 for the chosen offence | a y domain of [0, 1], as the comment on line 144 says | not executed | Chart2.YDomainAsWritten, Chart2.YDomainNaNWhenJurisdictionEmpty | Chart2.YDomain |

=== FILE: aggregate.dfy ===
/** The aggregation steps every chart repeats: Array filter, d3.sum,
    d3.group (rows selected by a key) and d3.rollup (one bucket per distinct
    key, in first-seen order, holding the key's sum).  Sums run from the last
    element back, so appending a row adds exactly its own term. */
module Aggregate {
  import opened Common

  /** One entry of a one-level d3.rollup: a key and the sum for that key. */
  datatype Bucket<K> = Bucket(key: K, total: real)

  function TotalOf<K>(b: Bucket<K>): real { b.total }

  function KeyOfBucket<K>(b: Bucket<K>): K { b.key }

  predicate NoDuplicates<K(==)>(s: seq<K>) {
    forall i, j :: 0 <= i < j < |s| ==> s[i] != s[j]
  }

  /** d3.sum(s, f). */
  function SumBy<T>(s: seq<T>, f: T -> real): real
    decreases |s|
  {
    if |s| == 0 then 0.0 else SumBy(s[..|s| - 1], f) + f(s[|s| - 1])
  }

  /** The sum of f over the elements whose key is k (what a rollup stores
      for k; 0 when no element has that key). */
  function SumWhere<T, K(==)>(s: seq<T>, key: T -> K, k: K, f: T -> real): real
    decreases |s|
  {
    if |s| == 0 then 0.0
    else SumWhere(s[..|s| - 1], key, k, f) + (if key(s[|s| - 1]) == k then f(s[|s| - 1]) else 0.0)
  }

  /** The sum of f over the elements whose key is one of ks. */
  function SumKeyIn<T, K(==)>(s: seq<T>, key: T -> K, ks: seq<K>, f: T -> real): real
    decreases |s|
  {
    if |s| == 0 then 0.0
    else SumKeyIn(s[..|s| - 1], key, ks, f) + (if key(s[|s| - 1]) in ks then f(s[|s| - 1]) else 0.0)
  }

  /** Array.prototype.filter: keeps, in order, exactly the elements
      satisfying p. */
  function Filter<T(==,!new)>(s: seq<T>, p: T -> bool): (r: seq<T>)
    ensures |r| <= |s|
    ensures forall x :: x in r <==> x in s && p(x)
    decreases |s|
  {
    if |s| == 0 then []
    else
      var rest := Filter(s[..|s| - 1], p);
      assert s == s[..|s| - 1] + [s[|s| - 1]];
      if p(s[|s| - 1]) then rest + [s[|s| - 1]] else rest
  }

  /** Filtering one more element appends it exactly when it is kept. */
  lemma FilterSnoc<T(!new)>(s: seq<T>, x: T, p: T -> bool)
    ensures Filter(s + [x], p) == Filter(s, p) + (if p(x) then [x] else [])
  {
  }

  /** Filtering a concatenation filters each part, so the kept elements
      stay in their input order. */
  lemma {:induction false} FilterAppend<T(!new)>(a: seq<T>, b: seq<T>, p: T -> bool)
    ensures Filter(a + b, p) == Filter(a, p) + Filter(b, p)
    decreases |b|
  {
    if |b| == 0 {
      assert a + b == a;
    } else {
      var init, last := b[..|b| - 1], b[|b| - 1];
      assert b == init + [last];
      assert a + b == (a + init) + [last];
      FilterSnoc(init, last, p);
      FilterSnoc(a + init, last, p);
      FilterAppend(a, init, p);
    }
  }

  /** A filter keeps the relative order of what it keeps: if a rank
      strictly increases along the input, it strictly increases along the
      output. */
  lemma {:induction false} FilterKeepsOrder<T(!new)>(s: seq<T>, p: T -> bool, rank: T -> int)
    requires forall a, b :: 0 <= a < b < |s| ==> rank(s[a]) < rank(s[b])
    ensures var r := Filter(s, p);
      forall i, j :: 0 <= i < j < |r| ==> rank(r[i]) < rank(r[j])
    decreases |s|
  {
    if |s| > 0 {
      var init, last := s[..|s| - 1], s[|s| - 1];
      FilterKeepsOrder(init, p, rank);
      FilterSnoc(init, last, p);
      assert s == init + [last];
      var f := Filter(init, p);
      forall x | x in f ensures rank(x) < rank(last) {
        var a :| 0 <= a < |init| && init[a] == x;
        assert s[a] == x;
      }
    }
  }

  /** Nothing passes a filter no element satisfies. */
  lemma {:induction false} FilterNone<T(!new)>(s: seq<T>, p: T -> bool)
    requires forall x :: x in s ==> !p(x)
    ensures Filter(s, p) == []
    decreases |s|
  {
    if |s| > 0 {
      assert s[|s| - 1] in s;
      FilterNone(s[..|s| - 1], p);
    }
  }

  /** Filter keeps each kept element as often as it occurs. */
  lemma {:induction false} FilterMultiplicity<T(!new)>(s: seq<T>, p: T -> bool, x: T)
    ensures multiset(Filter(s, p))[x] == if p(x) then multiset(s)[x] else 0
    decreases |s|
  {
    if |s| > 0 {
      FilterMultiplicity(s[..|s| - 1], p, x);
      assert s == s[..|s| - 1] + [s[|s| - 1]];
    }
  }

  lemma NoDuplicatesSnoc<K>(ks: seq<K>, k: K)
    requires NoDuplicates(ks) && k !in ks
    ensures NoDuplicates(ks + [k])
  {
  }

  /** A key no element has is not the key of any kept element either. */
  lemma FilterKeyAbsent<T(!new), K>(s: seq<T>, p: T -> bool, key: T -> K, k: K)
    requires k !in KeysOf(s, key)
    ensures k !in KeysOf(Filter(s, p), key)
  {
    var f := Filter(s, p);
    forall i | 0 <= i < |f| ensures key(f[i]) != k {
      assert f[i] in s;
      var m :| 0 <= m < |s| && s[m] == f[i];
      assert KeysOf(s, key)[m] == key(f[i]);
    }
  }

  /** The last element's key does not occur before it, and the keys before
      it are distinct. */
  lemma NoDuplicatesInit<T, K>(s: seq<T>, key: T -> K)
    requires |s| > 0 && NoDuplicates(KeysOf(s, key))
    ensures NoDuplicates(KeysOf(s[..|s| - 1], key))
    ensures key(s[|s| - 1]) !in KeysOf(s[..|s| - 1], key)
  {
  }

  /** Filtering a list whose keys are distinct leaves distinct keys. */
  lemma {:induction false} FilterKeepsDistinctKeys<T(!new), K>(s: seq<T>, p: T -> bool, key: T -> K)
    requires NoDuplicates(KeysOf(s, key))
    ensures NoDuplicates(KeysOf(Filter(s, p), key))
    decreases |s|
  {
    if |s| > 0 {
      var init, x := s[..|s| - 1], s[|s| - 1];
      NoDuplicatesInit(s, key);
      FilterKeepsDistinctKeys(init, p, key);
      var f := Filter(init, p);
      if p(x) {
        FilterKeyAbsent(init, p, key, key(x));
        NoDuplicatesSnoc(KeysOf(f, key), key(x));
        assert KeysOf(Filter(s, p), key) == KeysOf(f, key) + [key(x)] by {
          assert Filter(s, p) == f + [x];
        }
      } else {
        assert Filter(s, p) == f;
      }
    }
  }

  /** The rows of one d3.group entry: those whose key is k. */
  function Select<T(==,!new), K(==)>(s: seq<T>, key: T -> K, k: K): (r: seq<T>)
    ensures |r| <= |s|
    ensures forall x :: x in r <==> x in s && key(x) == k
    decreases |s|
  {
    if |s| == 0 then []
    else
      var rest := Select(s[..|s| - 1], key, k);
      assert s == s[..|s| - 1] + [s[|s| - 1]];
      if key(s[|s| - 1]) == k then rest + [s[|s| - 1]] else rest
  }

  /** Select keeps each row of the group as often as it occurs. */
  lemma {:induction false} SelectMultiplicity<T(!new), K>(s: seq<T>, key: T -> K, k: K, x: T)
    ensures multiset(Select(s, key, k))[x] == if key(x) == k then multiset(s)[x] else 0
    decreases |s|
  {
    if |s| > 0 {
      SelectMultiplicity(s[..|s| - 1], key, k, x);
      assert s == s[..|s| - 1] + [s[|s| - 1]];
    }
  }

  /** The key of every row, in row order. */
  function KeysOf<T, K>(s: seq<T>, key: T -> K): (r: seq<K>)
    ensures |r| == |s| && forall i :: 0 <= i < |s| ==> r[i] == key(s[i])
  {
    seq(|s|, i requires 0 <= i < |s| => key(s[i]))
  }

  /** The distinct values of s in first-seen order (the order of a JS Set
      or of the keys of a d3.group/d3.rollup). */
  function Distinct<K(==,!new)>(s: seq<K>): (r: seq<K>)
    ensures forall x :: x in r <==> x in s
    ensures NoDuplicates(r)
    ensures |r| <= |s|
    decreases |s|
  {
    if |s| == 0 then []
    else
      var d := Distinct(s[..|s| - 1]);
      assert forall x :: x in s <==> x in s[..|s| - 1] || x == s[|s| - 1];
      if s[|s| - 1] in d then d else d + [s[|s| - 1]]
  }

  /** The position of the first occurrence of x in s, or |s| when x does
      not occur. */
  function FirstIndex<K(==)>(s: seq<K>, x: K): (i: nat)
    ensures i <= |s|
    ensures i < |s| <==> x in s
    ensures i < |s| ==> s[i] == x
    ensures forall j :: 0 <= j < i ==> s[j] != x
    decreases |s|
  {
    if |s| == 0 || s[0] == x then 0
    else
      var i := FirstIndex(s[1..], x);
      assert forall j :: 1 <= j < |s| ==> s[j] == s[1..][j - 1];
      i + 1
  }

  /** Appending an element does not move the first occurrence of a value
      already present. */
  lemma FirstIndexSnoc<K>(s: seq<K>, y: K, x: K)
    requires x in s
    ensures FirstIndex(s + [y], x) == FirstIndex(s, x)
  {
    var i, k := FirstIndex(s + [y], x), FirstIndex(s, x);
    assert (s + [y])[k] == x;
    if i < k {
      assert s[i] == x;
    }
  }

  /** Distinct lists the values in the order of their first occurrence. */
  lemma {:induction false} DistinctFirstSeen<K(!new)>(s: seq<K>)
    ensures forall i, j :: 0 <= i < j < |Distinct(s)| ==> FirstIndex(s, Distinct(s)[i]) < FirstIndex(s, Distinct(s)[j])
    decreases |s|
  {
    if |s| > 0 {
      var init, x := s[..|s| - 1], s[|s| - 1];
      var d := Distinct(init);
      DistinctFirstSeen(init);
      assert s == init + [x];
      forall y | y in d ensures FirstIndex(s, y) == FirstIndex(init, y) && FirstIndex(init, y) < |init| {
        FirstIndexSnoc(init, x, y);
      }
      if x !in d {
        assert FirstIndex(s, x) == |init|;
        var r := d + [x];
        forall i, j | 0 <= i < j < |r| ensures FirstIndex(s, r[i]) < FirstIndex(s, r[j]) {
          assert r[i] in d;
          if j < |d| {
            assert r[j] in d;
          }
        }
      } else {
        forall i, j | 0 <= i < j < |d| ensures FirstIndex(s, d[i]) < FirstIndex(s, d[j]) {
          assert d[i] in d && d[j] in d;
        }
      }
    }
  }

  /** The distinct keys of the rows, in first-seen order. */
  function DistinctKeys<T, K(==,!new)>(s: seq<T>, key: T -> K): (r: seq<K>)
    ensures NoDuplicates(r)
    ensures forall k :: k in r <==> exists i :: 0 <= i < |s| && key(s[i]) == k
  {
    var ks := KeysOf(s, key);
    assert forall k :: k in ks <==> exists i :: 0 <= i < |s| && key(s[i]) == k;
    Distinct(ks)
  }

  /** One bucket per key of ks, in the order of ks. */
  function TotalsFor<T, K(==)>(ks: seq<K>, s: seq<T>, key: T -> K, f: T -> real): (r: seq<Bucket<K>>)
    ensures |r| == |ks|
    ensures forall i :: 0 <= i < |ks| ==> r[i] == Bucket(ks[i], SumWhere(s, key, ks[i], f))
    decreases |ks|
  {
    if |ks| == 0 then []
    else TotalsFor(ks[..|ks| - 1], s, key, f) + [Bucket(ks[|ks| - 1], SumWhere(s, key, ks[|ks| - 1], f))]
  }

  /** d3.rollup(s, v => d3.sum(v, f), key) as an array of entries. */
  function Rollup<T, K(==,!new)>(s: seq<T>, key: T -> K, f: T -> real): (r: seq<Bucket<K>>)
    ensures NoDuplicates(KeysOf(r, KeyOfBucket))
    ensures forall k :: k in KeysOf(r, KeyOfBucket) <==> k in KeysOf(s, key)
    ensures forall j :: 0 <= j < |r| ==> r[j].total == SumWhere(s, key, r[j].key, f)
  {
    var ks := DistinctKeys(s, key);
    var r := TotalsFor(ks, s, key, f);
    assert forall k :: k in KeysOf(r, KeyOfBucket) <==> k in ks;
    r
  }

  /** The keys of a rollup are the distinct keys of its rows, in the same
      order. */
  lemma RollupKeys<T, K(!new)>(s: seq<T>, key: T -> K, f: T -> real)
    ensures KeysOf(Rollup(s, key, f), KeyOfBucket) == DistinctKeys(s, key)
  {
  }

  /** A rollup lists its buckets in the order in which their keys first
      occur among the rows. */
  lemma RollupFirstSeen<T, K(!new)>(s: seq<T>, key: T -> K, f: T -> real)
    ensures var r := Rollup(s, key, f);
      forall i, j :: 0 <= i < j < |r| ==> FirstIndex(KeysOf(s, key), r[i].key) < FirstIndex(KeysOf(s, key), r[j].key)
  {
    var r := Rollup(s, key, f);
    var ks := KeysOf(s, key);
    RollupKeys(s, key, f);
    DistinctFirstSeen(ks);
    forall i, j | 0 <= i < j < |r| ensures FirstIndex(ks, r[i].key) < FirstIndex(ks, r[j].key) {
      assert r[i].key == Distinct(ks)[i] && r[j].key == Distinct(ks)[j];
    }
  }

  /** In buckets ordered by the first occurrence of their keys in labels, a
      key occurring before the first occurrence of bucket i's key belongs
      to an earlier bucket. */
  lemma EarlierKeyEarlierBucket<K>(labels: seq<K>, totals: seq<Bucket<K>>, i: nat, n: nat)
    requires i < |totals| && n < FirstIndex(labels, totals[i].key)
    requires labels[n] in KeysOf(totals, KeyOfBucket)
    requires forall a, b :: 0 <= a < b < |totals| ==> FirstIndex(labels, totals[a].key) < FirstIndex(labels, totals[b].key)
    ensures exists j :: 0 <= j < i && totals[j].key == labels[n]
  {
  }

  /** When bucket i of a rollup is the first of the largest, its key is
      the earliest-seen key with the largest sum: no row's key sums to more,
      and every row before the first row with that key has a key summing to
      strictly less. */
  lemma RollupFirstLargest<T, K(!new)>(s: seq<T>, key: T -> K, f: T -> real, i: nat)
    requires i < |Rollup(s, key, f)|
    requires forall j :: 0 <= j < |Rollup(s, key, f)| ==> TotalOf(Rollup(s, key, f)[j]) <= TotalOf(Rollup(s, key, f)[i])
    requires forall j :: 0 <= j < i ==> TotalOf(Rollup(s, key, f)[j]) < TotalOf(Rollup(s, key, f)[i])
    ensures var ks := KeysOf(s, key);
      var k := Rollup(s, key, f)[i].key;
      k in ks &&
      (forall n :: 0 <= n < |s| ==> SumWhere(s, key, ks[n], f) <= SumWhere(s, key, k, f)) &&
      (forall n :: 0 <= n < FirstIndex(ks, k) ==> SumWhere(s, key, ks[n], f) < SumWhere(s, key, k, f))
  {
    var r := Rollup(s, key, f);
    var ks := KeysOf(s, key);
    RollupFirstSeen(s, key, f);
    assert KeysOf(r, KeyOfBucket)[i] == r[i].key;
    forall n | 0 <= n < |s|
      ensures SumWhere(s, key, ks[n], f) <= r[i].total
      ensures n < FirstIndex(ks, r[i].key) ==> SumWhere(s, key, ks[n], f) < r[i].total
    {
      assert ks[n] in KeysOf(r, KeyOfBucket);
      var j :| 0 <= j < |r| && KeysOf(r, KeyOfBucket)[j] == ks[n];
      assert r[j].total == SumWhere(s, key, ks[n], f);
      assert TotalOf(r[j]) <= TotalOf(r[i]);
      if n < FirstIndex(ks, r[i].key) {
        EarlierKeyEarlierBucket(ks, r, i, n);
      }
    }
  }

  lemma {:induction false} SumByAppend<T>(a: seq<T>, b: seq<T>, f: T -> real)
    ensures SumBy(a + b, f) == SumBy(a, f) + SumBy(b, f)
    decreases |b|
  {
    if |b| == 0 {
      assert a + b == a;
    } else {
      var b' := b[..|b| - 1];
      SumByAppend(a, b', f);
      assert (a + b)[..|a + b| - 1] == a + b';
    }
  }

  /** A key that no row carries sums to 0. */
  lemma {:induction false} SumWhereAbsent<T, K>(s: seq<T>, key: T -> K, k: K, f: T -> real)
    requires forall i :: 0 <= i < |s| ==> key(s[i]) != k
    ensures SumWhere(s, key, k, f) == 0.0
    decreases |s|
  {
    if |s| > 0 {
      SumWhereAbsent(s[..|s| - 1], key, k, f);
    }
  }

  lemma {:induction false} SumKeyInAll<T, K>(s: seq<T>, key: T -> K, ks: seq<K>, f: T -> real)
    requires forall i :: 0 <= i < |s| ==> key(s[i]) in ks
    ensures SumKeyIn(s, key, ks, f) == SumBy(s, f)
    decreases |s|
  {
    if |s| > 0 {
      SumKeyInAll(s[..|s| - 1], key, ks, f);
    }
  }

  lemma {:induction false} TotalsForEmpty<T, K>(ks: seq<K>, key: T -> K, f: T -> real)
    ensures SumBy(TotalsFor(ks, [], key, f), TotalOf) == 0.0
    decreases |ks|
  {
    if |ks| > 0 {
      var r := TotalsFor(ks, [], key, f);
      TotalsForEmpty(ks[..|ks| - 1], key, f);
      assert r[..|r| - 1] == TotalsFor(ks[..|ks| - 1], [], key, f);
    }
  }

  /** Appending a row adds its value to the bucket of its key, if listed. */
  lemma {:induction false} TotalsForSnoc<T, K>(ks: seq<K>, s: seq<T>, x: T, key: T -> K, f: T -> real)
    requires NoDuplicates(ks)
    ensures SumBy(TotalsFor(ks, s + [x], key, f), TotalOf)
         == SumBy(TotalsFor(ks, s, key, f), TotalOf) + (if key(x) in ks then f(x) else 0.0)
    decreases |ks|
  {
    if |ks| > 0 {
      var ks' := ks[..|ks| - 1];
      var d := ks[|ks| - 1];
      TotalsForSnoc(ks', s, x, key, f);
      var r1 := TotalsFor(ks, s + [x], key, f);
      var r0 := TotalsFor(ks, s, key, f);
      assert r1[..|r1| - 1] == TotalsFor(ks', s + [x], key, f);
      assert r0[..|r0| - 1] == TotalsFor(ks', s, key, f);
      assert (s + [x])[..|s|] == s;
      assert SumWhere(s + [x], key, d, f) == SumWhere(s, key, d, f) + (if key(x) == d then f(x) else 0.0);
      assert ks == ks' + [d];
      assert key(x) in ks <==> key(x) in ks' || key(x) == d;
      assert key(x) == d ==> key(x) !in ks';
    }
  }

  /** The buckets for distinct keys ks together hold exactly the rows whose
      key is in ks: nothing is counted twice and nothing is lost. */
  lemma {:induction false} TotalsForSum<T, K>(ks: seq<K>, s: seq<T>, key: T -> K, f: T -> real)
    requires NoDuplicates(ks)
    ensures SumBy(TotalsFor(ks, s, key, f), TotalOf) == SumKeyIn(s, key, ks, f)
    decreases |s|
  {
    if |s| == 0 {
      TotalsForEmpty(ks, key, f);
    } else {
      var s' := s[..|s| - 1];
      var x := s[|s| - 1];
      assert s == s' + [x];
      TotalsForSum(ks, s', key, f);
      TotalsForSnoc(ks, s', x, key, f);
      assert SumKeyIn(s, key, ks, f) == SumKeyIn(s', key, ks, f) + (if key(x) in ks then f(x) else 0.0);
    }
  }

  /** `map.get(k)` on a rollup laid out as buckets: the first bucket with
      key k, or none. */
  function Lookup<K(==)>(buckets: seq<Bucket<K>>, k: K): (r: Option<real>)
    ensures r.None? <==> k !in KeysOf(buckets, KeyOfBucket)
    ensures r.Some? ==> exists i :: 0 <= i < |buckets| && buckets[i] == Bucket(k, r.value)
    decreases |buckets|
  {
    if |buckets| == 0 then None
    else if buckets[0].key == k then
      assert KeysOf(buckets, KeyOfBucket)[0] == k;
      Some(buckets[0].total)
    else
      var r := Lookup(buckets[1..], k);
      assert forall j :: 0 < j < |buckets| ==> KeysOf(buckets, KeyOfBucket)[j] == KeysOf(buckets[1..], KeyOfBucket)[j - 1];
      assert r.Some? ==> exists i :: 0 <= i < |buckets| && buckets[i] == Bucket(k, r.value) by {
        if r.Some? {
          var i :| 0 <= i < |buckets[1..]| && buckets[1..][i] == Bucket(k, r.value);
          assert buckets[i + 1] == Bucket(k, r.value);
        }
      }
      r
  }

  /** Looking a key up in a rollup gives the key's sum when some row has the
      key, and nothing otherwise. */
  lemma LookupRollup<T, K(!new)>(s: seq<T>, key: T -> K, f: T -> real, k: K)
    ensures Lookup(Rollup(s, key, f), k) == if k in KeysOf(s, key) then Some(SumWhere(s, key, k, f)) else None
  {
  }

  /** The sum of a rollup's buckets equals the sum over all its rows. */
  lemma RollupConserves<T, K(!new)>(s: seq<T>, key: T -> K, f: T -> real)
    ensures SumBy(Rollup(s, key, f), TotalOf) == SumBy(s, f)
  {
    var ks := DistinctKeys(s, key);
    TotalsForSum(ks, s, key, f);
    assert forall i :: 0 <= i < |s| ==> key(s[i]) in ks;
    SumKeyInAll(s, key, ks, f);
  }

  /** The rows of a d3.group entry sum to the rollup value of its key. */
  lemma {:induction false} SelectSum<T(!new), K>(s: seq<T>, key: T -> K, k: K, f: T -> real)
    ensures SumBy(Select(s, key, k), f) == SumWhere(s, key, k, f)
    decreases |s|
  {
    if |s| > 0 {
      var s' := s[..|s| - 1];
      SelectSum(s', key, k, f);
      if key(s[|s| - 1]) == k {
        var r' := Select(s', key, k);
        assert (r' + [s[|s| - 1]])[..|r'|] == r';
      }
    }
  }

  /** Sums of two equally long lists agree when they agree element-wise. */
  lemma {:induction false} SumByPointwise<T, U>(a: seq<T>, f: T -> real, b: seq<U>, g: U -> real)
    requires |a| == |b|
    requires forall i :: 0 <= i < |a| ==> f(a[i]) == g(b[i])
    ensures SumBy(a, f) == SumBy(b, g)
    decreases |a|
  {
    if |a| > 0 {
      SumByPointwise(a[..|a| - 1], f, b[..|b| - 1], g);
    }
  }

  /** Dropping elements whose term is 0 leaves a sum unchanged. */
  lemma {:induction false} SumByFilterDropsZeros<T(!new)>(s: seq<T>, p: T -> bool, f: T -> real)
    requires forall i :: 0 <= i < |s| && !p(s[i]) ==> f(s[i]) == 0.0
    ensures SumBy(Filter(s, p), f) == SumBy(s, f)
    decreases |s|
  {
    if |s| > 0 {
      var s' := s[..|s| - 1];
      SumByFilterDropsZeros(s', p, f);
      if p(s[|s| - 1]) {
        var r' := Filter(s', p);
        assert (r' + [s[|s| - 1]])[..|r'|] == r';
      }
    }
  }

  lemma {:induction false} SumByNonNegative<T>(s: seq<T>, f: T -> real)
    requires forall i :: 0 <= i < |s| ==> f(s[i]) >= 0.0
    ensures SumBy(s, f) >= 0.0
    decreases |s|
  {
    if |s| > 0 {
      SumByNonNegative(s[..|s| - 1], f);
    }
  }

  lemma {:induction false} SumWhereNonNegative<T, K>(s: seq<T>, key: T -> K, k: K, f: T -> real)
    requires forall i :: 0 <= i < |s| ==> f(s[i]) >= 0.0
    ensures SumWhere(s, key, k, f) >= 0.0
    decreases |s|
  {
    if |s| > 0 {
      SumWhereNonNegative(s[..|s| - 1], key, k, f);
    }
  }

  /** d3.max over numbers: None for an empty list. */
  function MaxOf(s: seq<real>): (r: Option<real>)
    ensures r.None? <==> |s| == 0
    ensures r.Some? ==> r.value in s && forall i :: 0 <= i < |s| ==> s[i] <= r.value
    decreases |s|
  {
    if |s| == 0 then None
    else
      var m := MaxOf(s[..|s| - 1]);
      assert forall x :: x in s[..|s| - 1] ==> x in s;
      if m.Some? && m.value >= s[|s| - 1] then m else Some(s[|s| - 1])
  }

  /** d3.min over numbers: None for an empty list. */
  function MinOf(s: seq<real>): (r: Option<real>)
    ensures r.None? <==> |s| == 0
    ensures r.Some? ==> r.value in s && forall i :: 0 <= i < |s| ==> r.value <= s[i]
    decreases |s|
  {
    if |s| == 0 then None
    else
      var m := MinOf(s[..|s| - 1]);
      assert forall x :: x in s[..|s| - 1] ==> x in s;
      if m.Some? && m.value <= s[|s| - 1] then m else Some(s[|s| - 1])
  }

  /** A measure that is 0 on every element sums to 0, for any key. */
  lemma {:induction false} SumWhereZero<T, K>(s: seq<T>, key: T -> K, k: K, f: T -> real)
    requires forall x :: x in s ==> f(x) == 0.0
    ensures SumWhere(s, key, k, f) == 0.0
    decreases |s|
  {
    if |s| > 0 {
      SumWhereZero(s[..|s| - 1], key, k, f);
    }
  }

  /** A measure that is 0 on every element sums to 0. */
  lemma {:induction false} SumByZero<T>(s: seq<T>, f: T -> real)
    requires forall i :: 0 <= i < |s| ==> f(s[i]) == 0.0
    ensures SumBy(s, f) == 0.0
    decreases |s|
  {
    if |s| > 0 {
      SumByZero(s[..|s| - 1], f);
    }
  }
}

=== FILE: barchart.dfy ===
/** The guards of the bar charts: renderBarChart in js/chart5.js and
    js/chart6.js, and the value axis of drawBarChart in js/chart3.js. */
module BarChart {
  import opened Common
  import opened Aggregate

  /** `d3.max(values) || 1`: the largest value, except that an empty list
      or a largest value of 0 (both falsy) give 1. */
  function MaxOrOne(vals: seq<real>): (r: real)
    ensures forall v :: v in vals ==> v <= r
    ensures r != 0.0
    ensures |vals| == 0 ==> r == 1.0
    ensures |vals| > 0 ==> r in vals || (r == 1.0 && 0.0 in vals && forall v :: v in vals ==> v <= 0.0)
    ensures r in vals || (r == 1.0 && forall i :: 0 <= i < |vals| ==> vals[i] <= 0.0)
  {
    match MaxOf(vals)
    case None => 1.0
    case Some(m) =>
      assert forall v :: v in vals ==> v <= m by {
        forall v | v in vals ensures v <= m {
          var i :| 0 <= i < |vals| && vals[i] == v;
        }
      }
      if m == 0.0 then 1.0 else m
  }

  /** What renderBarChart draws: the no-data message, or bars on a value
      axis from 0 to `top`. */
  datatype Render = NoData | Drawn(top: real)

  function ValuesOf(series: seq<Bucket<string>>): (r: seq<real>)
    ensures |r| == |series| && forall i :: 0 <= i < |series| ==> r[i] == series[i].total
  {
    KeysOf(series, TotalOf)
  }

  /** The no-data branch is taken exactly for an empty series; otherwise the
      value axis reaches every bar and is never 0 wide. */
  function RenderBarChart(series: seq<Bucket<string>>): (r: Render)
    ensures r == NoData <==> |series| == 0
    ensures r.Drawn? ==> r.top != 0.0 && forall i :: 0 <= i < |series| ==> series[i].total <= r.top
    ensures r.Drawn? ==> (exists i :: 0 <= i < |series| && series[i].total == r.top) || r.top == 1.0
  {
    if |series| == 0 then NoData
    else
      var vals := ValuesOf(series);
      var top := MaxOrOne(vals);
      assert forall i :: 0 <= i < |series| ==> series[i].total <= top by {
        forall i | 0 <= i < |series| ensures series[i].total <= top {
          assert vals[i] in vals;
        }
      }
      Drawn(top)
  }

  /** The y position of value v on the linear scale from [0, top] onto
      [height, 0]. */
  function ScaleY(v: real, top: real, height: real): real
    requires top != 0.0
  {
    height - v / top * height
  }

  /** A bar's height `Math.max(0, height - y(value))`: never negative, and,
      on a positive axis of positive height, positive exactly for a
      positive value and no taller than the plot for a value within the
      axis. */
  function BarHeight(v: real, top: real, height: real): (h: real)
    requires top != 0.0
    ensures h >= 0.0
    ensures top > 0.0 && height > 0.0 ==> (h > 0.0 <==> v > 0.0)
    ensures top > 0.0 && height >= 0.0 && v <= top ==> h <= height
  {
    var d := height - ScaleY(v, top, height);
    assert d == v / top * height;
    if top > 0.0 && height >= 0.0 && v <= top then
      assert v / top <= 1.0;
      assert v / top * height <= height by {
        if v >= 0.0 { assert v / top * height <= 1.0 * height; }
      }
      if d > 0.0 then d else 0.0
    else if d > 0.0 then d else 0.0
  }

  /** A larger value never gets a shorter bar. */
  lemma BarHeightMonotone(v1: real, v2: real, top: real, height: real)
    requires top > 0.0 && height >= 0.0 && v1 <= v2
    ensures BarHeight(v1, top, height) <= BarHeight(v2, top, height)
  {
  }

  lemma ScaleByNonNegative(a: real, b: real, c: real)
    requires a <= b && c >= 0.0
    ensures a * c <= b * c
  {
  }
}

=== FILE: chart1.dfy ===
/** js/chart1.js: offences stacked by age group, one bar per jurisdiction
    (or per location inside a chosen jurisdiction), and the metrics panel
    beside it. */
module Chart1 {
  import opened Common
  import opened Aggregate
  import opened Ordering

  /** One CSV row: the categories as text ("" when the cell is empty) and
      every numeric cell read as `+cell || 0`, which is what both d3.sum and
      the metrics panel make of it. */
  datatype Row = Row(jurisdiction: string, location: string, age: string, finesLog: real, counts: Counts)

  function JurisdictionOf(r: Row): string { r.jurisdiction }

  function LocationOf(r: Row): string { r.location }

  function AgeOf(r: Row): string { r.age }

  /** The stack order of the bars, bottom to top. */
  const AgeGroups: seq<string> := ["0-16", "17-25", "26-39", "40-64", "65 and over", "Unknown"]

  lemma AgeGroupsDistinct()
    ensures NoDuplicates(AgeGroups)
  {
  }

  /** The filter the change listener applies: the age and location
      selectors are off when empty, the jurisdiction selector when 'All'. */
  function FilterRows(rows: seq<Row>, ageVal: string, jurVal: string, locVal: string): (r: seq<Row>)
    ensures |r| <= |rows|
    ensures forall x :: x in r <==> x in rows && (ageVal == "" || x.age == ageVal) &&
                                     (jurVal == "All" || x.jurisdiction == jurVal) && (locVal == "" || x.location == locVal)
  {
    Filter(rows, (x: Row) => (ageVal == "" || x.age == ageVal) &&
                             (jurVal == "All" || x.jurisdiction == jurVal) && (locVal == "" || x.location == locVal))
  }

  /** What the bars stand for. */
  datatype XBy = ByJurisdiction | ByLocation

  /** Locations only when a jurisdiction is picked and no location is. */
  function XByFor(jurVal: string, locVal: string): (x: XBy)
    ensures x == ByLocation <==> jurVal != "All" && locVal == ""
  {
    if jurVal != "All" && locVal == "" then ByLocation else ByJurisdiction
  }

  function XKey(x: XBy): Row -> string {
    match x
    case ByJurisdiction => JurisdictionOf
    case ByLocation => LocationOf
  }

  /** The numeric columns the stacked bars can sum. */
  datatype StackColumn = FinesLog | ArrestsColumn | ChargesColumn

  /** The column updateChart stacks, read from the offence selector (empty
      meaning "Fines (log)"); any other text selects no column. */
  function StackColumnFor(offVal: string): (c: Option<StackColumn>)
    ensures c == Some(FinesLog) <==> offVal == "Fines (log)" || offVal == ""
    ensures c == Some(ArrestsColumn) <==> offVal == "Arrests"
    ensures c == Some(ChargesColumn) <==> offVal == "Charges"
  {
    var v := if offVal == "" then "Fines (log)" else offVal;
    if v == "Fines (log)" then Some(FinesLog)
    else if v == "Arrests" then Some(ArrestsColumn)
    else if v == "Charges" then Some(ChargesColumn)
    else None
  }

  /** The raw column the bar tooltip sums next to the stacked one. */
  function RawColumnFor(offVal: string): (m: Option<Metric>)
    ensures m == Some(Fines) <==> StackColumnFor(offVal) == Some(FinesLog)
    ensures m == Some(Arrests) <==> StackColumnFor(offVal) == Some(ArrestsColumn)
    ensures m == Some(Charges) <==> StackColumnFor(offVal) == Some(ChargesColumn)
  {
    match StackColumnFor(offVal)
    case None => None
    case Some(FinesLog) => Some(Fines)
    case Some(ArrestsColumn) => Some(Arrests)
    case Some(ChargesColumn) => Some(Charges)
  }

  /** The column the change listener computes and passes on as valueCol:
      anything that is not a fines or arrests choice falls back to CHARGES. */
  function ValueColumnFor(offVal: string): (c: StackColumn)
    ensures c == FinesLog <==> offVal == "Fines (log)" || offVal == ""
    ensures c == ArrestsColumn <==> offVal == "Arrests"
  {
    if offVal == "Fines (log)" || offVal == "" then FinesLog
    else if offVal == "Arrests" then ArrestsColumn
    else ChargesColumn
  }

  /** updateChart ignores valueCol and recomputes the column itself; the two
      agree on every recognised choice, and only an unrecognised one (which
      stacks nothing) tells them apart. */
  lemma ValueColumnMatchesStackColumn(offVal: string)
    ensures StackColumnFor(offVal).Some? ==> StackColumnFor(offVal) == Some(ValueColumnFor(offVal))
    ensures StackColumnFor(offVal).None? <==> offVal != "" && offVal != "Fines (log)" && offVal != "Arrests" && offVal != "Charges"
  {
  }

  /** `d[stackCol]` as d3.sum reads it. */
  function StackValue(r: Row, c: Option<StackColumn>): (v: real)
    ensures c.None? ==> v == 0.0
    ensures c == Some(FinesLog) ==> v == r.finesLog
    ensures c == Some(ArrestsColumn) ==> v == r.counts.arrests
    ensures c == Some(ChargesColumn) ==> v == r.counts.charges
  {
    match c
    case None => 0.0
    case Some(FinesLog) => r.finesLog
    case Some(ArrestsColumn) => r.counts.arrests
    case Some(ChargesColumn) => r.counts.charges
  }

  function StackFn(c: Option<StackColumn>): Row -> real {
    (r: Row) => StackValue(r, c)
  }

  /** One bar: its x key and one segment per age group, in AgeGroups order. */
  datatype Bar = Bar(key: string, segments: seq<Bucket<string>>)

  function BarKey(b: Bar): string { b.key }

  /** The bar's height: the sum of its segments. */
  function BarTotal(b: Bar): real { SumBy(b.segments, TotalOf) }

  /** `d3.rollup(data, sum, keyAccessor, d => d.AGE_GROUP)` laid out as the
      stack input: one bar per x key in first-seen order, and for each age
      group the sum over that key's rows of that exact age group (0 when it
      has none). */
  function StackedData(rows: seq<Row>, x: XBy, c: Option<StackColumn>): (r: seq<Bar>)
    ensures NoDuplicates(KeysOf(r, BarKey))
    ensures forall k :: k in KeysOf(r, BarKey) <==> k in KeysOf(rows, XKey(x))
    ensures forall i :: 0 <= i < |r| ==> |r[i].segments| == |AgeGroups|
    ensures forall i, j :: 0 <= i < |r| && 0 <= j < |AgeGroups| ==>
              r[i].segments[j] == Bucket(AgeGroups[j], SumWhere(Select(rows, XKey(x), r[i].key), AgeOf, AgeGroups[j], StackFn(c)))
  {
    var keys := DistinctKeys(rows, XKey(x));
    var r := seq(|keys|, i requires 0 <= i < |keys| =>
                Bar(keys[i], TotalsFor(AgeGroups, Select(rows, XKey(x), keys[i]), AgeOf, StackFn(c))));
    assert KeysOf(r, BarKey) == keys;
    assert forall k :: k in KeysOf(rows, XKey(x)) <==> exists i :: 0 <= i < |rows| && XKey(x)(rows[i]) == k by {
      forall k ensures k in KeysOf(rows, XKey(x)) <==> exists i :: 0 <= i < |rows| && XKey(x)(rows[i]) == k {
        if k in KeysOf(rows, XKey(x)) {
          var i :| 0 <= i < |rows| && KeysOf(rows, XKey(x))[i] == k;
        }
      }
    }
    r
  }

  /** A bar is as high as the sum over its rows whose age group is one of
      the six stacked groups: rows of any other age group (an empty cell
      included) are left out of the stack. */
  lemma BarTotalCountsStackedAges(rows: seq<Row>, x: XBy, c: Option<StackColumn>, i: nat)
    requires i < |StackedData(rows, x, c)|
    ensures BarTotal(StackedData(rows, x, c)[i]) ==
              SumKeyIn(Select(rows, XKey(x), StackedData(rows, x, c)[i].key), AgeOf, AgeGroups, StackFn(c))
  {
    var b := StackedData(rows, x, c)[i];
    var group := Select(rows, XKey(x), b.key);
    assert b.segments == TotalsFor(AgeGroups, group, AgeOf, StackFn(c));
    AgeGroupsDistinct();
    TotalsForSum(AgeGroups, group, AgeOf, StackFn(c));
  }

  /** The bars follow the x keys in first-seen order, one bar per key. */
  lemma BarKeysAreDistinctKeys(rows: seq<Row>, x: XBy, c: Option<StackColumn>)
    ensures KeysOf(StackedData(rows, x, c), BarKey) == DistinctKeys(rows, XKey(x))
  {
  }

  /** The bars stand in the order in which their x keys first occur among
      the rows. */
  lemma StackedDataFirstSeen(rows: seq<Row>, x: XBy, c: Option<StackColumn>)
    ensures var r := StackedData(rows, x, c);
      forall i, j :: 0 <= i < j < |r| ==> FirstIndex(KeysOf(rows, XKey(x)), r[i].key) < FirstIndex(KeysOf(rows, XKey(x)), r[j].key)
  {
    var r := StackedData(rows, x, c);
    var ks := KeysOf(rows, XKey(x));
    BarKeysAreDistinctKeys(rows, x, c);
    DistinctFirstSeen(ks);
    forall i, j | 0 <= i < j < |r| ensures FirstIndex(ks, r[i].key) < FirstIndex(ks, r[j].key) {
      assert r[i].key == KeysOf(r, BarKey)[i] && r[j].key == KeysOf(r, BarKey)[j];
    }
  }

  /** With every age group stacked, a bar is exactly as high as its key's
      sum over all rows. */
  lemma BarTotalIsKeySum(rows: seq<Row>, x: XBy, c: Option<StackColumn>, i: nat)
    requires forall n :: 0 <= n < |rows| ==> rows[n].age in AgeGroups
    requires i < |StackedData(rows, x, c)|
    ensures BarTotal(StackedData(rows, x, c)[i]) == SumWhere(rows, XKey(x), StackedData(rows, x, c)[i].key, StackFn(c))
  {
    var k := StackedData(rows, x, c)[i].key;
    var group := Select(rows, XKey(x), k);
    BarTotalCountsStackedAges(rows, x, c, i);
    assert forall m :: 0 <= m < |group| ==> AgeOf(group[m]) in AgeGroups by {
      forall m | 0 <= m < |group| ensures AgeOf(group[m]) in AgeGroups {
        assert group[m] in rows;
      }
    }
    SumKeyInAll(group, AgeOf, AgeGroups, StackFn(c));
    SelectSum(rows, XKey(x), k, StackFn(c));
  }

  /** With every age group stacked, the bar heights are the rolled-up sums
      of the x keys, position by position. */
  lemma BarTotalsAreKeyTotals(rows: seq<Row>, x: XBy, c: Option<StackColumn>)
    requires forall i :: 0 <= i < |rows| ==> rows[i].age in AgeGroups
    ensures |StackedData(rows, x, c)| == |DistinctKeys(rows, XKey(x))|
    ensures forall i :: 0 <= i < |StackedData(rows, x, c)| ==>
              BarTotal(StackedData(rows, x, c)[i]) == TotalOf(TotalsFor(DistinctKeys(rows, XKey(x)), rows, XKey(x), StackFn(c))[i])
  {
    var r := StackedData(rows, x, c);
    BarKeysAreDistinctKeys(rows, x, c);
    forall i | 0 <= i < |r|
      ensures BarTotal(r[i]) == SumWhere(rows, XKey(x), KeysOf(r, BarKey)[i], StackFn(c))
    {
      BarTotalIsKeySum(rows, x, c, i);
    }
  }

  /** When every row's age group is one of the six, the bars together are
      exactly as high as the column's sum over all rows. */
  lemma StackedDataConserves(rows: seq<Row>, x: XBy, c: Option<StackColumn>)
    requires forall i :: 0 <= i < |rows| ==> rows[i].age in AgeGroups
    ensures SumBy(StackedData(rows, x, c), BarTotal) == SumBy(rows, StackFn(c))
  {
    BarTotalsAreKeyTotals(rows, x, c);
    SumByPointwise(StackedData(rows, x, c), BarTotal, TotalsFor(DistinctKeys(rows, XKey(x)), rows, XKey(x), StackFn(c)), TotalOf);
    RollupConserves(rows, XKey(x), StackFn(c));
  }

  /** Every bar height, in bar order. */
  function BarTotals(bars: seq<Bar>): (r: seq<real>)
    ensures |r| == |bars| && forall i :: 0 <= i < |bars| ==> r[i] == BarTotal(bars[i])
  {
    KeysOf(bars, BarTotal)
  }

  /** The y-domain top `d3.max(stackedData, total) * 1.1`: NaN when there
      is no bar, otherwise 10% above the highest bar. */
  function YDomainTop(bars: seq<Bar>): (r: JsNum)
    ensures r == NaN <==> |bars| == 0
    ensures r.Num? ==> forall i :: 0 <= i < |bars| ==> r.val >= BarTotal(bars[i]) * 1.1
    ensures r.Num? ==> exists i :: 0 <= i < |bars| && r.val == BarTotal(bars[i]) * 1.1
  {
    match MaxOf(BarTotals(bars))
    case None => NaN
    case Some(m) =>
      assert forall i :: 0 <= i < |bars| ==> BarTotal(bars[i]) <= m;
      Num(m * 1.1)
  }

  /** The two sums the bar tooltip shows for one key and age group: the
      stacked column and the raw column. */
  datatype TooltipSums = TooltipSums(stacked: real, raw: real)

  /** `d[rawCol]` as d3.sum reads it. */
  function RawFn(offVal: string): Row -> real {
    (r: Row) => CountOf(r.counts, RawColumnFor(offVal))
  }

  /** The tooltip of one segment: the stacked and the raw column summed over
      the rows of that key and age group; apart from FINES_log the two are
      the same column and agree. */
  function BarTooltip(rows: seq<Row>, x: XBy, offVal: string, key: string, age: string): (t: TooltipSums)
    ensures StackColumnFor(offVal) != Some(FinesLog) ==> t.stacked == t.raw
    ensures t.stacked == SumBy(Select(Select(rows, XKey(x), key), AgeOf, age), StackFn(StackColumnFor(offVal)))
    ensures t.raw == SumBy(Select(Select(rows, XKey(x), key), AgeOf, age), RawFn(offVal))
  {
    var group := Select(rows, XKey(x), key);
    var metric := RawFn(offVal);
    SelectSum(group, AgeOf, age, StackFn(StackColumnFor(offVal)));
    SelectSum(group, AgeOf, age, metric);
    if StackColumnFor(offVal) != Some(FinesLog) then
      SumWherePointwise(group, AgeOf, age, StackFn(StackColumnFor(offVal)), metric);
      TooltipSums(SumWhere(group, AgeOf, age, StackFn(StackColumnFor(offVal))), SumWhere(group, AgeOf, age, metric))
    else
      TooltipSums(SumWhere(group, AgeOf, age, StackFn(StackColumnFor(offVal))), SumWhere(group, AgeOf, age, metric))
  }

  lemma {:induction false} SumWherePointwise<T, K>(s: seq<T>, key: T -> K, k: K, f: T -> real, g: T -> real)
    requires forall x :: f(x) == g(x)
    ensures SumWhere(s, key, k, f) == SumWhere(s, key, k, g)
    decreases |s|
  {
    if |s| > 0 {
      SumWherePointwise(s[..|s| - 1], key, k, f, g);
    }
  }

  /** The age label of the metrics panel: an empty age group counts as
      "Unknown". */
  function AgeLabel(r: Row): (a: string)
    ensures a != ""
    ensures r.age != "" ==> a == r.age
  {
    if r.age == "" then "Unknown" else r.age
  }

  /** The count the panel attributes to age groups for the offence choice;
      any other choice attributes nothing. */
  function PanelMetric(offenseType: string): (m: Option<Metric>)
    ensures m == Some(Fines) <==> offenseType == "Fines (log)" || offenseType == "Fines"
    ensures m == Some(Arrests) <==> offenseType == "Arrests"
    ensures m == Some(Charges) <==> offenseType == "Charges"
  {
    if offenseType == "Fines (log)" || offenseType == "Fines" then Some(Fines)
    else if offenseType == "Arrests" then Some(Arrests)
    else if offenseType == "Charges" then Some(Charges)
    else None
  }

  function PanelFn(offenseType: string): Row -> real {
    (r: Row) => CountOf(r.counts, PanelMetric(offenseType))
  }

  /** What updateMetrics writes into the panel. */
  datatype Metrics = Metrics(totalFines: real, totalArrests: real, totalCharges: real, topAgeGroup: string)

  function FinesOf(r: Row): real { r.counts.fines }

  function ArrestsOf(r: Row): real { r.counts.arrests }

  function ChargesOf(r: Row): real { r.counts.charges }

  /** The per-age totals in first-seen order of the age labels: one bucket
      per label present, holding that label's sum of the chosen count. */
  function AgeGroupTotals(rows: seq<Row>, offenseType: string): (r: seq<Bucket<string>>)
    ensures NoDuplicates(KeysOf(r, KeyOfBucket))
    ensures forall k :: k in KeysOf(r, KeyOfBucket) <==> k in KeysOf(rows, AgeLabel)
    ensures forall j :: 0 <= j < |r| ==> r[j].total == SumWhere(rows, AgeLabel, r[j].key, PanelFn(offenseType))
  {
    Rollup(rows, AgeLabel, PanelFn(offenseType))
  }

  /** The age label whose total comes first after the descending sort
      (`sort(...)[0]?.[0] || "N/A"`): "N/A" when there is no row. */
  function TopAgeGroup(rows: seq<Row>, offenseType: string): (top: string)
    ensures |rows| == 0 ==> top == "N/A"
    ensures |rows| > 0 ==> top in KeysOf(rows, AgeLabel)
  {
    var totals := AgeGroupTotals(rows, offenseType);
    RollupEmptyIffNoRows(rows, AgeLabel, PanelFn(offenseType));
    if |totals| == 0 then "N/A"
    else
      var key := SortDesc(totals, TotalOf)[0].key;
      SortedHeadIsBucket(totals);
      LabelsAreNonEmpty(rows, key);
      if key == "" then "N/A" else key
  }

  lemma RollupEmptyIffNoRows<T, K(!new)>(rows: seq<T>, key: T -> K, f: T -> real)
    ensures |Rollup(rows, key, f)| == 0 <==> |rows| == 0
  {
  }

  lemma SortedHeadIsBucket(totals: seq<Bucket<string>>)
    requires |totals| > 0
    ensures SortDesc(totals, TotalOf)[0].key in KeysOf(totals, KeyOfBucket)
  {
    var h := SortDesc(totals, TotalOf)[0];
    assert h in multiset(totals);
    var i :| 0 <= i < |totals| && totals[i] == h;
    assert KeysOf(totals, KeyOfBucket)[i] == h.key;
  }

  lemma LabelsAreNonEmpty(rows: seq<Row>, name: string)
    requires name in KeysOf(rows, AgeLabel)
    ensures name != ""
  {
  }

  /** updateMetrics: the three counts summed over the filtered rows and the
      leading age group for the chosen offence. The per-age totals behind
      the leading group split exactly the panel's total for that offence,
      and are all 0 for an offence the panel does not know. */
  function UpdateMetrics(rows: seq<Row>, offenseType: string): (m: Metrics)
    ensures |rows| == 0 ==> m == Metrics(0.0, 0.0, 0.0, "N/A")
    ensures |rows| > 0 ==> m.topAgeGroup in KeysOf(rows, AgeLabel)
    ensures m.totalFines == SumBy(rows, FinesOf) && m.totalArrests == SumBy(rows, ArrestsOf) && m.totalCharges == SumBy(rows, ChargesOf)
    ensures offenseType == "Fines (log)" || offenseType == "Fines" ==> SumBy(AgeGroupTotals(rows, offenseType), TotalOf) == m.totalFines
    ensures offenseType == "Arrests" ==> SumBy(AgeGroupTotals(rows, offenseType), TotalOf) == m.totalArrests
    ensures offenseType == "Charges" ==> SumBy(AgeGroupTotals(rows, offenseType), TotalOf) == m.totalCharges
    ensures PanelMetric(offenseType).None? ==> forall j :: 0 <= j < |AgeGroupTotals(rows, offenseType)| ==> AgeGroupTotals(rows, offenseType)[j].total == 0.0
  {
    AgeTotalsSplitPanelTotal(rows, offenseType);
    Metrics(SumBy(rows, FinesOf), SumBy(rows, ArrestsOf), SumBy(rows, ChargesOf), TopAgeGroup(rows, offenseType))
  }

  /** The per-age totals of the chosen offence add up to that offence's
      total over the rows, and vanish for an offence the panel does not
      know. */
  lemma AgeTotalsSplitPanelTotal(rows: seq<Row>, offenseType: string)
    ensures PanelMetric(offenseType) == Some(Fines) ==> SumBy(AgeGroupTotals(rows, offenseType), TotalOf) == SumBy(rows, FinesOf)
    ensures PanelMetric(offenseType) == Some(Arrests) ==> SumBy(AgeGroupTotals(rows, offenseType), TotalOf) == SumBy(rows, ArrestsOf)
    ensures PanelMetric(offenseType) == Some(Charges) ==> SumBy(AgeGroupTotals(rows, offenseType), TotalOf) == SumBy(rows, ChargesOf)
    ensures PanelMetric(offenseType).None? ==> forall j :: 0 <= j < |AgeGroupTotals(rows, offenseType)| ==> AgeGroupTotals(rows, offenseType)[j].total == 0.0
  {
    var f := PanelFn(offenseType);
    var totals := AgeGroupTotals(rows, offenseType);
    AgeGroupTotalsConserve(rows, offenseType);
    match PanelMetric(offenseType)
    case Some(Fines) => SumByPointwise(rows, f, rows, FinesOf);
    case Some(Arrests) => SumByPointwise(rows, f, rows, ArrestsOf);
    case Some(Charges) => SumByPointwise(rows, f, rows, ChargesOf);
    case None =>
      forall j | 0 <= j < |totals| ensures totals[j].total == 0.0 {
        SumWhereZero(rows, AgeLabel, totals[j].key, f);
      }
  }

  /** The leading age group is the earliest-seen age label among those with
      the largest total: no row's label has a larger total, and every row
      before the first row carrying the leading label has a label with a
      smaller total. */
  lemma TopAgeGroupIsFirstLargest(rows: seq<Row>, offenseType: string)
    requires |rows| > 0
    ensures var labels := KeysOf(rows, AgeLabel);
      var top := TopAgeGroup(rows, offenseType);
      var f := PanelFn(offenseType);
      top in labels &&
      (forall n :: 0 <= n < |rows| ==> SumWhere(rows, AgeLabel, labels[n], f) <= SumWhere(rows, AgeLabel, top, f)) &&
      (forall n :: 0 <= n < FirstIndex(labels, top) ==> SumWhere(rows, AgeLabel, labels[n], f) < SumWhere(rows, AgeLabel, top, f))
  {
    var totals := Rollup(rows, AgeLabel, PanelFn(offenseType));
    TopAgeGroupIsSortedHead(rows, offenseType);
    SortDescHeadIsFirstMaximal(totals, TotalOf);
    var i := FirstMaxIndex(totals, TotalOf);
    assert totals[i].key == TopAgeGroup(rows, offenseType);
    RollupFirstLargest(rows, AgeLabel, PanelFn(offenseType), i);
  }

  /** The head of the descending sort is the earliest bucket with the
      largest total. */
  lemma SortedHeadIsFirstLargest(totals: seq<Bucket<string>>)
    requires |totals| > 0
    ensures exists i :: 0 <= i < |totals| && totals[i].key == SortDesc(totals, TotalOf)[0].key &&
              (forall j :: 0 <= j < |totals| ==> totals[j].total <= totals[i].total) &&
              (forall j :: 0 <= j < i ==> totals[j].total < totals[i].total)
  {
    SortDescHeadIsFirstMaximal(totals, TotalOf);
    var i := FirstMaxIndex(totals, TotalOf);
    assert forall j :: 0 <= j < |totals| ==> totals[j].total <= totals[i].total by {
      forall j | 0 <= j < |totals| ensures totals[j].total <= totals[i].total {
        assert TotalOf(totals[j]) <= TotalOf(totals[i]);
      }
    }
    assert forall j :: 0 <= j < i ==> totals[j].total < totals[i].total by {
      forall j | 0 <= j < i ensures totals[j].total < totals[i].total {
        assert TotalOf(totals[j]) < TotalOf(totals[i]);
      }
    }
  }

  /** With rows present the leading age group is the key of the first
      bucket after the descending sort. */
  lemma TopAgeGroupIsSortedHead(rows: seq<Row>, offenseType: string)
    requires |rows| > 0
    ensures |AgeGroupTotals(rows, offenseType)| > 0
    ensures TopAgeGroup(rows, offenseType) == SortDesc(AgeGroupTotals(rows, offenseType), TotalOf)[0].key
  {
    var totals := AgeGroupTotals(rows, offenseType);
    RollupEmptyIffNoRows(rows, AgeLabel, PanelFn(offenseType));
    SortedHeadIsBucket(totals);
    LabelsAreNonEmpty(rows, SortDesc(totals, TotalOf)[0].key);
  }

  /** Each age label's total is the chosen count over the rows with that
      label, and the labels' totals together make up the count over all
      rows. */
  lemma AgeGroupTotalsConserve(rows: seq<Row>, offenseType: string)
    ensures forall j :: 0 <= j < |AgeGroupTotals(rows, offenseType)| ==>
              AgeGroupTotals(rows, offenseType)[j].total == SumWhere(rows, AgeLabel, AgeGroupTotals(rows, offenseType)[j].key, PanelFn(offenseType))
    ensures SumBy(AgeGroupTotals(rows, offenseType), TotalOf) == SumBy(rows, PanelFn(offenseType))
  {
    RollupConserves(rows, AgeLabel, PanelFn(offenseType));
  }
}

=== FILE: chart2.dfy ===
/** js/chart2.js: the annual trend of one offence count, one line per
    jurisdiction (all jurisdictions) or per location within the chosen
    jurisdiction. */
module Chart2 {
  import opened Common
  import opened Aggregate
  import opened Legend
  import opened LineChart

  /** One CSV row after parsing: YEAR as a number, the two categories as
      text and the three counts as `+cell || 0`. */
  datatype Row = Row(year: int, jurisdiction: string, location: string, counts: Counts)

  function YearOf(r: Row): int { r.year }

  function JurisdictionOf(r: Row): string { r.jurisdiction }

  function LocationOf(r: Row): string { r.location }

  /** The offence type is shown as picked and looked up upper-cased. */
  function MetricFn(offenseType: string): Row -> real {
    (r: Row) => CountOf(r.counts, MetricNamed(Upper(offenseType)))
  }

  /** 'All' keeps every row, grouped by jurisdiction; one jurisdiction keeps
      its own rows, grouped by location. */
  function DataToAggregate(rows: seq<Row>, jur: string): (r: seq<Row>)
    ensures jur == "All" ==> r == rows
    ensures forall x :: x in r <==> x in rows && (jur == "All" || x.jurisdiction == jur)
  {
    if jur == "All" then rows else Filter(rows, (x: Row) => x.jurisdiction == jur)
  }

  function GroupKey(jur: string): Row -> string {
    if jur == "All" then JurisdictionOf else LocationOf
  }

  /** The drawn series.  Only the single-jurisdiction view drops the series
      that sum to 0; the all-jurisdictions view keeps one line per
      jurisdiction present in the file, empty or not.  Point j of a line is
      year j of the file holding the group's sum for that year. */
  function ChartSeries(rows: seq<Row>, offenseType: string, jur: string): (r: seq<Series>)
    ensures NoDuplicates(KeysOf(r, NameOf))
    ensures forall i :: 0 <= i < |r| ==> |r[i].values| == |AllYears(rows, YearOf)|
    ensures jur == "All" ==> forall n :: n in KeysOf(r, NameOf) <==> n in KeysOf(rows, JurisdictionOf)
    ensures jur == "All" ==> KeysOf(r, NameOf) == DistinctKeys(rows, JurisdictionOf)
    ensures forall i, j :: 0 <= i < j < |r| ==>
              FirstIndex(KeysOf(DataToAggregate(rows, jur), GroupKey(jur)), r[i].name) <
              FirstIndex(KeysOf(DataToAggregate(rows, jur), GroupKey(jur)), r[j].name)
    ensures jur != "All" ==> forall i :: 0 <= i < |r| ==> SeriesTotal(r[i]) > 0.0
    ensures forall i, j :: 0 <= i < |r| && 0 <= j < |AllYears(rows, YearOf)| ==>
              r[i].values[j] == Bucket(AllYears(rows, YearOf)[j],
                                       SumWhere(Select(DataToAggregate(rows, jur), GroupKey(jur), r[i].name),
                                                YearOf, AllYears(rows, YearOf)[j], MetricFn(offenseType)))
  {
    var data := DataToAggregate(rows, jur);
    var years := AllYears(rows, YearOf);
    if jur == "All" then
      BuildSeriesFirstSeen(data, years, GroupKey(jur), YearOf, MetricFn(offenseType));
      BuildSeries(data, years, GroupKey(jur), YearOf, MetricFn(offenseType))
    else PlottedSeries(data, years, GroupKey(jur), YearOf, MetricFn(offenseType))
  }

  /** In the single-jurisdiction view a location gets a line exactly when
      its metric sums to more than 0. */
  lemma LocationDrawnIffPositive(rows: seq<Row>, offenseType: string, jur: string, location: string)
    requires jur != "All"
    requires location in KeysOf(DataToAggregate(rows, jur), LocationOf)
    ensures location in KeysOf(ChartSeries(rows, offenseType, jur), NameOf) <==>
              SumBy(Select(DataToAggregate(rows, jur), LocationOf, location), MetricFn(offenseType)) > 0.0
  {
    var data := DataToAggregate(rows, jur);
    AllYearsCover(rows, data, YearOf);
    PlottedSeriesKeepsPositiveGroups(data, AllYears(rows, YearOf), LocationOf, YearOf, MetricFn(offenseType), location);
  }

  /** With non-negative counts the drawn lines hold the whole metric of the
      aggregated rows, in both views. */
  lemma ChartSeriesConserves(rows: seq<Row>, offenseType: string, jur: string)
    requires forall i :: 0 <= i < |rows| ==> NonNegativeCounts(rows[i].counts)
    ensures SumBy(ChartSeries(rows, offenseType, jur), SeriesTotal) == SumBy(DataToAggregate(rows, jur), MetricFn(offenseType))
  {
    var data := DataToAggregate(rows, jur);
    var years := AllYears(rows, YearOf);
    AllYearsCover(rows, data, YearOf);
    if jur == "All" {
      BuildSeriesConserves(data, years, GroupKey(jur), YearOf, MetricFn(offenseType));
    } else {
      assert forall i :: 0 <= i < |data| ==> MetricFn(offenseType)(data[i]) >= 0.0 by {
        forall i | 0 <= i < |data| ensures MetricFn(offenseType)(data[i]) >= 0.0 {
          assert data[i] in rows;
          var n :| 0 <= n < |rows| && rows[n] == data[i];
        }
      }
      PlottedSeriesConserves(data, years, GroupKey(jur), YearOf, MetricFn(offenseType));
    }
  }

  /** The y-domain upper bound chart2.js computes. */
  function YDomainAsWritten(rows: seq<Row>, offenseType: string, jur: string): (r: JsNum)
    ensures |rows| > 0 && jur == "All" ==> r.Num? && r.val >= 1.0
  {
    var s := ChartSeries(rows, offenseType, jur);
    if |rows| > 0 && jur == "All" then
      AllViewHasPoint(rows, offenseType);
      YDomainMaxAsWritten(s)
    else
      YDomainMaxAsWritten(s)
  }

  /** A non-empty file gives the all-jurisdictions view at least one point. */
  lemma AllViewHasPoint(rows: seq<Row>, offenseType: string)
    requires |rows| > 0
    ensures MaxOf(AllValues(ChartSeries(rows, offenseType, "All"))).Some?
  {
  }

  /** A jurisdiction whose locations all have a zero count gets a y bound
      of NaN from chart2.js. */
  lemma YDomainNaNWhenJurisdictionEmpty(rows: seq<Row>, offenseType: string, jur: string)
    requires jur != "All"
    requires forall x :: x in DataToAggregate(rows, jur) ==> MetricFn(offenseType)(x) == 0.0
    ensures YDomainAsWritten(rows, offenseType, jur) == NaN
  {
    var data := DataToAggregate(rows, jur);
    PlottedSeriesEmptyWhenAllZero(data, AllYears(rows, YearOf), GroupKey(jur), YearOf, MetricFn(offenseType));
  }

  /** The bound the y scale is meant to get: `Math.max(1, 1.05 * max)`,
      which is 1 when nothing is plotted. It agrees with chart2.js wherever
      that gives a number, which includes every view of a non-empty file
      with all jurisdictions shown. */
  function YDomain(rows: seq<Row>, offenseType: string, jur: string): (r: real)
    ensures r >= 1.0
    ensures forall v :: v in AllValues(ChartSeries(rows, offenseType, jur)) ==> r >= v * 1.05
    ensures r == 1.0 || exists v :: v in AllValues(ChartSeries(rows, offenseType, jur)) && r == v * 1.05
    ensures YDomainAsWritten(rows, offenseType, jur).Num? ==> YDomainAsWritten(rows, offenseType, jur) == Num(r)
    ensures |rows| > 0 && jur == "All" ==> YDomainAsWritten(rows, offenseType, jur) == Num(r)
  {
    var s := ChartSeries(rows, offenseType, jur);
    assert YDomainAsWritten(rows, offenseType, jur) == YDomainMaxAsWritten(s);
    if |rows| > 0 && jur == "All" then
      AllViewHasPoint(rows, offenseType);
      YDomainMax(s)
    else
      YDomainMax(s)
  }

  /** chart2.js refreshes the tooltip only when it has a row to show and
      hides it otherwise; it shows exactly when some line is visible. */
  function TooltipShown(series: seq<Series>, sel: Selection, year: int): (b: bool)
    ensures b <==> exists i :: 0 <= i < |series| && Visible(sel, series[i].name)
  {
    TooltipEmptyIffNothingVisible(series, sel, year);
    |TooltipItems(series, sel, year)| > 0
  }
}

=== FILE: chart3.dfy ===
/** js/chart3.js: a choropleth of the states coloured by one offence count
    for one year, and a small bar chart of the same count by jurisdiction or
    by location. */
module Chart3 {
  import opened Common
  import opened Aggregate
  import opened BarChart

  /** One CSV row as d3.autoType reads it: YEAR as a number, the categories
      as text ("" for an empty cell) and the counts as numbers, an empty
      count cell read as 0 by `|| 0`. */
  datatype Row = Row(year: int, jurisdiction: string, location: string, counts: Counts)

  function JurisdictionOf(r: Row): string { r.jurisdiction }

  function LocationOf(r: Row): string { r.location }

  /** `d[offense.toUpperCase()] || 0`. */
  function MetricFn(offense: string): Row -> real {
    (r: Row) => CountOf(r.counts, MetricNamed(Upper(offense)))
  }

  /** updateAll's filter: the year always, the jurisdiction unless 'All',
      the location unless empty. */
  function FilterRows(rows: seq<Row>, year: int, jur: string, loc: string): (r: seq<Row>)
    ensures |r| <= |rows|
    ensures forall x :: x in r <==> x in rows && x.year == year && (jur == "All" || x.jurisdiction == jur) && (loc == "" || x.location == loc)
  {
    Filter(rows, (x: Row) => x.year == year && (jur == "All" || x.jurisdiction == jur) && (loc == "" || x.location == loc))
  }

  /** The jurisdiction totals the map reads: one entry per jurisdiction of
      the filtered rows, in first-seen order, holding its sum of the
      offence count. */
  function MapTotals(filtered: seq<Row>, offense: string): (r: seq<Bucket<string>>)
    ensures KeysOf(r, KeyOfBucket) == DistinctKeys(filtered, JurisdictionOf)
    ensures forall i :: 0 <= i < |r| ==> r[i].total == SumWhere(filtered, JurisdictionOf, r[i].key, MetricFn(offense))
  {
    RollupKeys(filtered, JurisdictionOf, MetricFn(offense));
    Rollup(filtered, JurisdictionOf, MetricFn(offense))
  }

  /** The state-name to abbreviation table of the map, one (name,
      abbreviation) pair per state. */
  const StateTable: seq<(string, string)> := [
    ("New South Wales", "NSW"), ("Victoria", "VIC"), ("Queensland", "QLD"), ("South Australia", "SA"),
    ("Western Australia", "WA"), ("Tasmania", "TAS"), ("Northern Territory", "NT"),
    ("Australian Capital Territory", "ACT")]

  /** The second component of the first pair whose first component is k. */
  function FindPair(t: seq<(string, string)>, k: string): (r: Option<string>)
    ensures r.Some? <==> exists i :: 0 <= i < |t| && t[i].0 == k
    ensures r.Some? ==> exists i :: 0 <= i < |t| && t[i] == (k, r.value)
  {
    if |t| == 0 then None
    else if t[0].0 == k then Some(t[0].1)
    else
      var r := FindPair(t[1..], k);
      assert forall i :: 0 < i < |t| ==> t[i] == t[1..][i - 1];
      r
  }

  /** The table with each pair turned round. */
  function Swapped(t: seq<(string, string)>): (r: seq<(string, string)>)
    ensures |r| == |t| && forall i :: 0 <= i < |t| ==> r[i] == (t[i].1, t[i].0)
  {
    seq(|t|, i requires 0 <= i < |t| => (t[i].1, t[i].0))
  }

  /** A table whose first components are pairwise distinct. */
  predicate KeysDistinct(t: seq<(string, string)>) {
    forall i, j :: 0 <= i < j < |t| ==> t[i].0 != t[j].0
  }

  /** In a table with distinct first components, looking up the first
      component of any pair finds that pair's second. */
  lemma {:induction false} FindPairOfEntry(t: seq<(string, string)>, i: int)
    requires KeysDistinct(t) && 0 <= i < |t|
    ensures FindPair(t, t[i].0) == Some(t[i].1)
    decreases |t|
  {
  }

  lemma StateTableDistinct()
    ensures KeysDistinct(StateTable) && KeysDistinct(Swapped(StateTable))
  {
  }

  /** `mapping[stateName]`: exactly the eight state names have an
      abbreviation, and the abbreviation is the one the table pairs with
      the name. */
  function Abbreviation(stateName: string): (a: Option<string>)
    ensures a.Some? <==> stateName in {"New South Wales", "Victoria", "Queensland", "South Australia",
                                       "Western Australia", "Tasmania", "Northern Territory", "Australian Capital Territory"}
    ensures a.Some? ==> (stateName, a.value) in StateTable
  {
    FindPair(StateTable, stateName)
  }

  /** The table read backwards: the state an abbreviation stands for. */
  function StateNamed(abb: string): (n: Option<string>)
    ensures n.Some? <==> abb in {"NSW", "VIC", "QLD", "SA", "WA", "TAS", "NT", "ACT"}
    ensures n.Some? ==> (n.value, abb) in StateTable
  {
    var r := FindPair(Swapped(StateTable), abb);
    if r.Some? then
      var i :| 0 <= i < |StateTable| && Swapped(StateTable)[i] == (abb, r.value);
      assert StateTable[i] == (r.value, abb);
      r
    else
      assert StateTable[0].1 != abb && StateTable[1].1 != abb && StateTable[2].1 != abb && StateTable[3].1 != abb;
      assert StateTable[4].1 != abb && StateTable[5].1 != abb && StateTable[6].1 != abb && StateTable[7].1 != abb;
      r
  }

  /** The two directions of the table agree entry by entry. */
  lemma AbbreviationRoundTrip(stateName: string, abb: string)
    ensures Abbreviation(stateName) == Some(abb) <==> StateNamed(abb) == Some(stateName)
  {
    StateTableDistinct();
    if Abbreviation(stateName) == Some(abb) {
      var i :| 0 <= i < |StateTable| && StateTable[i] == (stateName, abb);
      FindPairOfEntry(Swapped(StateTable), i);
    }
    if StateNamed(abb) == Some(stateName) {
      var i :| 0 <= i < |StateTable| && StateTable[i] == (stateName, abb);
      FindPairOfEntry(StateTable, i);
    }
  }

  /** No two states share an abbreviation. */
  lemma AbbreviationInjective(a: string, b: string)
    requires Abbreviation(a).Some? && Abbreviation(a) == Abbreviation(b)
    ensures a == b
  {
    AbbreviationRoundTrip(a, Abbreviation(a).value);
    AbbreviationRoundTrip(b, Abbreviation(b).value);
  }

  /** `mapTotals.get(mapping[name]) || 0`: a feature's value is never
      undefined; an unmapped name or an abbreviation without rows gives 0. */
  function FeatureValue(totals: seq<Bucket<string>>, stateName: string): (v: real)
    ensures Abbreviation(stateName).None? ==> v == 0.0
    ensures Abbreviation(stateName).Some? && Abbreviation(stateName).value !in KeysOf(totals, KeyOfBucket) ==> v == 0.0
  {
    match Abbreviation(stateName)
    case None => 0.0
    case Some(abb) =>
      match Lookup(totals, abb)
      case None => 0.0
      case Some(t) => t
  }

  /** The value a feature gets is the state's sum over the filtered rows,
      and 0 for a name outside the table. */
  lemma FeatureValueIsStateSum(filtered: seq<Row>, offense: string, stateName: string)
    ensures FeatureValue(MapTotals(filtered, offense), stateName) ==
              match Abbreviation(stateName)
              case None => 0.0
              case Some(abb) => SumWhere(filtered, JurisdictionOf, abb, MetricFn(offense))
  {
    match Abbreviation(stateName)
    case None =>
    case Some(abb) =>
      LookupRollup(filtered, JurisdictionOf, MetricFn(offense), abb);
      if abb !in KeysOf(filtered, JurisdictionOf) {
        assert forall i :: 0 <= i < |filtered| ==> JurisdictionOf(filtered[i]) != abb by {
          forall i | 0 <= i < |filtered| ensures JurisdictionOf(filtered[i]) != abb {
            assert KeysOf(filtered, JurisdictionOf)[i] == JurisdictionOf(filtered[i]);
          }
        }
        SumWhereAbsent(filtered, JurisdictionOf, abb, MetricFn(offense));
      }
  }

  function FeatureValues(totals: seq<Bucket<string>>, stateNames: seq<string>): (r: seq<real>)
    ensures |r| == |stateNames| && forall i :: 0 <= i < |stateNames| ==> r[i] == FeatureValue(totals, stateNames[i])
  {
    seq(|stateNames|, i requires 0 <= i < |stateNames| => FeatureValue(totals, stateNames[i]))
  }

  /** One bar of the small chart. */
  datatype BarDatum = BarDatum(category: string, value: real)

  function ValueOf(b: BarDatum): real { b.value }

  function CategoryOf(b: BarDatum): string { b.category }

  /** `key || "Unknown"`. */
  function OrUnknown(key: string): (c: string)
    ensures c != ""
    ensures key != "" ==> c == key
  {
    if key == "" then "Unknown" else key
  }

  /** Relabelling keys with `key || "Unknown"` position by position turns
      a key list into the labels of the keys it holds. */
  lemma RelabelledKeys(keys: seq<string>, labels: seq<string>, src: seq<string>)
    requires |labels| == |keys| && forall i :: 0 <= i < |keys| ==> labels[i] == OrUnknown(keys[i])
    requires forall k :: k in keys <==> k in src
    ensures forall c :: c in labels <==> exists k :: k in src && c == OrUnknown(k)
  {
  }

  /** The bars under 'All': one per jurisdiction, labelled with it. */
  function JurisdictionBars(filtered: seq<Row>, offense: string): (r: seq<BarDatum>)
    ensures NoDuplicates(KeysOf(r, CategoryOf))
    ensures forall c :: c in KeysOf(r, CategoryOf) <==> c in KeysOf(filtered, JurisdictionOf)
    ensures forall i :: 0 <= i < |r| ==> r[i].value == SumWhere(filtered, JurisdictionOf, r[i].category, MetricFn(offense))
    ensures KeysOf(r, CategoryOf) == DistinctKeys(filtered, JurisdictionOf)
  {
    var totals := Rollup(filtered, JurisdictionOf, MetricFn(offense));
    RollupKeys(filtered, JurisdictionOf, MetricFn(offense));
    var r := seq(|totals|, i requires 0 <= i < |totals| => BarDatum(totals[i].key, totals[i].total));
    assert KeysOf(r, CategoryOf) == KeysOf(totals, KeyOfBucket);
    r
  }

  /** The bars inside one jurisdiction: one per distinct location in
      first-seen order, holding that location's sum, an empty location
      labelled "Unknown". */
  function LocationBars(filtered: seq<Row>, offense: string): (r: seq<BarDatum>)
    ensures |r| == |DistinctKeys(filtered, LocationOf)|
    ensures forall i :: 0 <= i < |r| ==>
              r[i] == BarDatum(OrUnknown(DistinctKeys(filtered, LocationOf)[i]),
                               SumWhere(filtered, LocationOf, DistinctKeys(filtered, LocationOf)[i], MetricFn(offense)))
    ensures forall c :: c in KeysOf(r, CategoryOf) <==> exists k :: k in KeysOf(filtered, LocationOf) && c == OrUnknown(k)
    ensures forall i :: 0 <= i < |r| && r[i].category != "Unknown" ==>
              r[i].value == SumWhere(filtered, LocationOf, r[i].category, MetricFn(offense))
  {
    var totals := Rollup(filtered, LocationOf, MetricFn(offense));
    RollupKeys(filtered, LocationOf, MetricFn(offense));
    assert forall i :: 0 <= i < |totals| ==> totals[i].key == KeysOf(totals, KeyOfBucket)[i];
    var r := seq(|totals|, i requires 0 <= i < |totals| => BarDatum(OrUnknown(totals[i].key), totals[i].total));
    RelabelledKeys(KeysOf(totals, KeyOfBucket), KeysOf(r, CategoryOf), KeysOf(filtered, LocationOf));
    r
  }

  /** The bars: by jurisdiction under 'All', by location otherwise. */
  function BarData(filtered: seq<Row>, offense: string, jur: string): (r: seq<BarDatum>)
    ensures jur == "All" ==> r == JurisdictionBars(filtered, offense)
    ensures jur != "All" ==> r == LocationBars(filtered, offense)
  {
    if jur == "All" then JurisdictionBars(filtered, offense) else LocationBars(filtered, offense)
  }

  /** The bars together hold the count over the filtered rows, in both
      views. */
  lemma BarDataConserves(filtered: seq<Row>, offense: string, jur: string)
    ensures SumBy(BarData(filtered, offense, jur), ValueOf) == SumBy(filtered, MetricFn(offense))
  {
    var r := BarData(filtered, offense, jur);
    var key := if jur == "All" then JurisdictionOf else LocationOf;
    var totals := Rollup(filtered, key, MetricFn(offense));
    assert |r| == |totals| && forall i :: 0 <= i < |r| ==> r[i].value == totals[i].total by {
      if jur == "All" {
        assert r == JurisdictionBars(filtered, offense);
      } else {
        assert r == LocationBars(filtered, offense);
      }
    }
    SumByPointwise(r, ValueOf, totals, TotalOf);
    RollupConserves(filtered, key, MetricFn(offense));
  }

  /** What updateAll hands the map and the bar chart. */
  datatype View = View(featureValues: seq<real>, colourTop: real, barTop: real, bars: seq<BarDatum>)

  /** updateAll: the colour domain [0, top] and the bar axis [0, top] both
      reach every value and are never [0, 0]; each top is the largest value,
      or 1 when there is none or the largest is 0. */
  function UpdateAll(rows: seq<Row>, stateNames: seq<string>, year: int, jur: string, loc: string, offense: string): (v: View)
    ensures |v.featureValues| == |stateNames|
    ensures v.colourTop != 0.0 && forall i :: 0 <= i < |v.featureValues| ==> v.featureValues[i] <= v.colourTop
    ensures v.colourTop in v.featureValues || (v.colourTop == 1.0 && forall i :: 0 <= i < |v.featureValues| ==> v.featureValues[i] <= 0.0)
    ensures v.barTop != 0.0 && forall i :: 0 <= i < |v.bars| ==> v.bars[i].value <= v.barTop
    ensures (exists i :: 0 <= i < |v.bars| && v.bars[i].value == v.barTop) ||
            (v.barTop == 1.0 && forall i :: 0 <= i < |v.bars| ==> v.bars[i].value <= 0.0)
    ensures v.bars == BarData(FilterRows(rows, year, jur, loc), offense, jur)
    ensures forall i :: 0 <= i < |stateNames| ==>
              v.featureValues[i] == FeatureValue(MapTotals(FilterRows(rows, year, jur, loc), offense), stateNames[i])
  {
    var filtered := FilterRows(rows, year, jur, loc);
    var values := FeatureValues(MapTotals(filtered, offense), stateNames);
    var bars := BarData(filtered, offense, jur);
    var barValues := KeysOf(bars, ValueOf);
    var colourTop := MaxOrOne(values);
    var barTop := MaxOrOne(barValues);
    assert forall i :: 0 <= i < |values| ==> values[i] <= colourTop by {
      forall i | 0 <= i < |values| ensures values[i] <= colourTop {
        assert values[i] in values;
      }
    }
    BarTopReachesBars(bars);
    View(values, colourTop, barTop, bars)
  }

  /** The bar axis top reaches every bar and is a bar's value, or 1 when
      no bar is positive. */
  lemma BarTopReachesBars(bars: seq<BarDatum>)
    ensures var top := MaxOrOne(KeysOf(bars, ValueOf));
      (forall i :: 0 <= i < |bars| ==> bars[i].value <= top) &&
      ((exists i :: 0 <= i < |bars| && bars[i].value == top) || (top == 1.0 && forall i :: 0 <= i < |bars| ==> bars[i].value <= 0.0))
  {
  }
}

=== FILE: chart4.dfy ===
/** js/chart4.js: the annual trend of one offence count, one line per
    detection method (when every method is shown) or per jurisdiction (when
    one method is picked), over an optional jurisdiction filter. */
module Chart4 {
  import opened Common
  import opened Aggregate
  import opened LineChart

  /** One CSV row after parsing: YEAR as a number, the two categories as
      text and the three counts as `+cell || 0`. */
  datatype Row = Row(year: int, jurisdiction: string, detection: string, counts: Counts)

  function YearOf(r: Row): int { r.year }

  function JurisdictionOf(r: Row): string { r.jurisdiction }

  function DetectionOf(r: Row): string { r.detection }

  /** What the lines stand for. */
  datatype Grouping = ByDetection | ByJurisdiction

  /** All methods: a line per detection method; one method: a line per
      jurisdiction. */
  function GroupingFor(detect: string): (g: Grouping)
    ensures g == ByDetection <==> detect == "All"
  {
    if detect == "All" then ByDetection else ByJurisdiction
  }

  function GroupKey(g: Grouping): Row -> string {
    match g
    case ByDetection => DetectionOf
    case ByJurisdiction => JurisdictionOf
  }

  predicate Keep(jur: string, detect: string, r: Row) {
    (jur == "All" || r.jurisdiction == jur) && (detect == "All" || r.detection == detect)
  }

  /** The jurisdiction filter, then the detection-method filter, each
      skipped when its selector says 'All'. */
  function FilterRows(rows: seq<Row>, jur: string, detect: string): (r: seq<Row>)
    ensures |r| <= |rows|
    ensures forall x :: x in r <==> x in rows && (jur == "All" || x.jurisdiction == jur) && (detect == "All" || x.detection == detect)
  {
    Filter(rows, r => Keep(jur, detect, r))
  }

  function MetricFn(metricKey: string): Row -> real {
    (r: Row) => CountOf(r.counts, MetricNamed(metricKey))
  }

  /** The plotted series: a complete series for every group of the filtered
      rows over every year of the whole file, minus the series that sum to 0.
      Point j of a line is year j of the file holding the group's sum for
      that year. */
  function ChartSeries(rows: seq<Row>, metricKey: string, jur: string, detect: string): (r: seq<Series>)
    ensures NoDuplicates(KeysOf(r, NameOf))
    ensures forall i :: 0 <= i < |r| ==> SeriesTotal(r[i]) > 0.0
    ensures forall i :: 0 <= i < |r| ==> |r[i].values| == |AllYears(rows, YearOf)|
    ensures forall i, j :: 0 <= i < j < |r| ==>
              FirstIndex(KeysOf(FilterRows(rows, jur, detect), GroupKey(GroupingFor(detect))), r[i].name) <
              FirstIndex(KeysOf(FilterRows(rows, jur, detect), GroupKey(GroupingFor(detect))), r[j].name)
    ensures forall i, j :: 0 <= i < |r| && 0 <= j < |AllYears(rows, YearOf)| ==>
              r[i].values[j] == Bucket(AllYears(rows, YearOf)[j],
                                       SumWhere(Select(FilterRows(rows, jur, detect), GroupKey(GroupingFor(detect)), r[i].name),
                                                YearOf, AllYears(rows, YearOf)[j], MetricFn(metricKey)))
  {
    PlottedSeries(FilterRows(rows, jur, detect), AllYears(rows, YearOf), GroupKey(GroupingFor(detect)), YearOf, MetricFn(metricKey))
  }

  /** A line is drawn for a group of the filtered rows exactly when the
      group's metric sums to more than 0. */
  lemma ChartSeriesKeepsPositiveGroups(rows: seq<Row>, metricKey: string, jur: string, detect: string, name: string)
    requires name in KeysOf(FilterRows(rows, jur, detect), GroupKey(GroupingFor(detect)))
    ensures name in KeysOf(ChartSeries(rows, metricKey, jur, detect), NameOf) <==>
              SumBy(Select(FilterRows(rows, jur, detect), GroupKey(GroupingFor(detect)), name), MetricFn(metricKey)) > 0.0
  {
    var data := FilterRows(rows, jur, detect);
    AllYearsCover(rows, data, YearOf);
    PlottedSeriesKeepsPositiveGroups(data, AllYears(rows, YearOf), GroupKey(GroupingFor(detect)), YearOf, MetricFn(metricKey), name);
  }

  /** With non-negative counts, the drawn lines together hold the whole
      metric of the filtered rows: nothing is lost to pruning. */
  lemma ChartSeriesConserves(rows: seq<Row>, metricKey: string, jur: string, detect: string)
    requires forall i :: 0 <= i < |rows| ==> NonNegativeCounts(rows[i].counts)
    ensures SumBy(ChartSeries(rows, metricKey, jur, detect), SeriesTotal) ==
              SumBy(FilterRows(rows, jur, detect), MetricFn(metricKey))
  {
    var data := FilterRows(rows, jur, detect);
    AllYearsCover(rows, data, YearOf);
    assert forall i :: 0 <= i < |data| ==> MetricFn(metricKey)(data[i]) >= 0.0 by {
      forall i | 0 <= i < |data| ensures MetricFn(metricKey)(data[i]) >= 0.0 {
        assert data[i] in rows;
        var n :| 0 <= n < |rows| && rows[n] == data[i];
      }
    }
    PlottedSeriesConserves(data, AllYears(rows, YearOf), GroupKey(GroupingFor(detect)), YearOf, MetricFn(metricKey));
  }

  /** The y-domain upper bound chart4.js computes for these filters. */
  function YDomainAsWritten(rows: seq<Row>, metricKey: string, jur: string, detect: string): (r: JsNum)
    ensures |ChartSeries(rows, metricKey, jur, detect)| > 0 ==> r.Num? && r.val >= 1.0
  {
    var s := ChartSeries(rows, metricKey, jur, detect);
    if |s| > 0 then
      SomePointPlotted(s, 0);
      YDomainMaxAsWritten(s)
    else
      YDomainMaxAsWritten(s)
  }

  /** When no filtered row carries any of the metric (in particular when no
      row passes the filters) no series survives and the bound chart4.js
      hands the y scale is NaN. */
  lemma YDomainNaNWhenNothingToPlot(rows: seq<Row>, metricKey: string, jur: string, detect: string)
    requires forall x :: x in FilterRows(rows, jur, detect) ==> MetricFn(metricKey)(x) == 0.0
    ensures YDomainAsWritten(rows, metricKey, jur, detect) == NaN
  {
    PlottedSeriesEmptyWhenAllZero(FilterRows(rows, jur, detect), AllYears(rows, YearOf), GroupKey(GroupingFor(detect)), YearOf, MetricFn(metricKey));
  }

  /** The bound the y scale is meant to get: at least 1 and 5% above every
      plotted value; it agrees with chart4.js whenever a line is drawn. */
  function YDomain(rows: seq<Row>, metricKey: string, jur: string, detect: string): (r: real)
    ensures r >= 1.0
    ensures forall v :: v in AllValues(ChartSeries(rows, metricKey, jur, detect)) ==> r >= v * 1.05
    ensures r == 1.0 || exists v :: v in AllValues(ChartSeries(rows, metricKey, jur, detect)) && r == v * 1.05
    ensures |ChartSeries(rows, metricKey, jur, detect)| > 0 ==> YDomainAsWritten(rows, metricKey, jur, detect) == Num(r)
  {
    var s := ChartSeries(rows, metricKey, jur, detect);
    if |s| > 0 then
      SomePointPlotted(s, 0);
      YDomainMax(s)
    else
      YDomainMax(s)
  }

  /** The end-of-line labels, laid out against the intended y bound. */
  function Labels(rows: seq<Row>, metricKey: string, jur: string, detect: string): (r: seq<Label>)
    ensures multiset(KeysOf(r, Unplaced)) ==
              multiset(LabelCandidates(ChartSeries(rows, metricKey, jur, detect), YDomain(rows, metricKey, jur, detect), PlotHeight))
    ensures forall i :: 0 <= i < |r| ==> r[i].finalY <= r[i].y && r[i].finalY <= Above(r, PlotHeight - 5.0, i) - MinSeparation
  {
    var s := ChartSeries(rows, metricKey, jur, detect);
    var top := YDomain(rows, metricKey, jur, detect);
    PlaceLabelsSeparated(s, top, PlotHeight);
    PlaceLabels(s, top, PlotHeight)
  }
}

=== FILE: chart5.dfy ===
/** js/chart5.js: one year's offence counts ranked by location, with the
    total and the leading location beside the bars. */
module Chart5 {
  import opened Common
  import opened Aggregate
  import opened Ordering
  import opened BarChart

  /** A CSV row before parseRow: YEAR as a number, the location as text and
      the four count cells as read. */
  datatype RawRow = RawRow(year: int, location: string, fineCounts: Cell, arrestCounts: Cell, chargesCounts: Cell, totalOffences: Cell)

  /** A row after parseRow (the dataset spells its total column TOAL_OFFENCES). */
  datatype Row = Row(year: int, location: string, fineCounts: real, arrestCounts: real, chargesCounts: real, totalOffences: real)

  function YearOf(r: Row): int { r.year }

  function LocationOf(r: Row): string { r.location }

  /** A cell holding a number other than NaN. */
  predicate Numeric(c: Cell) {
    c.Text? && c.num.Num?
  }

  /** parseRow: each count is the cell's number, or 0 when the cell is
      missing or not a number. */
  function ParseRow(d: RawRow): (r: Row)
    ensures r.year == d.year && r.location == d.location
    ensures r.fineCounts == (if Numeric(d.fineCounts) then d.fineCounts.num.val else 0.0)
    ensures r.arrestCounts == (if Numeric(d.arrestCounts) then d.arrestCounts.num.val else 0.0)
    ensures r.chargesCounts == (if Numeric(d.chargesCounts) then d.chargesCounts.num.val else 0.0)
    ensures r.totalOffences == (if Numeric(d.totalOffences) then d.totalOffences.num.val else 0.0)
  {
    Row(d.year, d.location, NumberOrZero(d.fineCounts), NumberOrZero(d.arrestCounts),
        NumberOrZero(d.chargesCounts), NumberOrZero(d.totalOffences))
  }

  /** `d[metric]` as d3.sum reads it: a column that is not one of the four
      reads as undefined, which the sum skips. */
  function MetricValue(r: Row, metricKey: string): (v: real)
    ensures metricKey == "TOAL_OFFENCES" ==> v == r.totalOffences
    ensures metricKey == "FINE_COUNTS" ==> v == r.fineCounts
    ensures metricKey == "CHARGES_COUNTS" ==> v == r.chargesCounts
    ensures metricKey == "ARREST_COUNTS" ==> v == r.arrestCounts
    ensures metricKey !in {"TOAL_OFFENCES", "FINE_COUNTS", "CHARGES_COUNTS", "ARREST_COUNTS"} ==> v == 0.0
  {
    if metricKey == "TOAL_OFFENCES" then r.totalOffences
    else if metricKey == "FINE_COUNTS" then r.fineCounts
    else if metricKey == "CHARGES_COUNTS" then r.chargesCounts
    else if metricKey == "ARREST_COUNTS" then r.arrestCounts
    else 0.0
  }

  function MetricFn(metricKey: string): Row -> real {
    (r: Row) => MetricValue(r, metricKey)
  }

  /** The rows of the year, narrowed to one location unless the location
      filter is empty or 'All'. */
  function FilterRows(data: seq<Row>, year: int, locationFilter: string): (r: seq<Row>)
    ensures |r| <= |data|
    ensures forall x :: x in r <==> x in data && x.year == year &&
                                     (locationFilter == "" || locationFilter == "All" || x.location == locationFilter)
  {
    Filter(data, (x: Row) => x.year == year && (locationFilter == "" || locationFilter == "All" || x.location == locationFilter))
  }

  /** buildSeriesForYear: one bar per location of the filtered rows, holding
      the location's metric sum, ranked by non-increasing value. */
  function BuildSeriesForYear(data: seq<Row>, metricKey: string, year: int, locationFilter: string): (r: seq<Bucket<string>>)
    ensures NonIncreasing(r, TotalOf)
    ensures NoDuplicates(KeysOf(r, KeyOfBucket))
    ensures forall k :: k in KeysOf(r, KeyOfBucket) <==> exists x :: x in FilterRows(data, year, locationFilter) && x.location == k
    ensures forall i :: 0 <= i < |r| ==>
              r[i].total == SumWhere(FilterRows(data, year, locationFilter), LocationOf, r[i].key, MetricFn(metricKey))
  {
    var filtered := FilterRows(data, year, locationFilter);
    RankedRollup(filtered, MetricFn(metricKey));
    LocationKeys(filtered);
    SortDesc(Rollup(filtered, LocationOf, MetricFn(metricKey)), TotalOf)
  }

  /** Ranking a rollup by location keeps its buckets and its distinct keys. */
  lemma RankedRollup(rows: seq<Row>, f: Row -> real)
    ensures NoDuplicates(KeysOf(SortDesc(Rollup(rows, LocationOf, f), TotalOf), KeyOfBucket))
    ensures forall k :: k in KeysOf(SortDesc(Rollup(rows, LocationOf, f), TotalOf), KeyOfBucket) <==> k in KeysOf(rows, LocationOf)
    ensures forall b :: b in SortDesc(Rollup(rows, LocationOf, f), TotalOf) ==> b.total == SumWhere(rows, LocationOf, b.key, f)
  {
    var roll := Rollup(rows, LocationOf, f);
    var r := SortDesc(roll, TotalOf);
    SortDescKeepsDistinctKeys(roll, TotalOf, KeyOfBucket);
    SortDescKeys(roll, TotalOf, KeyOfBucket);
    forall b | b in r ensures b.total == SumWhere(rows, LocationOf, b.key, f) {
      assert b in multiset(roll);
      var j :| 0 <= j < |roll| && roll[j] == b;
    }
  }

  /** A location is a key of the rows exactly when some row is there. */
  lemma LocationKeys(rows: seq<Row>)
    ensures forall k :: k in KeysOf(rows, LocationOf) <==> exists x :: x in rows && x.location == k
  {
  }

  /** The bars together hold the metric's sum over the filtered rows (the
      total drawSingleChart shows). */
  lemma BuildSeriesForYearConserves(data: seq<Row>, metricKey: string, year: int, locationFilter: string)
    ensures SumBy(BuildSeriesForYear(data, metricKey, year, locationFilter), TotalOf) ==
              SumBy(FilterRows(data, year, locationFilter), MetricFn(metricKey))
  {
    var filtered := FilterRows(data, year, locationFilter);
    var roll := Rollup(filtered, LocationOf, MetricFn(metricKey));
    SortDescSum(roll, TotalOf, TotalOf);
    RollupConserves(filtered, LocationOf, MetricFn(metricKey));
  }

  /** The panel drawSingleChart fills: the metric total, the leading bar
      (none when there is no bar, shown as 'N/A') and the three context
      totals for fines, charges and arrests. */
  datatype Panel = Panel(total: real, highest: Option<Bucket<string>>, fines: real, charges: real, arrests: real)

  /** `series.length ? series[0] : null`: the first bar, or none for an
      empty series; on a ranked series it is a largest bar. */
  function Highest(series: seq<Bucket<string>>): (h: Option<Bucket<string>>)
    ensures h.None? <==> |series| == 0
    ensures h.Some? ==> h.value in series
    ensures h.Some? && NonIncreasing(series, TotalOf) ==> forall b :: b in series ==> b.total <= h.value.total
  {
    if |series| == 0 then None
    else
      assert NonIncreasing(series, TotalOf) ==> forall b :: b in series ==> b.total <= series[0].total by {
        if NonIncreasing(series, TotalOf) {
          forall b | b in series ensures b.total <= series[0].total {
            FirstIsMaximal(series, TotalOf, b);
          }
        }
      }
      Some(series[0])
  }

  /** The sum drawSingleChart shows for a metric: the bars' values added up. */
  function SeriesSum(data: seq<Row>, metricKey: string, year: int, locationFilter: string): (t: real)
    ensures t == SumBy(FilterRows(data, year, locationFilter), MetricFn(metricKey))
  {
    BuildSeriesForYearConserves(data, metricKey, year, locationFilter);
    SumBy(BuildSeriesForYear(data, metricKey, year, locationFilter), TotalOf)
  }

  /** drawSingleChart's panel: each total is the metric's sum over the
      filtered rows, and the leading bar is absent exactly when no row
      passes the filters. */
  function DrawSingleChart(data: seq<Row>, year: int, metricKey: string, locationFilter: string): (p: Panel)
    ensures p.total == SumBy(FilterRows(data, year, locationFilter), MetricFn(metricKey))
    ensures p.fines == SumBy(FilterRows(data, year, locationFilter), MetricFn("FINE_COUNTS"))
    ensures p.charges == SumBy(FilterRows(data, year, locationFilter), MetricFn("CHARGES_COUNTS"))
    ensures p.arrests == SumBy(FilterRows(data, year, locationFilter), MetricFn("ARREST_COUNTS"))
    ensures p.highest.None? <==> |FilterRows(data, year, locationFilter)| == 0
    ensures p.highest.Some? ==> p.highest.value in BuildSeriesForYear(data, metricKey, year, locationFilter)
    ensures var filtered := FilterRows(data, year, locationFilter);
      var ks := KeysOf(filtered, LocationOf);
      p.highest.Some? ==>
        p.highest.value.key in ks &&
        (forall n :: 0 <= n < |ks| ==> SumWhere(filtered, LocationOf, ks[n], MetricFn(metricKey)) <= p.highest.value.total) &&
        (forall n :: 0 <= n < FirstIndex(ks, p.highest.value.key) ==>
           SumWhere(filtered, LocationOf, ks[n], MetricFn(metricKey)) < p.highest.value.total)
  {
    var series := BuildSeriesForYear(data, metricKey, year, locationFilter);
    SeriesEmptyIffNoRows(data, metricKey, year, locationFilter);
    HighestIsFirstLargestLocation(data, metricKey, year, locationFilter);
    Panel(SeriesSum(data, metricKey, year, locationFilter), Highest(series),
          SeriesSum(data, "FINE_COUNTS", year, locationFilter),
          SeriesSum(data, "CHARGES_COUNTS", year, locationFilter),
          SeriesSum(data, "ARREST_COUNTS", year, locationFilter))
  }

  /** `series[0]` after the stable descending sort of the rollup: the
      location with the largest sum, and among equal sums the one whose rows
      come first, because the rollup lists locations in first-seen order. */
  lemma HighestIsFirstLargestLocation(data: seq<Row>, metricKey: string, year: int, locationFilter: string)
    ensures var filtered := FilterRows(data, year, locationFilter);
      var ks := KeysOf(filtered, LocationOf);
      var h := Highest(BuildSeriesForYear(data, metricKey, year, locationFilter));
      h.Some? ==>
        h.value.key in ks &&
        (forall n :: 0 <= n < |ks| ==> SumWhere(filtered, LocationOf, ks[n], MetricFn(metricKey)) <= h.value.total) &&
        (forall n :: 0 <= n < FirstIndex(ks, h.value.key) ==> SumWhere(filtered, LocationOf, ks[n], MetricFn(metricKey)) < h.value.total)
  {
    var filtered := FilterRows(data, year, locationFilter);
    var f := MetricFn(metricKey);
    var totals := Rollup(filtered, LocationOf, f);
    var series := BuildSeriesForYear(data, metricKey, year, locationFilter);
    assert series == SortDesc(totals, TotalOf);
    if |series| > 0 {
      SortDescHeadIsFirstMaximal(totals, TotalOf);
      var i := FirstMaxIndex(totals, TotalOf);
      RollupFirstLargest(filtered, LocationOf, f, i);
    }
  }

  /** The series is empty exactly when no row passes the filters, so the
      bar chart takes its no-data branch in exactly that case. */
  lemma SeriesEmptyIffNoRows(data: seq<Row>, metricKey: string, year: int, locationFilter: string)
    ensures |BuildSeriesForYear(data, metricKey, year, locationFilter)| == 0 <==> |FilterRows(data, year, locationFilter)| == 0
    ensures RenderBarChart(BuildSeriesForYear(data, metricKey, year, locationFilter)) == NoData <==>
              |FilterRows(data, year, locationFilter)| == 0
  {
  }

  /** The leading bar is a location whose sum is the largest of all the
      locations of the filtered rows. */
  lemma HighestIsLargestLocation(data: seq<Row>, metricKey: string, year: int, locationFilter: string, k: string)
    requires exists x :: x in FilterRows(data, year, locationFilter) && x.location == k
    ensures DrawSingleChart(data, year, metricKey, locationFilter).highest.Some?
    ensures SumWhere(FilterRows(data, year, locationFilter), LocationOf, k, MetricFn(metricKey)) <=
              DrawSingleChart(data, year, metricKey, locationFilter).highest.value.total
  {
  }

  /** The year options, newest first. */
  function YearOptions(data: seq<Row>): (r: seq<int>)
    ensures StrictlyDecreasing(r)
    ensures forall y :: y in r <==> exists x :: x in data && x.year == y
  {
    var ys := KeysOf(data, YearOf);
    assert forall y :: y in ys <==> exists x :: x in data && x.year == y by {
      forall y ensures y in ys <==> exists x :: x in data && x.year == y {
        if y in ys {
          var i :| 0 <= i < |ys| && ys[i] == y;
          assert data[i] in data;
        }
        if exists x :: x in data && x.year == y {
          var x :| x in data && x.year == y;
          var i :| 0 <= i < |data| && data[i] == x;
          assert ys[i] == y;
        }
      }
    }
    SortUniqueDesc(ys)
  }

  /** The first option, which the chart draws on load, is the latest year
      of the data. */
  lemma InitialYearIsLatest(data: seq<Row>, x: Row)
    requires x in data
    ensures |YearOptions(data)| > 0 && YearOptions(data)[0] >= x.year
  {
    var ys := YearOptions(data);
    assert x.year in ys;
    var i :| 0 <= i < |ys| && ys[i] == x.year;
    if i > 0 {
      assert ys[0] > ys[i];
    }
  }

  /** The label over a bar: its number for a positive value, empty text
      otherwise. */
  function ValueLabel(v: real): (t: Option<real>)
    ensures t.Some? <==> v > 0.0
    ensures t.Some? ==> t.value == v
  {
    if v > 0.0 then Some(v) else None
  }
}

=== FILE: chart6.dfy ===
/** js/chart6.js: fines per 10k licence holders, either as one line per
    state over the years (LINE) or as one year's bars by jurisdiction
    (BAR), with the highest / lowest / mean summary beside them. */
module Chart6 {
  import opened Common
  import opened Aggregate
  import opened Ordering
  import BarChart

  /** One cell of a bar-CSV row with the header it sits under, in header
      order. */
  datatype Column = Column(name: string, cell: Cell)

  /** A bar-CSV row before parseBarRow. */
  datatype RawBarRow = RawBarRow(year: int, jurisdiction: string, columns: seq<Column>)

  /** A bar-CSV row after parseBarRow; VALUE is NaN for a cell that is not
      a number. */
  datatype BarRow = BarRow(year: int, jurisdiction: string, value: JsNum)

  function BarYearOf(r: BarRow): int { r.year }

  function BarJurisdictionOf(r: BarRow): string { r.jurisdiction }

  function BarValueOf(r: BarRow): JsNum { r.value }

  /** `k.toUpperCase().includes('FINES')`. */
  predicate MentionsFines(name: string) {
    Contains(Upper(name), "FINES")
  }

  /** `Object.keys(d).find(...)`: the position of the first header that
      mentions FINES. */
  function FinesColumn(cols: seq<Column>): (i: Option<nat>)
    ensures i.None? <==> forall j :: 0 <= j < |cols| ==> !MentionsFines(cols[j].name)
    ensures i.Some? ==> i.value < |cols| && MentionsFines(cols[i.value].name) &&
                        forall j :: 0 <= j < i.value ==> !MentionsFines(cols[j].name)
    decreases |cols|
  {
    if |cols| == 0 then None
    else if MentionsFines(cols[0].name) then Some(0)
    else
      match FinesColumn(cols[1..])
      case None => None
      case Some(k) => Some(k + 1)
  }

  /** `+(cell || 0)`: a missing cell reads 0; any other cell reads as the
      number its text spells (0 for an empty text, NaN for a non-number). */
  function CellValue(c: Cell): (v: JsNum)
    ensures c.Absent? ==> v == Num(0.0)
    ensures c.Text? ==> v == c.num
  {
    match c
    case Absent => Num(0.0)
    case Text(n) => n
  }

  /** parseBarRow: VALUE comes from the first FINES column, and is 0 when
      the row has none. */
  function ParseBarRow(d: RawBarRow): (r: BarRow)
    ensures r.year == d.year && r.jurisdiction == d.jurisdiction
    ensures (forall j :: 0 <= j < |d.columns| ==> !MentionsFines(d.columns[j].name)) ==> r.value == Num(0.0)
    ensures forall i :: 0 <= i < |d.columns| && MentionsFines(d.columns[i].name) &&
                        (forall j :: 0 <= j < i ==> !MentionsFines(d.columns[j].name)) ==>
                          r.value == CellValue(d.columns[i].cell)
  {
    var value := match FinesColumn(d.columns)
      case None => Num(0.0)
      case Some(i) => CellValue(d.columns[i].cell);
    assert forall i :: 0 <= i < |d.columns| && MentionsFines(d.columns[i].name) &&
                       (forall j :: 0 <= j < i ==> !MentionsFines(d.columns[j].name)) ==>
                         FinesColumn(d.columns) == Some(i) by {
      forall i | 0 <= i < |d.columns| && MentionsFines(d.columns[i].name) &&
                 (forall j :: 0 <= j < i ==> !MentionsFines(d.columns[j].name))
        ensures FinesColumn(d.columns) == Some(i)
      {
        FinesColumnIsFirst(d.columns, i);
      }
    }
    BarRow(d.year, d.jurisdiction, value)
  }

  /** The column FinesColumn finds is the first one that mentions FINES. */
  lemma {:induction false} FinesColumnIsFirst(cols: seq<Column>, i: nat)
    requires i < |cols| && MentionsFines(cols[i].name)
    requires forall j :: 0 <= j < i ==> !MentionsFines(cols[j].name)
    ensures FinesColumn(cols) == Some(i)
    decreases i
  {
  }

  /** A line-CSV row: YEAR and the cells under the other headers. */
  datatype LineRow = LineRow(year: int, cells: map<string, Cell>)

  function LineYearOf(r: LineRow): int { r.year }

  /** `row[column]`, undefined when the row has no such cell. */
  function CellAt(r: LineRow, column: string): Cell {
    if column in r.cells then r.cells[column] else Absent
  }

  /** The year options: every year of either dataset once, newest first. */
  function YearList(lineRows: seq<LineRow>, barRows: seq<BarRow>): (r: seq<int>)
    ensures StrictlyDecreasing(r)
    ensures forall y :: y in r <==> y in KeysOf(lineRows, LineYearOf) || y in KeysOf(barRows, BarYearOf)
  {
    SortUniqueDesc(KeysOf(lineRows, LineYearOf) + KeysOf(barRows, BarYearOf))
  }

  /** `c.split('+')[0]`: the header up to its first '+'. */
  function RegionName(c: string): (r: string)
    ensures |r| <= |c| && r == c[..|r|]
    ensures forall i :: 0 <= i < |r| ==> r[i] != '+'
    ensures |r| < |c| ==> c[|r|] == '+'
    decreases |c|
  {
    if |c| == 0 || c[0] == '+' then ""
    else [c[0]] + RegionName(c[1..])
  }

  /** A region name is a fixed point: it has no '+' left to split at. */
  lemma RegionNameIdempotent(c: string)
    ensures RegionName(RegionName(c)) == RegionName(c)
  {
  }

  /** A header without '+' is its own region name. */
  lemma {:induction false} RegionNameOfPlain(c: string)
    requires forall i :: 0 <= i < |c| ==> c[i] != '+'
    ensures RegionName(c) == c
    decreases |c|
  {
  }

  predicate NotYear(c: string) {
    c != "YEAR"
  }

  /** The line headers other than YEAR. */
  function LineColumns(columns: seq<string>): (r: seq<string>)
    ensures forall c :: c in r <==> c in columns && c != "YEAR"
  {
    Filter(columns, NotYear)
  }

  /** The line headers keep the file's column order: the headers of two
      runs of columns are those of the first run followed by those of the
      second, and a single column is kept exactly when it is not YEAR. */
  lemma LineColumnsInOrder(a: seq<string>, b: seq<string>)
    ensures LineColumns(a + b) == LineColumns(a) + LineColumns(b)
    ensures |a| == 1 ==> LineColumns(a) == if a[0] == "YEAR" then [] else a
  {
    FilterAppend(a, b, NotYear);
    if |a| == 1 {
      assert a[..0] == [];
    }
  }

  /** The jurisdiction options: every region name and every bar
      jurisdiction once, in ascending order. */
  function Jurisdictions(lineColumns: seq<string>, barRows: seq<BarRow>): (r: seq<string>)
    ensures StrictlyIncreasingStr(r)
    ensures forall n :: n in r <==> n in KeysOf(lineColumns, RegionName) || n in KeysOf(barRows, BarJurisdictionOf)
  {
    SortUniqueStr(KeysOf(lineColumns, RegionName) + KeysOf(barRows, BarJurisdictionOf))
  }

  /** One point of a line; no value is a gap in the line. */
  datatype Point = Point(year: int, value: Option<real>)

  datatype LineSeries = LineSeries(id: string, rawKey: string, values: seq<Point>)

  function IdOf(s: LineSeries): string { s.id }

  /** `+(cell || '') ? +cell : NaN`, then NaN replaced by null: a missing,
      empty, zero or non-numeric cell is a gap, any other cell its number. */
  function LineValue(c: Cell): (v: Option<real>)
    ensures v.None? <==> c.Absent? || c.num.NaN? || c.num.val == 0.0
    ensures v.Some? ==> c.Text? && c.num == Num(v.value)
  {
    match c
    case Absent => None
    case Text(NaN) => None
    case Text(Num(x)) => if x == 0.0 then None else Some(x)
  }

  /** One series per line header, named by its region, with one point per
      line row in row order: a gap where the cell is missing, empty, zero or
      not a number, and otherwise the cell's number. */
  function BuildLineSeries(lineColumns: seq<string>, rows: seq<LineRow>): (r: seq<LineSeries>)
    ensures |r| == |lineColumns|
    ensures forall i :: 0 <= i < |r| ==> r[i].id == RegionName(lineColumns[i]) && r[i].rawKey == lineColumns[i] && |r[i].values| == |rows|
    ensures forall i, j :: 0 <= i < |r| && 0 <= j < |rows| ==>
              r[i].values[j].year == rows[j].year &&
              (r[i].values[j].value.None? <==> CellAt(rows[j], lineColumns[i]).Absent? ||
                                               CellAt(rows[j], lineColumns[i]).num.NaN? ||
                                               CellAt(rows[j], lineColumns[i]).num.val == 0.0)
    ensures forall i, j :: 0 <= i < |r| && 0 <= j < |rows| && r[i].values[j].value.Some? ==>
              CellAt(rows[j], lineColumns[i]) == Text(Num(r[i].values[j].value.value))
  {
    seq(|lineColumns|, i requires 0 <= i < |lineColumns| =>
      LineSeries(RegionName(lineColumns[i]), lineColumns[i],
                 seq(|rows|, j requires 0 <= j < |rows| => Point(rows[j].year, LineValue(CellAt(rows[j], lineColumns[i]))))))
  }

  /** The LINE view's series: all of them under 'All', otherwise those whose
      id is the jurisdiction. */
  function SeriesToShow(series: seq<LineSeries>, jurisdiction: string): (r: seq<LineSeries>)
    ensures jurisdiction == "All" ==> r == series
    ensures jurisdiction != "All" ==> forall s :: s in r <==> s in series && s.id == jurisdiction
  {
    if jurisdiction == "All" then series else Filter(series, (s: LineSeries) => s.id == jurisdiction)
  }

  /** Position i holds the first point of the year. */
  predicate FirstOfYear(values: seq<Point>, year: int, i: int) {
    0 <= i < |values| && values[i].year == year && forall j :: 0 <= j < i ==> values[j].year != year
  }

  /** `values.find(x => x.year === year)`. */
  function FindPoint(values: seq<Point>, year: int): (p: Option<Point>)
    ensures p.None? <==> forall i :: 0 <= i < |values| ==> values[i].year != year
    ensures p.Some? ==> exists i :: 0 <= i < |values| && values[i] == p.value && p.value.year == year &&
                                     forall j :: 0 <= j < i ==> values[j].year != year
    decreases |values|
  {
    if |values| == 0 then None
    else if values[0].year == year then Some(values[0])
    else
      var p := FindPoint(values[1..], year);
      assert p.Some? ==> exists i :: 0 <= i < |values| && values[i] == p.value && p.value.year == year &&
                                     forall j :: 0 <= j < i ==> values[j].year != year by {
        if p.Some? {
          var i :| 0 <= i < |values[1..]| && values[1..][i] == p.value && p.value.year == year &&
                   forall j :: 0 <= j < i ==> values[1..][j].year != year;
          assert values[i + 1] == p.value;
          assert forall j :: 0 <= j < i + 1 ==> values[j].year != year by {
            forall j | 0 <= j < i + 1 ensures values[j].year != year {
              if j > 0 { assert values[j] == values[1..][j - 1]; }
            }
          }
        }
      }
      p
  }

  /** A series' value in the latest year, `v && v.value ? v.value : 0` for
      the first point v of that year: 0 when the year is unknown, the series
      has no point there or that point is a gap. */
  function LatestValue(s: LineSeries, latest: Option<int>): (v: real)
    ensures latest.None? ==> v == 0.0
    ensures v != 0.0 ==> latest.Some? && exists i :: 0 <= i < |s.values| && s.values[i] == Point(latest.value, Some(v))
    ensures latest.Some? ==> forall i :: FirstOfYear(s.values, latest.value, i) ==>
              v == (if s.values[i].value.Some? then s.values[i].value.value else 0.0)
    ensures latest.Some? && (forall i :: 0 <= i < |s.values| ==> s.values[i].year != latest.value) ==> v == 0.0
  {
    match latest
    case None => 0.0
    case Some(y) =>
      assert forall i :: FirstOfYear(s.values, y, i) ==> FindPoint(s.values, y) == Some(s.values[i]) by {
        forall i | FirstOfYear(s.values, y, i) ensures FindPoint(s.values, y) == Some(s.values[i]) {
          var p := FindPoint(s.values, y);
          assert p.Some?;
          var k :| 0 <= k < |s.values| && s.values[k] == p.value && p.value.year == y &&
                   forall j :: 0 <= j < k ==> s.values[j].year != y;
          assert k == i;
        }
      }
      match FindPoint(s.values, y)
      case None => 0.0
      case Some(p) =>
        match p.value
        case None => 0.0
        case Some(x) => x
  }

  function LatestBucket(latest: Option<int>): LineSeries -> Bucket<string> {
    (s: LineSeries) => Bucket(s.id, LatestValue(s, latest))
  }

  /** The 'highest' of the LINE view: the first series after sorting by the
      latest value, reported only when that value is positive. */
  function HighestRegion(series: seq<LineSeries>, latest: Option<int>): (h: Option<Bucket<string>>)
    ensures h.Some? <==> exists s :: s in series && LatestValue(s, latest) > 0.0
    ensures h.Some? ==> h.value.total > 0.0 && forall s :: s in series ==> LatestValue(s, latest) <= h.value.total
    ensures h.Some? ==> exists s :: s in series && h.value == Bucket(s.id, LatestValue(s, latest))
    ensures h.Some? ==> exists i :: 0 <= i < |series| && h.value == Bucket(series[i].id, LatestValue(series[i], latest)) &&
                                   forall j :: 0 <= j < i ==> LatestValue(series[j], latest) < h.value.total
  {
    var items := KeysOf(series, LatestBucket(latest));
    var sorted := SortDesc(items, TotalOf);
    if |sorted| > 0 && sorted[0].total > 0.0 then
      SortedHeadBounds(series, latest);
      SortedHeadIsFirstMaximalSeries(series, latest);
      Some(sorted[0])
    else
      assert forall s :: s in series ==> LatestValue(s, latest) <= 0.0 by {
        forall s | s in series ensures LatestValue(s, latest) <= 0.0 {
          var i :| 0 <= i < |series| && series[i] == s;
          assert items[i] in multiset(sorted);
          FirstIsMaximal(sorted, TotalOf, items[i]);
        }
      }
      None
  }

  lemma SortedHeadBounds(series: seq<LineSeries>, latest: Option<int>)
    requires |series| > 0
    ensures var sorted := SortDesc(KeysOf(series, LatestBucket(latest)), TotalOf);
      |sorted| > 0 &&
      (forall s :: s in series ==> LatestValue(s, latest) <= sorted[0].total) &&
      (exists s :: s in series && sorted[0] == Bucket(s.id, LatestValue(s, latest)))
  {
    var items := KeysOf(series, LatestBucket(latest));
    var sorted := SortDesc(items, TotalOf);
    forall s | s in series ensures LatestValue(s, latest) <= sorted[0].total {
      var i :| 0 <= i < |series| && series[i] == s;
      assert items[i] in multiset(sorted);
      FirstIsMaximal(sorted, TotalOf, items[i]);
    }
    assert sorted[0] in multiset(items);
    var k :| 0 <= k < |items| && items[k] == sorted[0];
    assert series[k] in series;
  }

  /** The stable sort puts first the earliest series of the highest latest
      value. */
  lemma SortedHeadIsFirstMaximalSeries(series: seq<LineSeries>, latest: Option<int>)
    requires |series| > 0
    ensures var head := SortDesc(KeysOf(series, LatestBucket(latest)), TotalOf)[0];
      exists i :: 0 <= i < |series| && head == Bucket(series[i].id, LatestValue(series[i], latest)) &&
                  forall j :: 0 <= j < i ==> LatestValue(series[j], latest) < head.total
  {
    var items := KeysOf(series, LatestBucket(latest));
    SortDescHeadIsFirstMaximal(items, TotalOf);
    var i := FirstMaxIndex(items, TotalOf);
    assert items[i] == Bucket(series[i].id, LatestValue(series[i], latest));
    assert forall j :: 0 <= j < i ==> TotalOf(items[j]) == LatestValue(series[j], latest);
  }

  predicate IsNumber(n: JsNum) {
    n.Num?
  }

  /** The number a JS number holds, 0 for NaN. */
  function NumberValue(n: JsNum): real {
    if n.Num? then n.val else 0.0
  }

  /** The numbers among the values, NaN dropped, in order. */
  function NumbersOf(vals: seq<JsNum>): (r: seq<real>)
    ensures forall v :: v in r <==> Num(v) in vals
    ensures |r| <= |vals|
    decreases |vals|
  {
    if |vals| == 0 then []
    else
      var rest := NumbersOf(vals[..|vals| - 1]);
      assert vals == vals[..|vals| - 1] + [vals[|vals| - 1]];
      match vals[|vals| - 1]
      case NaN => rest
      case Num(v) => rest + [v]
  }

  /** The numbers are exactly the values that pass the `!isNaN` filter,
      each read as its number: same multiplicity, same order. */
  lemma {:induction false} NumbersOfIsNumericFilter(vals: seq<JsNum>)
    ensures NumbersOf(vals) == KeysOf(Filter(vals, IsNumber), NumberValue)
    decreases |vals|
  {
    if |vals| > 0 {
      var init := vals[..|vals| - 1];
      var kept := Filter(init, IsNumber);
      NumbersOfIsNumericFilter(init);
      match vals[|vals| - 1]
      case NaN =>
        assert Filter(vals, IsNumber) == kept;
        assert NumbersOf(vals) == NumbersOf(init);
      case Num(v) =>
        assert Filter(vals, IsNumber) == kept + [Num(v)];
        assert NumbersOf(vals) == NumbersOf(init) + [v];
        assert KeysOf(kept + [Num(v)], NumberValue) == KeysOf(kept, NumberValue) + [v];
    }
  }

  /** The three summary metrics. */
  datatype Stats = Stats(highest: real, lowest: real, mean: real)

  function Identity(v: real): real { v }

  /** m is the mean of the values: m times their count is their sum. */
  predicate IsMean(m: real, vals: seq<real>) {
    m * (|vals| as real) == SumBy(vals, Identity)
  }

  /** Math.max, Math.min and the reduce-sum over the length; none ('N/A')
      for an empty list. */
  function SummaryStats(vals: seq<real>): (r: Option<Stats>)
    ensures r.None? <==> |vals| == 0
    ensures r.Some? ==> r.value.highest in vals && forall v :: v in vals ==> v <= r.value.highest
    ensures r.Some? ==> r.value.lowest in vals && forall v :: v in vals ==> r.value.lowest <= v
    ensures r.Some? ==> IsMean(r.value.mean, vals)
    ensures r.Some? ==> r.value.lowest <= r.value.mean <= r.value.highest
  {
    if |vals| == 0 then None
    else
      var hi := MaxOf(vals).value;
      var lo := MinOf(vals).value;
      MeanBetween(vals, lo, hi);
      Some(Stats(hi, lo, Mean(vals)))
  }

  /** The reduce-sum divided by the count. */
  function Mean(vals: seq<real>): (m: real)
    requires |vals| > 0
    ensures m * (|vals| as real) == SumBy(vals, Identity)
  {
    SumBy(vals, Identity) / (|vals| as real)
  }

  /** A sum of n values lies between n times the least and n times the
      greatest bound. */
  lemma {:induction false} SumBetween(vals: seq<real>, lo: real, hi: real)
    requires forall i :: 0 <= i < |vals| ==> lo <= vals[i] <= hi
    ensures (|vals| as real) * lo <= SumBy(vals, Identity) <= (|vals| as real) * hi
    decreases |vals|
  {
    if |vals| > 0 {
      var init, last := vals[..|vals| - 1], vals[|vals| - 1];
      var k := |init| as real;
      SumBetween(init, lo, hi);
      assert SumBy(vals, Identity) == SumBy(init, Identity) + last;
      assert (|vals| as real) * lo == k * lo + lo;
      assert (|vals| as real) * hi == k * hi + hi;
    }
  }

  /** The mean of values within [lo, hi] is within [lo, hi]. */
  lemma MeanBetween(vals: seq<real>, lo: real, hi: real)
    requires |vals| > 0 && forall i :: 0 <= i < |vals| ==> lo <= vals[i] <= hi
    ensures lo <= Mean(vals) <= hi
  {
    SumBetween(vals, lo, hi);
    QuotientBetween(SumBy(vals, Identity), |vals| as real, Mean(vals), lo, hi);
  }

  /** m * n == s with n positive and n * lo <= s <= n * hi puts m in
      [lo, hi]. */
  lemma QuotientBetween(s: real, n: real, m: real, lo: real, hi: real)
    requires n > 0.0 && m * n == s && n * lo <= s <= n * hi
    ensures lo <= m <= hi
  {
  }

  /** The summary of the numeric values of a list's elements (NaN
      skipped): 'N/A' exactly when every value is NaN; otherwise a highest
      and a lowest that are values of elements and bound every numeric
      value, and a mean between them. */
  function ValueStats<T>(s: seq<T>, val: T -> JsNum): (st: Option<Stats>)
    ensures st.None? <==> forall x :: x in s ==> val(x) == NaN
    ensures st.Some? ==> forall x :: x in s && val(x).Num? ==> st.value.lowest <= val(x).val <= st.value.highest
    ensures st.Some? ==> exists x :: x in s && val(x) == Num(st.value.highest)
    ensures st.Some? ==> exists x :: x in s && val(x) == Num(st.value.lowest)
    ensures st.Some? ==> st.value.lowest <= st.value.mean <= st.value.highest
    ensures st.Some? ==> IsMean(st.value.mean, NumbersOf(KeysOf(s, val)))
  {
    NumbersOfValues(s, val);
    var nums := NumbersOf(KeysOf(s, val));
    SummaryStats(nums)
  }

  /** A bar of the BAR view: its jurisdiction and VALUE. */
  datatype BarItem = BarItem(key: string, value: JsNum)

  function ItemOf(r: BarRow): BarItem { BarItem(r.jurisdiction, r.value) }

  /** The number a bar sorts and sums by: NaN counts as 0. */
  function ItemScore(b: BarItem): real {
    match b.value
    case NaN => 0.0
    case Num(v) => v
  }

  function ItemValue(b: BarItem): JsNum { b.value }

  /** The BAR view's rows: the year always, the jurisdiction unless it is
      empty or 'All'. */
  function BarRowsFor(barRows: seq<BarRow>, year: int, jurisdiction: string): (r: seq<BarRow>)
    ensures forall x :: x in r <==> x in barRows && x.year == year && (jurisdiction == "" || jurisdiction == "All" || x.jurisdiction == jurisdiction)
  {
    Filter(barRows, (x: BarRow) => x.year == year && (jurisdiction == "" || jurisdiction == "All" || x.jurisdiction == jurisdiction))
  }

  /** What draw puts on the page. */
  datatype View =
    | NoData
    | LineView(shown: seq<LineSeries>, total: real, highest: Option<Bucket<string>>, stats: Option<Stats>)
    | BarView(bars: seq<BarItem>, barTotal: real, top: Option<BarItem>, barStats: Option<Stats>)

  /** A bar row of the latest year (the first of the year list); no row
      qualifies when the list is empty. */
  predicate LatestRow(years: seq<int>, r: BarRow) {
    |years| > 0 && r.year == years[0]
  }

  function LatestIn(years: seq<int>): BarRow -> bool {
    (r: BarRow) => LatestRow(years, r)
  }

  /** The numeric bar values of the latest year, in row order. */
  function LatestNumbers(years: seq<int>, barRows: seq<BarRow>): seq<real> {
    NumbersOf(KeysOf(Filter(barRows, LatestIn(years)), BarValueOf))
  }

  /** The LINE view: the chosen series, and the latest year's total,
      highest region and bar-dataset summary. The total and the highest
      region are taken over every series, not only the shown ones. */
  function DrawLine(series: seq<LineSeries>, jurisdiction: string, years: seq<int>, barRows: seq<BarRow>): (v: View)
    ensures v.NoData? <==> |SeriesToShow(series, jurisdiction)| == 0
    ensures v.LineView? ==> v.shown == SeriesToShow(series, jurisdiction)
    ensures v.LineView? ==> v.total == SumBy(series, (s: LineSeries) => LatestValue(s, if |years| > 0 then Some(years[0]) else None))
    ensures v.LineView? ==> v.highest == HighestRegion(series, if |years| > 0 then Some(years[0]) else None)
    ensures v.LineView? ==> (v.stats.None? <==> forall r :: r in barRows && LatestRow(years, r) ==> r.value == NaN)
    ensures v.LineView? && v.stats.Some? ==>
              (forall r :: r in barRows && LatestRow(years, r) && r.value.Num? ==> v.stats.value.lowest <= r.value.val <= v.stats.value.highest) &&
              (exists r :: r in barRows && LatestRow(years, r) && r.value == Num(v.stats.value.highest)) &&
              (exists r :: r in barRows && LatestRow(years, r) && r.value == Num(v.stats.value.lowest)) &&
              v.stats.value.lowest <= v.stats.value.mean <= v.stats.value.highest
    ensures v.LineView? && v.stats.Some? ==>
              IsMean(v.stats.value.mean, LatestNumbers(years, barRows))
  {
    var shown := SeriesToShow(series, jurisdiction);
    if |shown| == 0 then NoData
    else
      var latest := if |years| > 0 then Some(years[0]) else None;
      var latestRows := Filter(barRows, LatestIn(years));
      LineView(shown, SumBy(series, (s: LineSeries) => LatestValue(s, latest)), HighestRegion(series, latest), ValueStats(latestRows, BarValueOf))
  }

  /** The numbers among the values of a list's elements: none exactly when
      every element's value is NaN, every numeric value among them, and
      each of them some element's value. */
  lemma NumbersOfValues<T>(s: seq<T>, val: T -> JsNum)
    ensures |NumbersOf(KeysOf(s, val))| == 0 <==> forall x :: x in s ==> val(x) == NaN
    ensures forall x :: x in s && val(x).Num? ==> val(x).val in NumbersOf(KeysOf(s, val))
    ensures forall v :: v in NumbersOf(KeysOf(s, val)) ==> exists x :: x in s && val(x) == Num(v)
  {
    var vals := KeysOf(s, val);
    forall x | x in s && val(x).Num? ensures val(x).val in NumbersOf(vals) {
      var i :| 0 <= i < |s| && s[i] == x;
      assert vals[i] == Num(val(x).val);
    }
    forall v | v in NumbersOf(vals) ensures exists x :: x in s && val(x) == Num(v) {
      var i :| 0 <= i < |vals| && vals[i] == Num(v);
      assert s[i] in s;
    }
    if |NumbersOf(vals)| > 0 {
      var v := NumbersOf(vals)[0];
      assert v in NumbersOf(vals);
      var x :| x in s && val(x) == Num(v);
    }
    if exists x :: x in s && val(x) != NaN {
      var x :| x in s && val(x) != NaN;
      assert val(x).val in NumbersOf(vals);
    }
  }

  /** The BAR view: the year's bars ranked by value, their total with NaN
      skipped, the first bar when its value is positive, and the summary
      of the numeric values. */
  function DrawBar(barRows: seq<BarRow>, year: int, jurisdiction: string): (v: View)
    ensures v.NoData? <==> |BarRowsFor(barRows, year, jurisdiction)| == 0
    ensures v.BarView? ==> NonIncreasing(v.bars, ItemScore)
    ensures v.BarView? ==> multiset(v.bars) == multiset(KeysOf(BarRowsFor(barRows, year, jurisdiction), ItemOf))
    ensures v.BarView? ==> v.barTotal == SumBy(BarRowsFor(barRows, year, jurisdiction), (r: BarRow) => ItemScore(ItemOf(r)))
    ensures v.BarView? && v.top.Some? ==> v.top.value in v.bars && ItemScore(v.top.value) > 0.0 &&
                                          forall b :: b in v.bars ==> ItemScore(b) <= ItemScore(v.top.value)
    ensures v.BarView? ==> (v.top.Some? <==> exists b :: b in v.bars && ItemScore(b) > 0.0)
    ensures v.BarView? ==> (v.barStats.None? <==> forall b :: b in v.bars ==> b.value == NaN)
    ensures v.BarView? && v.barStats.Some? ==>
              (forall b :: b in v.bars && b.value.Num? ==> v.barStats.value.lowest <= b.value.val <= v.barStats.value.highest) &&
              (exists b :: b in v.bars && b.value == Num(v.barStats.value.highest)) &&
              (exists b :: b in v.bars && b.value == Num(v.barStats.value.lowest)) &&
              v.barStats.value.lowest <= v.barStats.value.mean <= v.barStats.value.highest
    ensures v.BarView? && v.barStats.Some? ==>
              IsMean(v.barStats.value.mean, NumbersOf(KeysOf(v.bars, ItemValue)))
    ensures v.BarView? && v.top.Some? ==> EarliestTop(BarRowsFor(barRows, year, jurisdiction), v.top.value)
  {
    var rows := BarRowsFor(barRows, year, jurisdiction);
    if |rows| == 0 then NoData
    else
      var items := KeysOf(rows, ItemOf);
      var bars := SortDesc(items, ItemScore);
      var total := SumBy(bars, ItemScore);
      assert total == SumBy(rows, (r: BarRow) => ItemScore(ItemOf(r))) by {
        SortDescSum(items, ItemScore, ItemScore);
        SumByPointwise(items, ItemScore, rows, (r: BarRow) => ItemScore(ItemOf(r)));
      }
      var top := if bars[0].value.Num? && bars[0].value.val > 0.0 then Some(bars[0]) else None;
      RankedHead(bars);
      RankedHeadIsFirstMaximalRow(rows);
      BarView(bars, total, top, ValueStats(bars, ItemValue))
  }

  /** In bars ranked by score the first bar scores highest, and it is
      positive exactly when some bar is. */
  lemma RankedHead(bars: seq<BarItem>)
    requires |bars| > 0 && NonIncreasing(bars, ItemScore)
    ensures forall b :: b in bars ==> ItemScore(b) <= ItemScore(bars[0])
    ensures (bars[0].value.Num? && bars[0].value.val > 0.0) <==> exists b :: b in bars && ItemScore(b) > 0.0
  {
    forall b | b in bars ensures ItemScore(b) <= ItemScore(bars[0]) {
      FirstIsMaximal(bars, ItemScore, b);
    }
    assert bars[0] in bars;
  }

  /** b is the bar of some row, and every earlier row scores strictly
      less. */
  predicate EarliestTop(rows: seq<BarRow>, b: BarItem) {
    exists i :: 0 <= i < |rows| && b == ItemOf(rows[i]) &&
                forall j :: 0 <= j < i ==> ItemScore(ItemOf(rows[j])) < ItemScore(b)
  }

  /** The stable sort puts first the earliest row of the highest score. */
  lemma RankedHeadIsFirstMaximalRow(rows: seq<BarRow>)
    requires |rows| > 0
    ensures EarliestTop(rows, SortDesc(KeysOf(rows, ItemOf), ItemScore)[0])
  {
    var items := KeysOf(rows, ItemOf);
    SortDescHeadIsFirstMaximal(items, ItemScore);
    var i := FirstMaxIndex(items, ItemScore);
    assert items[i] == ItemOf(rows[i]);
    assert forall j :: 0 <= j < i ==> items[j] == ItemOf(rows[j]);
  }

  /** The value axis of the bar renderer, `d3.max(values) || 1`, where
      d3.max skips NaN: never 0 wide, reaching every numeric bar, and the
      largest numeric value unless there is none or it is 0, when it is 1. */
  function BarAxisTop(bars: seq<BarItem>): (top: real)
    ensures top != 0.0
    ensures forall b :: b in bars && b.value.Num? ==> b.value.val <= top
    ensures (forall b :: b in bars ==> b.value == NaN) ==> top == 1.0
    ensures (exists b :: b in bars && b.value == Num(top)) ||
            (top == 1.0 && forall b :: b in bars && b.value.Num? ==> b.value.val <= 0.0)
  {
    var vals := KeysOf(bars, ItemValue);
    NumbersOfValues(bars, ItemValue);
    BarChart.MaxOrOne(NumbersOf(vals))
  }

  /** draw: the LINE view for 'LINE', the BAR view for anything else. */
  function Draw(view: string, year: int, jurisdiction: string, series: seq<LineSeries>, years: seq<int>, barRows: seq<BarRow>): (v: View)
    ensures view == "LINE" ==> !v.BarView? && (v.NoData? <==> |SeriesToShow(series, jurisdiction)| == 0)
    ensures view != "LINE" ==> !v.LineView? && (v.NoData? <==> |BarRowsFor(barRows, year, jurisdiction)| == 0)
  {
    if view == "LINE" then DrawLine(series, jurisdiction, years, barRows) else DrawBar(barRows, year, jurisdiction)
  }

  /** The distance the nearest-year search compares. */
  function Distance(year: int, x: real): real {
    if year as real >= x then year as real - x else x - year as real
  }

  /** The hover search: the year closest to x, the earliest of several
      equally close ones, and none for an empty year list. */
  method NearestYear(years: seq<int>, x: real) returns (r: Option<int>)
    ensures r.None? <==> |years| == 0
    ensures r.Some? ==> exists i :: 0 <= i < |years| && years[i] == r.value &&
                          (forall j :: 0 <= j < |years| ==> Distance(years[i], x) <= Distance(years[j], x)) &&
                          (forall j :: 0 <= j < i ==> Distance(years[i], x) < Distance(years[j], x))
  {
    if |years| == 0 {
      return None;
    }
    var best := 0;
    var minDiff := Distance(years[0], x);
    var i := 1;
    while i < |years|
      invariant 1 <= i <= |years|
      invariant 0 <= best < i
      invariant minDiff == Distance(years[best], x)
      invariant forall j :: 0 <= j < i ==> minDiff <= Distance(years[j], x)
      invariant forall j :: 0 <= j < best ==> minDiff < Distance(years[j], x)
    {
      var diff := Distance(years[i], x);
      if diff < minDiff {
        minDiff := diff;
        best := i;
      }
      i := i + 1;
    }
    return Some(years[best]);
  }

  /** The years on the LINE chart's axis: every year of the shown series,
      once, ascending. */
  function AxisYears(series: seq<LineSeries>): (r: seq<int>)
    ensures StrictlyIncreasing(r)
    ensures forall y :: y in r <==> exists s, p :: s in series && p in s.values && p.year == y
  {
    var ys := AllPointYears(series);
    SortUniqueAsc(ys)
  }

  function AllPointYears(series: seq<LineSeries>): (r: seq<int>)
    ensures forall y :: y in r <==> exists s, p :: s in series && p in s.values && p.year == y
    decreases |series|
  {
    if |series| == 0 then []
    else
      var last := series[|series| - 1];
      var rest := AllPointYears(series[..|series| - 1]);
      var own := PointYears(last.values);
      assert forall s :: s in series <==> s in series[..|series| - 1] || s == last by {
        assert series == series[..|series| - 1] + [last];
      }
      rest + own
  }

  function PointYears(values: seq<Point>): (r: seq<int>)
    ensures forall y :: y in r <==> exists p :: p in values && p.year == y
  {
    var r := seq(|values|, i requires 0 <= i < |values| => values[i].year);
    assert forall y :: y in r ==> exists p :: p in values && p.year == y by {
      forall y | y in r ensures exists p :: p in values && p.year == y {
        var i :| 0 <= i < |r| && r[i] == y;
        assert values[i] in values;
      }
    }
    assert forall p :: p in values ==> p.year in r by {
      forall p | p in values ensures p.year in r {
        var i :| 0 <= i < |values| && values[i] == p;
        assert r[i] == p.year;
      }
    }
    r
  }
}

=== FILE: common.dfy ===
/** Values shared by every chart module: JavaScript's number coercion of CSV
    cells, the tooltip number placeholder, safe element ids and the small
    string operations the dashboard performs on names. */
module Common {

  datatype Option<+T> = None | Some(value: T)

  /** The result of JavaScript's unary `+`: a finite number or NaN. */
  datatype JsNum = NaN | Num(val: real)

  /** A CSV cell as a chart module sees it: absent (undefined or null), or
      present with the number JavaScript reads from its text (an empty text
      reads as 0, a non-numeric text as NaN). */
  datatype Cell = Absent | Text(num: JsNum)

  /** `+cell || 0`: the cell's number, with absent, NaN and 0 all read as 0.
      d3.sum skips the same values, so sums over a column use this too. */
  function NumberOrZero(c: Cell): (r: real)
    ensures r != 0.0 <==> c.Text? && c.num.Num? && c.num.val != 0.0
    ensures c.Text? && c.num.Num? ==> r == c.num.val
  {
    match c
    case Absent => 0.0
    case Text(NaN) => 0.0
    case Text(Num(v)) => v
  }

  /** The three offence counts of a row, each already read as `+cell || 0`. */
  datatype Counts = Counts(fines: real, arrests: real, charges: real)

  /** The count columns a chart can be asked to plot. */
  datatype Metric = Fines | Arrests | Charges

  /** The column `d[key]` names: "FINES", "ARRESTS" or "CHARGES"; any other
      key names no column. */
  function MetricNamed(key: string): (m: Option<Metric>)
    ensures m == Some(Fines) <==> key == "FINES"
    ensures m == Some(Arrests) <==> key == "ARRESTS"
    ensures m == Some(Charges) <==> key == "CHARGES"
  {
    if key == "FINES" then Some(Fines)
    else if key == "ARRESTS" then Some(Arrests)
    else if key == "CHARGES" then Some(Charges)
    else None
  }

  /** `d[key]` as d3.sum reads it: the named count, or nothing (0) when the
      key names no column. */
  function CountOf(c: Counts, m: Option<Metric>): (r: real)
    ensures m.None? ==> r == 0.0
    ensures m == Some(Fines) ==> r == c.fines
    ensures m == Some(Arrests) ==> r == c.arrests
    ensures m == Some(Charges) ==> r == c.charges
  {
    match m
    case None => 0.0
    case Some(Fines) => c.fines
    case Some(Arrests) => c.arrests
    case Some(Charges) => c.charges
  }

  /** All three counts are non-negative, as they are in every source CSV. */
  predicate NonNegativeCounts(c: Counts) {
    c.fines >= 0.0 && c.arrests >= 0.0 && c.charges >= 0.0
  }

  /** What a tooltip cell shows: the placeholder dash, or a number that is
      then passed to the locale formatter. */
  datatype Display = Placeholder | Formatted(value: real)

  /** formatNumber of chart2/chart4: null, undefined and 0 show the dash. */
  function FormatNumber(n: Option<real>): (d: Display)
    ensures d.Placeholder? <==> n.None? || n.value == 0.0
    ensures d.Formatted? ==> d.value == n.value
  {
    if n.None? || n.value == 0.0 then Placeholder else Formatted(n.value)
  }

  /** Characters `[a-zA-Z0-9_-]` that sanitizeId leaves in place. */
  predicate IdSafe(c: char) {
    ('a' <= c <= 'z') || ('A' <= c <= 'Z') || ('0' <= c <= '9') || c == '_' || c == '-'
  }

  function SanitizeChars(s: string): (r: string)
    ensures |r| == |s|
    ensures forall i :: 0 <= i < |s| ==> r[i] == (if IdSafe(s[i]) then s[i] else '_')
  {
    if |s| == 0 then "" else [if IdSafe(s[0]) then s[0] else '_'] + SanitizeChars(s[1..])
  }

  /** sanitizeId: null/undefined give the empty id; otherwise every character
      outside `[a-zA-Z0-9_-]` is replaced by '_' and the length in characters
      is kept. */
  function SanitizeId(name: Option<string>): (r: string)
    ensures name.None? ==> r == ""
    ensures name.Some? ==> |r| == |name.value|
    ensures forall i :: 0 <= i < |r| ==> IdSafe(r[i])
    ensures name.Some? ==> forall i :: 0 <= i < |r| && IdSafe(name.value[i]) ==> r[i] == name.value[i]
    ensures name.Some? ==> forall i :: 0 <= i < |r| && !IdSafe(name.value[i]) ==> r[i] == '_'
  {
    match name
    case None => ""
    case Some(s) => SanitizeChars(s)
  }

  /** Sanitizing an id that is already safe changes nothing, so sanitizeId
      is idempotent. */
  lemma SanitizeIdIdempotent(name: Option<string>)
    ensures SanitizeId(Some(SanitizeId(name))) == SanitizeId(name)
  {
  }

  /** ASCII lower-casing of one character, as toLowerCase does on ASCII. */
  function LowerChar(c: char): (r: char)
    ensures 'A' <= c <= 'Z' ==> r as int == c as int + 32
    ensures !('A' <= c <= 'Z') ==> r == c
  {
    if 'A' <= c <= 'Z' then (c as int + 32) as char else c
  }

  /** ASCII upper-casing of one character, as toUpperCase does on ASCII. */
  function UpperChar(c: char): (r: char)
    ensures 'a' <= c <= 'z' ==> r as int == c as int - 32
    ensures !('a' <= c <= 'z') ==> r == c
  {
    if 'a' <= c <= 'z' then (c as int - 32) as char else c
  }

  function Lower(s: string): (r: string)
    ensures |r| == |s| && forall i :: 0 <= i < |s| ==> r[i] == LowerChar(s[i])
  {
    if |s| == 0 then "" else [LowerChar(s[0])] + Lower(s[1..])
  }

  function Upper(s: string): (r: string)
    ensures |r| == |s| && forall i :: 0 <= i < |s| ==> r[i] == UpperChar(s[i])
  {
    if |s| == 0 then "" else [UpperChar(s[0])] + Upper(s[1..])
  }

  /** `hay.includes(needle)`: the needle occurs at some position of hay. */
  predicate Contains(hay: string, needle: string) {
    needle <= hay || (|hay| > 0 && Contains(hay[1..], needle))
  }

  /** The default string comparison of `sort()`, lexicographic on
      characters. A Dafny character is a Unicode scalar value, while
      JavaScript compares UTF-16 code units; the two orders agree on text
      without characters above U+FFFF. */
  predicate StrLt(a: string, b: string)
    decreases |a|
  {
    if |a| == 0 then |b| > 0
    else if |b| == 0 then false
    else if a[0] < b[0] then true
    else if a[0] == b[0] then StrLt(a[1..], b[1..])
    else false
  }

  lemma {:induction false} StrLtIrreflexive(a: string)
    ensures !StrLt(a, a)
    decreases |a|
  {
    if |a| > 0 {
      StrLtIrreflexive(a[1..]);
    }
  }

  lemma {:induction false} StrLtTotal(a: string, b: string)
    ensures a == b || StrLt(a, b) || StrLt(b, a)
    decreases |a|
  {
    if |a| > 0 && |b| > 0 && a[0] == b[0] {
      StrLtTotal(a[1..], b[1..]);
      if a[1..] == b[1..] {
        assert a == [a[0]] + a[1..] && b == [b[0]] + b[1..];
      }
    }
  }

  lemma {:induction false} StrLtAsymmetric(a: string, b: string)
    ensures !(StrLt(a, b) && StrLt(b, a))
    decreases |a|
  {
    if |a| > 0 && |b| > 0 && a[0] == b[0] {
      StrLtAsymmetric(a[1..], b[1..]);
    }
  }

  lemma {:induction false} StrLtTransitive(a: string, b: string, c: string)
    requires StrLt(a, b) && StrLt(b, c)
    ensures StrLt(a, c)
    decreases |a|
  {
    if |a| > 0 && a[0] == b[0] && b[0] == c[0] {
      StrLtTransitive(a[1..], b[1..], c[1..]);
    }
  }
}

=== FILE: legend.dfy ===
/** The legend's multi-select state of the line charts: the set of series
    names the user has clicked.  The empty set means "show every series". */
module Legend {

  type Selection = set<string>

  /** handleLegendClick: a selected name is removed, any other name added. */
  function Toggle(sel: Selection, name: string): (r: Selection)
    ensures name in r <==> name !in sel
    ensures forall n :: n != name ==> (n in r <==> n in sel)
  {
    if name in sel then sel - {name} else sel + {name}
  }

  /** A series (and its legend entry) is shown when nothing is selected or
      when it is selected itself. */
  predicate Visible(sel: Selection, name: string) {
    |sel| == 0 || name in sel
  }

  /** The "hidden" class of a series group, and the "opacity-40" class of a
      legend entry: something is selected and this name is not. */
  predicate Hidden(sel: Selection, name: string) {
    |sel| != 0 && name !in sel
  }

  lemma HiddenIsNotVisible(sel: Selection, name: string)
    ensures Hidden(sel, name) <==> !Visible(sel, name)
  {
  }

  /** Clicking the same entry twice restores the selection. */
  lemma ToggleTwice(sel: Selection, name: string)
    ensures Toggle(Toggle(sel, name), name) == sel
  {
  }

  /** Clicking an entry while nothing is selected shows only that series. */
  lemma FirstClickIsolates(name: string, other: string)
    requires other != name
    ensures Toggle({}, name) == {name}
    ensures Visible(Toggle({}, name), name) && Hidden(Toggle({}, name), other)
  {
  }

  /** Deselecting the last selected entry shows every series again. */
  lemma LastDeselectShowsAll(name: string, other: string)
    ensures Toggle({name}, name) == {}
    ensures Visible(Toggle({name}, name), other)
  {
  }
}

=== FILE: linechart.dfy ===
/** The pipeline the two multi-series line charts (js/chart2.js and
    js/chart4.js) share: one series per group key holding one point per
    dataset year, pruning of empty series, the y-domain bound, the greedy
    end-of-line label placement and the hover tooltip's item list. */
module LineChart {
  import opened Common
  import opened Aggregate
  import opened Ordering
  import opened Legend

  /** A line: its name and its points.  Each point is a Bucket whose key is
      the year and whose total is the value plotted for that year. */
  datatype Series = Series(name: string, values: seq<Bucket<int>>)

  function NameOf(s: Series): string { s.name }

  /** d3.sum(s.values, d => d.value). */
  function SeriesTotal(s: Series): real { SumBy(s.values, TotalOf) }

  /** Plot height of both line charts: 600 minus the top (20) and bottom
      (50) margins. */
  const PlotHeight: real := 530.0

  /** Minimum vertical distance between two end-of-line labels, in pixels. */
  const MinSeparation: real := 16.0

  /** `Array.from(new Set(rows.map(d => d.YEAR))).sort(d3.ascending)`. */
  function AllYears<R>(rows: seq<R>, yearOf: R -> int): (r: seq<int>)
    ensures StrictlyIncreasing(r)
    ensures forall y :: y in r <==> y in KeysOf(rows, yearOf)
  {
    SortUniqueAsc(KeysOf(rows, yearOf))
  }

  /** The points of one series: for every year of `years`, in order, the
      sum of the metric over the group's rows of that year, 0 if it has none
      (`annualRollupMap.get(year) || 0`). */
  function CompleteValues<R>(group: seq<R>, years: seq<int>, yearOf: R -> int, metric: R -> real): (r: seq<Bucket<int>>)
    ensures |r| == |years|
    ensures forall j :: 0 <= j < |years| ==> r[j].key == years[j]
    ensures forall j :: 0 <= j < |years| ==> r[j].total == SumWhere(group, yearOf, years[j], metric)
  {
    TotalsFor(years, group, yearOf, metric)
  }

  /** `d3.group(rows, key)` followed by one complete series per group, in
      first-seen order of the group keys. */
  function BuildSeries<R(==,!new)>(rows: seq<R>, years: seq<int>, key: R -> string, yearOf: R -> int, metric: R -> real)
    : (r: seq<Series>)
    ensures NoDuplicates(KeysOf(r, NameOf))
    ensures forall n :: n in KeysOf(r, NameOf) <==> n in KeysOf(rows, key)
    ensures KeysOf(r, NameOf) == DistinctKeys(rows, key)
    ensures forall i :: 0 <= i < |r| ==> |r[i].values| == |years|
    ensures forall i, j :: 0 <= i < |r| && 0 <= j < |years| ==> r[i].values[j].key == years[j]
    ensures forall i, j :: 0 <= i < |r| && 0 <= j < |years| ==>
              r[i].values[j].total == SumWhere(Select(rows, key, r[i].name), yearOf, years[j], metric)
  {
    var names := DistinctKeys(rows, key);
    var r := seq(|names|, i requires 0 <= i < |names| =>
                Series(names[i], CompleteValues(Select(rows, key, names[i]), years, yearOf, metric)));
    assert KeysOf(r, NameOf) == names;
    r
  }

  /** Every row's year is one of years. */
  predicate YearsCover<R>(rows: seq<R>, years: seq<int>, yearOf: R -> int) {
    forall i :: 0 <= i < |rows| ==> yearOf(rows[i]) in years
  }

  /** The years of a whole file cover every subset of its rows. */
  lemma AllYearsCover<R>(rows: seq<R>, data: seq<R>, yearOf: R -> int)
    requires forall x :: x in data ==> x in rows
    ensures YearsCover(data, AllYears(rows, yearOf), yearOf)
  {
    forall i | 0 <= i < |data| ensures yearOf(data[i]) in AllYears(rows, yearOf) {
      assert data[i] in rows;
      var n :| 0 <= n < |rows| && rows[n] == data[i];
      assert KeysOf(rows, yearOf)[n] == yearOf(data[i]);
    }
  }

  /** When every row's year is listed, the points of one series add up to
      the metric over that series' group. */
  lemma SeriesTotalIsGroupSum<R(!new)>(rows: seq<R>, years: seq<int>, key: R -> string, yearOf: R -> int, metric: R -> real, k: nat)
    requires NoDuplicates(years) && YearsCover(rows, years, yearOf)
    requires k < |BuildSeries(rows, years, key, yearOf, metric)|
    ensures SeriesTotal(BuildSeries(rows, years, key, yearOf, metric)[k]) ==
              SumBy(Select(rows, key, BuildSeries(rows, years, key, yearOf, metric)[k].name), metric)
  {
    var s := BuildSeries(rows, years, key, yearOf, metric)[k];
    var group := Select(rows, key, s.name);
    assert s.values == TotalsFor(years, group, yearOf, metric);
    TotalsForSum(years, group, yearOf, metric);
    assert forall m :: 0 <= m < |group| ==> yearOf(group[m]) in years by {
      forall m | 0 <= m < |group| ensures yearOf(group[m]) in years {
        assert group[m] in rows;
      }
    }
    SumKeyInAll(group, yearOf, years, metric);
    SelectSum(rows, key, s.name, metric);
  }

  /** Every row whose year is listed ends up in exactly one point of exactly
      one series: the points of all series sum to the metric over all rows. */
  lemma BuildSeriesConserves<R(!new)>(rows: seq<R>, years: seq<int>, key: R -> string, yearOf: R -> int, metric: R -> real)
    requires NoDuplicates(years) && YearsCover(rows, years, yearOf)
    ensures SumBy(BuildSeries(rows, years, key, yearOf, metric), SeriesTotal) == SumBy(rows, metric)
  {
    var r := BuildSeries(rows, years, key, yearOf, metric);
    var names := DistinctKeys(rows, key);
    assert KeysOf(r, NameOf) == names;
    forall i | 0 <= i < |r|
      ensures SeriesTotal(r[i]) == TotalOf(TotalsFor(names, rows, key, metric)[i])
    {
      SeriesTotalIsGroupSum(rows, years, key, yearOf, metric, i);
      SelectSum(rows, key, names[i], metric);
    }
    SumByPointwise(r, SeriesTotal, TotalsFor(names, rows, key, metric), TotalOf);
    RollupConserves(rows, key, metric);
  }

  /** With non-negative values every series total is non-negative. */
  lemma BuildSeriesNonNegative<R(!new)>(rows: seq<R>, years: seq<int>, key: R -> string, yearOf: R -> int, metric: R -> real)
    requires forall i :: 0 <= i < |rows| ==> metric(rows[i]) >= 0.0
    ensures forall i :: 0 <= i < |BuildSeries(rows, years, key, yearOf, metric)| ==>
              SeriesTotal(BuildSeries(rows, years, key, yearOf, metric)[i]) >= 0.0
  {
    var r := BuildSeries(rows, years, key, yearOf, metric);
    forall i | 0 <= i < |r| ensures SeriesTotal(r[i]) >= 0.0 {
      var group := Select(rows, key, r[i].name);
      assert forall m :: 0 <= m < |group| ==> metric(group[m]) >= 0.0 by {
        forall m | 0 <= m < |group| ensures metric(group[m]) >= 0.0 {
          assert group[m] in rows;
        }
      }
      forall j | 0 <= j < |r[i].values| ensures TotalOf(r[i].values[j]) >= 0.0 {
        SumWhereNonNegative(group, yearOf, years[j], metric);
      }
      SumByNonNegative(r[i].values, TotalOf);
    }
  }

  predicate HasPositiveTotal(s: Series) { SeriesTotal(s) > 0.0 }

  /** `series.filter(s => d3.sum(s.values, d => d.value) > 0)`. */
  function PruneEmpty(series: seq<Series>): (r: seq<Series>)
    ensures forall s :: s in r <==> s in series && SeriesTotal(s) > 0.0
    ensures forall i :: 0 <= i < |r| ==> SeriesTotal(r[i]) > 0.0
  {
    Filter(series, HasPositiveTotal)
  }

  /** Pruning drops only series that sum to 0 when no value is negative, so
      it keeps the total of all plotted points. */
  lemma PruneEmptyKeepsTotal(series: seq<Series>)
    requires forall i :: 0 <= i < |series| ==> SeriesTotal(series[i]) >= 0.0
    ensures SumBy(PruneEmpty(series), SeriesTotal) == SumBy(series, SeriesTotal)
  {
    SumByFilterDropsZeros(series, HasPositiveTotal, SeriesTotal);
  }

  /** Where a series' name first occurs among the group keys of the rows. */
  function FirstSeenRank(keys: seq<string>): Series -> int {
    (s: Series) => FirstIndex(keys, s.name)
  }

  /** The series come in the order their names first occur in the rows. */
  lemma BuildSeriesFirstSeen<R(!new)>(rows: seq<R>, years: seq<int>, key: R -> string, yearOf: R -> int, metric: R -> real)
    ensures var r := BuildSeries(rows, years, key, yearOf, metric);
      forall i, j :: 0 <= i < j < |r| ==> FirstIndex(KeysOf(rows, key), r[i].name) < FirstIndex(KeysOf(rows, key), r[j].name)
  {
    var r := BuildSeries(rows, years, key, yearOf, metric);
    var ks := KeysOf(rows, key);
    DistinctFirstSeen(ks);
    forall i, j | 0 <= i < j < |r| ensures FirstIndex(ks, r[i].name) < FirstIndex(ks, r[j].name) {
      assert r[i].name == KeysOf(r, NameOf)[i] == Distinct(ks)[i];
      assert r[j].name == KeysOf(r, NameOf)[j] == Distinct(ks)[j];
    }
  }

  /** Pruning keeps the first-seen order of the series that remain. */
  lemma PruneEmptyKeepsOrder(all: seq<Series>, keys: seq<string>)
    requires forall i, j :: 0 <= i < j < |all| ==> FirstIndex(keys, all[i].name) < FirstIndex(keys, all[j].name)
    ensures var r := PruneEmpty(all);
      forall i, j :: 0 <= i < j < |r| ==> FirstIndex(keys, r[i].name) < FirstIndex(keys, r[j].name)
  {
    var r := PruneEmpty(all);
    assert r == Filter(all, HasPositiveTotal);
    FilterKeepsOrder(all, HasPositiveTotal, FirstSeenRank(keys));
    forall i, j | 0 <= i < j < |r| ensures FirstIndex(keys, r[i].name) < FirstIndex(keys, r[j].name) {
      assert FirstSeenRank(keys)(r[i]) < FirstSeenRank(keys)(r[j]);
    }
  }

  /** What both line charts plot once pruned: the complete series of every
      group whose points do not all sum to 0, in first-seen order of the
      group keys. */
  function PlottedSeries<R(==,!new)>(rows: seq<R>, years: seq<int>, key: R -> string, yearOf: R -> int, metric: R -> real)
    : (r: seq<Series>)
    ensures NoDuplicates(KeysOf(r, NameOf))
    ensures forall i :: 0 <= i < |r| ==> SeriesTotal(r[i]) > 0.0
    ensures forall s :: s in r ==> s in BuildSeries(rows, years, key, yearOf, metric)
    ensures forall i, j :: 0 <= i < j < |r| ==> FirstIndex(KeysOf(rows, key), r[i].name) < FirstIndex(KeysOf(rows, key), r[j].name)
    ensures forall i :: 0 <= i < |r| ==> |r[i].values| == |years|
    ensures forall i, j :: 0 <= i < |r| && 0 <= j < |years| ==>
              r[i].values[j] == Bucket(years[j], SumWhere(Select(rows, key, r[i].name), yearOf, years[j], metric))
  {
    var all := BuildSeries(rows, years, key, yearOf, metric);
    FilterKeepsDistinctKeys(all, HasPositiveTotal, NameOf);
    var r := PruneEmpty(all);
    BuildSeriesFirstSeen(rows, years, key, yearOf, metric);
    PruneEmptyKeepsOrder(all, KeysOf(rows, key));
    forall i | 0 <= i < |r|
      ensures |r[i].values| == |years|
      ensures forall j :: 0 <= j < |years| ==> r[i].values[j] == Bucket(years[j], SumWhere(Select(rows, key, r[i].name), yearOf, years[j], metric))
    {
      assert r[i] in all;
      var k :| 0 <= k < |all| && all[k] == r[i];
    }
    r
  }

  /** Among series with distinct names, a name survives pruning exactly
      when its series has a positive total. */
  lemma PruneEmptyKeepsName(all: seq<Series>, k: nat)
    requires NoDuplicates(KeysOf(all, NameOf)) && k < |all|
    ensures all[k].name in KeysOf(PruneEmpty(all), NameOf) <==> SeriesTotal(all[k]) > 0.0
  {
  }

  /** A group is drawn exactly when its metric sums to more than 0. */
  lemma PlottedSeriesKeepsPositiveGroups<R(!new)>(rows: seq<R>, years: seq<int>, key: R -> string, yearOf: R -> int, metric: R -> real, name: string)
    requires NoDuplicates(years) && YearsCover(rows, years, yearOf)
    requires name in KeysOf(rows, key)
    ensures name in KeysOf(PlottedSeries(rows, years, key, yearOf, metric), NameOf) <==>
              SumBy(Select(rows, key, name), metric) > 0.0
  {
    var all := BuildSeries(rows, years, key, yearOf, metric);
    var k :| 0 <= k < |all| && KeysOf(all, NameOf)[k] == name;
    SeriesTotalIsGroupSum(rows, years, key, yearOf, metric, k);
    PruneEmptyKeepsName(all, k);
  }

  /** With a non-negative metric the plotted series together hold the whole
      metric of the rows: nothing is lost to pruning. */
  lemma PlottedSeriesConserves<R(!new)>(rows: seq<R>, years: seq<int>, key: R -> string, yearOf: R -> int, metric: R -> real)
    requires NoDuplicates(years) && YearsCover(rows, years, yearOf)
    requires forall i :: 0 <= i < |rows| ==> metric(rows[i]) >= 0.0
    ensures SumBy(PlottedSeries(rows, years, key, yearOf, metric), SeriesTotal) == SumBy(rows, metric)
  {
    BuildSeriesConserves(rows, years, key, yearOf, metric);
    BuildSeriesNonNegative(rows, years, key, yearOf, metric);
    PruneEmptyKeepsTotal(BuildSeries(rows, years, key, yearOf, metric));
  }

  /** A group whose rows all have metric 0 gets a series of zeros. */
  lemma ZeroGroupSeries<R>(group: seq<R>, years: seq<int>, yearOf: R -> int, metric: R -> real)
    requires forall x :: x in group ==> metric(x) == 0.0
    ensures SumBy(CompleteValues(group, years, yearOf, metric), TotalOf) == 0.0
  {
    var v := CompleteValues(group, years, yearOf, metric);
    forall j | 0 <= j < |v| ensures TotalOf(v[j]) == 0.0 {
      SumWhereZero(group, yearOf, years[j], metric);
    }
    SumByZero(v, TotalOf);
  }

  /** When the metric is 0 on every row nothing is left to plot. */
  lemma PlottedSeriesEmptyWhenAllZero<R(!new)>(rows: seq<R>, years: seq<int>, key: R -> string, yearOf: R -> int, metric: R -> real)
    requires forall i :: 0 <= i < |rows| ==> metric(rows[i]) == 0.0
    ensures |PlottedSeries(rows, years, key, yearOf, metric)| == 0
  {
    var all := BuildSeries(rows, years, key, yearOf, metric);
    forall s | s in all ensures SeriesTotal(s) == 0.0 {
      var i :| 0 <= i < |all| && all[i] == s;
      var group := Select(rows, key, s.name);
      assert forall x :: x in group ==> metric(x) == 0.0 by {
        forall x | x in group ensures metric(x) == 0.0 {
          var m :| 0 <= m < |rows| && rows[m] == x;
        }
      }
      assert s.values == CompleteValues(group, years, yearOf, metric);
      ZeroGroupSeries(group, years, yearOf, metric);
    }
    FilterNone(all, HasPositiveTotal);
  }

  /** Every plotted value, series after series. */
  function AllValues(series: seq<Series>): (r: seq<real>)
    ensures forall i, j :: 0 <= i < |series| && 0 <= j < |series[i].values| ==> series[i].values[j].total in r
    decreases |series|
  {
    if |series| == 0 then []
    else
      var last := series[|series| - 1];
      var r := AllValues(series[..|series| - 1]) + KeysOf(last.values, TotalOf);
      assert forall j :: 0 <= j < |last.values| ==> last.values[j].total == KeysOf(last.values, TotalOf)[j];
      r
  }

  /** A series with a positive total has a point, so there is a value to
      take the maximum of. */
  lemma SomePointPlotted(series: seq<Series>, i: nat)
    requires i < |series| && SeriesTotal(series[i]) > 0.0
    ensures MaxOf(AllValues(series)).Some?
  {
  }

  /** The y-domain upper bound as the source computes it,
      `Math.max(1, d3.max(series, s => d3.max(s.values, d => d.value)) * 1.05)`:
      when there is no point at all d3.max yields undefined and the bound is
      NaN. */
  function YDomainMaxAsWritten(series: seq<Series>): (r: JsNum)
    ensures MaxOf(AllValues(series)).Some? ==> r.Num? && r.val >= 1.0
  {
    match MaxOf(AllValues(series))
    case None => NaN
    case Some(m) => if 1.0 >= m * 1.05 then Num(1.0) else Num(m * 1.05)
  }

  /** With no series left to plot, the bound the source computes is NaN
      rather than at least 1. */
  lemma YDomainMaxAsWrittenNaN()
    ensures YDomainMaxAsWritten([]) == NaN
  {
  }

  /** The y-domain upper bound as intended: the largest plotted value with
      5% headroom, and never below 1, also when nothing is plotted. */
  function YDomainMax(series: seq<Series>): (r: real)
    ensures r >= 1.0
    ensures forall v :: v in AllValues(series) ==> r >= v * 1.05
    ensures r == 1.0 || exists v :: v in AllValues(series) && r == v * 1.05
    ensures MaxOf(AllValues(series)).Some? ==> YDomainMaxAsWritten(series) == Num(r)
    ensures YDomainMaxAsWritten(series).Num? ==> YDomainMaxAsWritten(series) == Num(r)
  {
    match MaxOf(AllValues(series))
    case None => 1.0
    case Some(m) => if 1.0 >= m * 1.05 then 1.0 else m * 1.05
  }

  /** The linear y scale: domain [0, top] onto the range [height, 0]. */
  function YScale(v: real, top: real, height: real): (y: real)
    requires top > 0.0
    ensures v == 0.0 ==> y == height
    ensures v == top ==> y == 0.0
  {
    height - v * height / top
  }

  lemma YScaleReverses(v1: real, v2: real, top: real, height: real)
    requires top > 0.0 && height >= 0.0 && v1 <= v2
    ensures YScale(v1, top, height) >= YScale(v2, top, height)
  {
    assert v1 * height <= v2 * height;
    assert v1 * height / top <= v2 * height / top;
  }

  /** An end-of-line label: the series name, the y of its last point, and
      the y at which it is finally drawn. */
  datatype Label = Label(name: string, y: real, finalY: real)

  function LabelY(l: Label): real { l.y }

  function LabelName(l: Label): string { l.name }

  /** The value of a series' last point if it is positive. */
  function LastPositive(s: Series): (r: Option<real>)
    ensures r.Some? <==> |s.values| > 0 && s.values[|s.values| - 1].total > 0.0
    ensures r.Some? ==> r.value == s.values[|s.values| - 1].total
  {
    if |s.values| > 0 && s.values[|s.values| - 1].total > 0.0 then Some(s.values[|s.values| - 1].total) else None
  }

  /** One label per series whose last point is positive, in series order,
      with finalY starting at y. */
  function LabelCandidates(series: seq<Series>, top: real, height: real): (r: seq<Label>)
    requires top > 0.0
    ensures forall l :: l in r ==> l.finalY == l.y
    ensures forall l :: l in r ==> exists i :: 0 <= i < |series| && l.name == series[i].name && LastPositive(series[i]).Some?
    ensures forall i :: 0 <= i < |series| && LastPositive(series[i]).Some? ==> series[i].name in KeysOf(r, LabelName)
    decreases |series|
  {
    if |series| == 0 then []
    else
      var rest := LabelCandidates(series[..|series| - 1], top, height);
      var s := series[|series| - 1];
      assert forall i :: 0 <= i < |series| - 1 ==> series[..|series| - 1][i] == series[i];
      match LastPositive(s)
      case None => rest
      case Some(v) =>
        var y := YScale(v, top, height);
        var r := rest + [Label(s.name, y, y)];
        assert KeysOf(r, LabelName) == KeysOf(rest, LabelName) + [s.name];
        r
  }

  /** A series whose last point is positive, so that it gets a label. */
  predicate HasPositiveLast(s: Series) {
    LastPositive(s).Some?
  }

  /** The candidates are one label per series with a positive last point,
      in series order, each starting at the y its last value is drawn at. */
  lemma {:induction false} LabelCandidatesArePositiveLast(series: seq<Series>, top: real, height: real)
    requires top > 0.0
    ensures var r := LabelCandidates(series, top, height);
      var lab := Filter(series, HasPositiveLast);
      |r| == |lab| &&
      forall i :: 0 <= i < |r| ==>
        HasPositiveLast(lab[i]) &&
        r[i] == Label(lab[i].name, YScale(LastPositive(lab[i]).value, top, height), YScale(LastPositive(lab[i]).value, top, height))
    decreases |series|
  {
    if |series| > 0 {
      var init, s := series[..|series| - 1], series[|series| - 1];
      LabelCandidatesArePositiveLast(init, top, height);
      var r0 := LabelCandidates(init, top, height);
      assert series == init + [s];
      FilterSnoc(init, s, HasPositiveLast);
      if HasPositiveLast(s) {
        var y := YScale(LastPositive(s).value, top, height);
        assert LabelCandidates(series, top, height) == r0 + [Label(s.name, y, y)];
      } else {
        assert LabelCandidates(series, top, height) == r0;
      }
    }
  }

  /** The greedy top-down pass: each label moves up just enough to sit at
      least MinSeparation above the previous one (lastY for the first). */
  function Place(labels: seq<Label>, lastY: real): (r: seq<Label>)
    ensures |r| == |labels|
    ensures forall i :: 0 <= i < |r| ==> r[i].name == labels[i].name && r[i].y == labels[i].y
    decreases |labels|
  {
    if |labels| == 0 then []
    else
      var l := labels[0];
      var f := if l.finalY <= lastY - MinSeparation then l.finalY else lastY - MinSeparation;
      [Label(l.name, l.y, f)] + Place(labels[1..], f)
  }

  /** Where the label before index i ends (lastY for the first label). */
  function Above(r: seq<Label>, lastY: real, i: nat): real
    requires i <= |r|
  {
    if i == 0 then lastY else r[i - 1].finalY
  }

  /** Each label of the pass ends at the lower of where it started and
      MinSeparation above the label placed before it. */
  lemma {:induction false} PlaceAt(labels: seq<Label>, lastY: real, i: nat)
    requires i < |labels|
    ensures var r := Place(labels, lastY);
      var bound := Above(r, lastY, i) - MinSeparation;
      r[i].finalY == (if labels[i].finalY <= bound then labels[i].finalY else bound)
    decreases i
  {
    if i > 0 {
      var r := Place(labels, lastY);
      var rest := Place(labels[1..], r[0].finalY);
      assert r == [r[0]] + rest;
      PlaceAt(labels[1..], r[0].finalY, i - 1);
      assert labels[1..][i - 1] == labels[i];
      assert Above(rest, r[0].finalY, i - 1) == Above(r, lastY, i);
    }
  }

  /** The greedy pass keeps labels apart and moves them as little as it
      can: every label ends at least MinSeparation above the one before it
      (lastY for the first), never lower than it started, and either where
      it started or exactly MinSeparation above its predecessor. */
  lemma PlaceSpacesLabels(labels: seq<Label>, lastY: real)
    ensures var r := Place(labels, lastY);
      (forall i :: 0 <= i < |r| ==> r[i].finalY <= labels[i].finalY) &&
      (forall i :: 0 <= i < |r| ==> r[i].finalY <= Above(r, lastY, i) - MinSeparation) &&
      (forall i :: 0 <= i < |r| ==> r[i].finalY == labels[i].finalY || r[i].finalY == Above(r, lastY, i) - MinSeparation)
  {
    forall i | 0 <= i < |labels| ensures
      var r := Place(labels, lastY);
      r[i].finalY <= labels[i].finalY && r[i].finalY <= Above(r, lastY, i) - MinSeparation
    {
      PlaceAt(labels, lastY, i);
    }
  }

  /** A label with its placement undone: drawn at the y of its last point. */
  function Unplaced(l: Label): Label { Label(l.name, l.y, l.y) }

  /** The label layout of a line chart: the candidates, sorted by descending
      y (lowest on screen first), then placed upwards from height - 5. */
  function PlaceLabels(series: seq<Series>, top: real, height: real): (r: seq<Label>)
    requires top > 0.0
    ensures multiset(KeysOf(r, Unplaced)) == multiset(LabelCandidates(series, top, height))
    ensures forall i, j :: 0 <= i < j < |r| ==> r[i].y >= r[j].y
  {
    var c := LabelCandidates(series, top, height);
    var sorted := SortDesc(c, LabelY);
    var r := Place(sorted, height - 5.0);
    SortedLabelsUnplaced(c, sorted);
    assert KeysOf(r, Unplaced) == sorted;
    r
  }

  lemma SortedLabelsUnplaced(c: seq<Label>, sorted: seq<Label>)
    requires forall l :: l in c ==> l.finalY == l.y
    requires multiset(sorted) == multiset(c)
    ensures forall i :: 0 <= i < |sorted| ==> Unplaced(sorted[i]) == sorted[i]
  {
    forall i | 0 <= i < |sorted| ensures Unplaced(sorted[i]) == sorted[i] {
      assert sorted[i] in multiset(c);
    }
  }

  /** The drawn labels never overlap: each sits at least MinSeparation above
      the one below it, the lowest at least MinSeparation above height - 5,
      and no label is drawn below its line's end. */
  lemma PlaceLabelsSeparated(series: seq<Series>, top: real, height: real)
    requires top > 0.0
    ensures var r := PlaceLabels(series, top, height);
      (forall i :: 0 <= i < |r| ==> r[i].finalY <= r[i].y) &&
      (forall i :: 0 <= i < |r| ==> r[i].finalY <= Above(r, height - 5.0, i) - MinSeparation)
  {
    var c := LabelCandidates(series, top, height);
    var sorted := SortDesc(c, LabelY);
    SortedLabelsUnplaced(c, sorted);
    PlaceSpacesLabels(sorted, height - 5.0);
  }

  /** One tooltip row: a series name and its value at the hovered year, or
      null when that value is missing or not positive. */
  datatype TooltipItem = TooltipItem(name: string, value: Option<real>)

  /** The sort key `it.value || 0`. */
  function ItemScore(it: TooltipItem): real {
    if it.value.Some? then it.value.value else 0.0
  }

  function ItemName(it: TooltipItem): string { it.name }

  /** `values.find(v => v.year === year)`: the first point of that year. */
  function PointAt(values: seq<Bucket<int>>, year: int): (r: Option<real>)
    ensures r.None? <==> year !in KeysOf(values, KeyOfBucket)
    ensures r.Some? ==> exists j :: 0 <= j < |values| && values[j].key == year && values[j].total == r.value &&
                                   forall i :: 0 <= i < j ==> values[i].key != year
    decreases |values|
  {
    if |values| == 0 then None
    else if values[0].key == year then Some(values[0].total)
    else
      assert KeysOf(values, KeyOfBucket) == [values[0].key] + KeysOf(values[1..], KeyOfBucket);
      var r := PointAt(values[1..], year);
      assert r.Some? ==> exists j :: 0 <= j < |values| && values[j].key == year && values[j].total == r.value &&
                                     forall i :: 0 <= i < j ==> values[i].key != year by {
        if r.Some? {
          var j :| 0 <= j < |values[1..]| && values[1..][j].key == year && values[1..][j].total == r.value &&
                   forall i :: 0 <= i < j ==> values[1..][i].key != year;
          assert values[j + 1] == values[1..][j];
          forall i | 0 <= i < j + 1 ensures values[i].key != year {
            if i > 0 { assert values[i] == values[1..][i - 1]; }
          }
        }
      }
      r
  }

  /** The tooltip row of one series: `(point && point.value > 0) ? point.value : null`. */
  function ItemFor(s: Series, year: int): (it: TooltipItem)
    ensures it.name == s.name
    ensures it.value.Some? <==> PointAt(s.values, year).Some? && PointAt(s.values, year).value > 0.0
    ensures it.value.Some? ==> it.value == PointAt(s.values, year)
  {
    var p := PointAt(s.values, year);
    TooltipItem(s.name, if p.Some? && p.value > 0.0 then p else None)
  }

  function VisibleIn(sel: Selection): Series -> bool {
    (s: Series) => Visible(sel, s.name)
  }

  /** The rows of the visible series, in series order. */
  function VisibleItems(series: seq<Series>, sel: Selection, year: int): (r: seq<TooltipItem>)
    ensures forall it :: it in r ==> Visible(sel, it.name)
    ensures forall it :: it in r ==> exists i :: 0 <= i < |series| && it == ItemFor(series[i], year)
    ensures forall i :: 0 <= i < |series| && Visible(sel, series[i].name) ==> ItemFor(series[i], year) in r
    decreases |series|
  {
    if |series| == 0 then []
    else
      var rest := VisibleItems(series[..|series| - 1], sel, year);
      var s := series[|series| - 1];
      assert forall i :: 0 <= i < |series| - 1 ==> series[..|series| - 1][i] == series[i];
      if Visible(sel, s.name) then rest + [ItemFor(s, year)] else rest
  }

  /** There is exactly one item per visible series: item i is the row of
      the i-th visible series. */
  lemma {:induction false} VisibleItemsAreVisibleSeries(series: seq<Series>, sel: Selection, year: int)
    ensures var r := VisibleItems(series, sel, year);
      var vis := Filter(series, VisibleIn(sel));
      |r| == |vis| && forall i :: 0 <= i < |r| ==> r[i] == ItemFor(vis[i], year)
    decreases |series|
  {
    if |series| > 0 {
      var init, s := series[..|series| - 1], series[|series| - 1];
      VisibleItemsAreVisibleSeries(init, sel, year);
      assert VisibleIn(sel)(s) == Visible(sel, s.name);
    }
  }

  /** The mousemove item list: visible series only, non-positive values as
      null, sorted by descending value with nulls counted as 0. */
  function TooltipItems(series: seq<Series>, sel: Selection, year: int): (r: seq<TooltipItem>)
    ensures forall it :: it in r ==> Visible(sel, it.name)
    ensures forall it :: it in r ==> it.value.None? || it.value.value > 0.0
    ensures forall i :: 0 <= i < |series| && Visible(sel, series[i].name) ==> ItemFor(series[i], year) in r
    ensures forall it :: it in r ==> exists i :: 0 <= i < |series| && it == ItemFor(series[i], year)
    ensures NonIncreasing(r, ItemScore)
    ensures multiset(r) == multiset(VisibleItems(series, sel, year))
  {
    var items := VisibleItems(series, sel, year);
    var r := SortDesc(items, ItemScore);
    assert forall it :: it in r <==> it in items by {
      forall it ensures it in r <==> it in items {
        assert it in r <==> it in multiset(r);
        assert it in items <==> it in multiset(items);
      }
    }
    r
  }

  /** chart2.js hides its tooltip when the item list is empty, which happens
      exactly when no series is visible. */
  lemma TooltipEmptyIffNothingVisible(series: seq<Series>, sel: Selection, year: int)
    ensures |TooltipItems(series, sel, year)| == 0 <==> forall i :: 0 <= i < |series| ==> !Visible(sel, series[i].name)
  {
    var r := TooltipItems(series, sel, year);
    if |r| > 0 {
      assert r[0] in r;
    }
  }
}

=== FILE: metrics.dfy ===
/** js/metrics.js: the year filter's options and the five headline totals
    (fines, police fines, camera fines, arrests, charges) for one year and
    jurisdiction. */
module Metrics {
  import opened Common
  import opened Aggregate

  /** One option of the year select. */
  datatype YearOption = YearOption(year: int, selected: bool)

  /** populateYearFilter: nothing when the select is missing; otherwise one
      option per year from endYear down to startYear, only the first (the
      latest year) selected, and none at all when endYear < startYear. */
  method PopulateYearFilter(startYear: int, endYear: int, present: bool) returns (r: Option<seq<YearOption>>)
    ensures r.None? <==> !present
    ensures r.Some? ==> |r.value| == if endYear >= startYear then endYear - startYear + 1 else 0
    ensures r.Some? ==> forall i :: 0 <= i < |r.value| ==> r.value[i].year == endYear - i
    ensures r.Some? ==> forall i :: 0 <= i < |r.value| ==> (r.value[i].selected <==> i == 0)
    ensures r.Some? ==> forall i :: 0 <= i < |r.value| ==> startYear <= r.value[i].year <= endYear
    ensures r.Some? ==> forall i, j :: 0 <= i < j < |r.value| ==> r.value[i].year > r.value[j].year
  {
    if !present {
      return None;
    }
    var opts: seq<YearOption> := [];
    var year := endYear;
    while year >= startYear
      invariant year <= endYear
      invariant endYear >= startYear ==> year >= startYear - 1
      invariant endYear < startYear ==> year == endYear
      invariant |opts| == endYear - year
      invariant forall i :: 0 <= i < |opts| ==> opts[i] == YearOption(endYear - i, i == 0)
      decreases year - startYear
    {
      opts := opts + [YearOption(year, year == endYear)];
      year := year - 1;
    }
    return Some(opts);
  }

  /** A row of the speeding dataset as the CSV loader leaves it. */
  datatype RawRow = RawRow(year: string, jurisdiction: string, fines: Cell, arrests: Cell, charges: Cell, detectionMethod: Option<string>)

  /** A row after the cleaning map: YEAR and JURISDICTION kept as text, the
      counts coerced with unary plus. */
  datatype Row = Row(year: string, jurisdiction: string, fines: JsNum, arrests: JsNum, charges: JsNum, detectionMethod: Option<string>)

  /** Unary plus on a CSV cell: a missing column is NaN, a present cell is
      the number its text spells (0 for an empty text). */
  function Coerce(c: Cell): (n: JsNum)
    ensures c.Absent? ==> n == NaN
    ensures c.Text? ==> n == c.num
  {
    match c
    case Absent => NaN
    case Text(x) => x
  }

  function CleanRow(d: RawRow): Row {
    Row(d.year, d.jurisdiction, Coerce(d.fines), Coerce(d.arrests), Coerce(d.charges), d.detectionMethod)
  }

  /** The cleaning map keeps every row, in order. */
  function CleanRows(data: seq<RawRow>): (r: seq<Row>)
    ensures |r| == |data| && forall i :: 0 <= i < |data| ==> r[i] == CleanRow(data[i])
  {
    seq(|data|, i requires 0 <= i < |data| => CleanRow(data[i]))
  }

  /** `+x || 0` on a number: NaN, being falsy, becomes 0. */
  function OrZero(n: JsNum): (r: real)
    ensures n.NaN? ==> r == 0.0
    ensures n.Num? ==> r == n.val
  {
    match n
    case NaN => 0.0
    case Num(v) => v
  }

  /** The select's value, or the default when the select is missing. */
  function SelectedOr(filter: Option<string>, default: string): (v: string)
    ensures filter.None? ==> v == default
    ensures filter.Some? ==> v == filter.value
  {
    match filter
    case None => default
    case Some(x) => x
  }

  /** The rows of the selected year (compared as text), and of the
      selected jurisdiction unless it is 'All'. */
  function FilterRows(data: seq<Row>, year: string, jurisdiction: string): (r: seq<Row>)
    ensures |r| <= |data|
    ensures forall x :: x in r <==> x in data && x.year == year && (jurisdiction == "All" || x.jurisdiction == jurisdiction)
  {
    Filter(data, (x: Row) => x.year == year && (jurisdiction == "All" || x.jurisdiction == jurisdiction))
  }

  /** `(d.DETECTION_METHOD || '').toLowerCase()`. */
  function MethodText(r: Row): string {
    match r.detectionMethod
    case None => ""
    case Some(m) => Lower(m)
  }

  /** A police detection: the method mentions 'police', whatever else it
      says. */
  predicate IsPolice(r: Row) {
    Contains(MethodText(r), "police")
  }

  /** A camera detection: the method mentions 'camera' and not 'police'. */
  predicate IsCamera(r: Row) {
    !IsPolice(r) && Contains(MethodText(r), "camera")
  }

  function FinesOf(r: Row): real { OrZero(r.fines) }

  function ArrestsOf(r: Row): real { OrZero(r.arrests) }

  function ChargesOf(r: Row): real { OrZero(r.charges) }

  /** The share of a row's fines that goes to each split. */
  function PoliceFinesOf(r: Row): real { if IsPolice(r) then FinesOf(r) else 0.0 }

  function CameraFinesOf(r: Row): real { if IsCamera(r) then FinesOf(r) else 0.0 }

  function OtherFinesOf(r: Row): real { if IsPolice(r) || IsCamera(r) then 0.0 else FinesOf(r) }

  /** What the metric panel shows: the year text and the five totals. */
  datatype Panel = Panel(year: string, fines: real, police: real, camera: real, arrests: real, charges: real)

  /** calculateAndDisplayMetrics: one pass over the filtered rows adding
      each row's coerced counts into the totals, its fines into the police
      or the camera total by detection method. */
  method CalculateMetrics(data: seq<Row>, yearFilter: Option<string>, jurisdictionFilter: Option<string>) returns (p: Panel)
    ensures p.year == SelectedOr(yearFilter, "2024")
    ensures var rows := FilterRows(data, SelectedOr(yearFilter, "2024"), SelectedOr(jurisdictionFilter, "All"));
      p.fines == SumBy(rows, FinesOf) && p.police == SumBy(rows, PoliceFinesOf) && p.camera == SumBy(rows, CameraFinesOf) &&
      p.arrests == SumBy(rows, ArrestsOf) && p.charges == SumBy(rows, ChargesOf)
  {
    var year := SelectedOr(yearFilter, "2024");
    var jurisdiction := SelectedOr(jurisdictionFilter, "All");
    var rows := FilterRows(data, year, jurisdiction);
    var fines, police, camera, arrests, charges := 0.0, 0.0, 0.0, 0.0, 0.0;
    var i := 0;
    while i < |rows|
      invariant 0 <= i <= |rows|
      invariant fines == SumBy(rows[..i], FinesOf)
      invariant police == SumBy(rows[..i], PoliceFinesOf)
      invariant camera == SumBy(rows[..i], CameraFinesOf)
      invariant arrests == SumBy(rows[..i], ArrestsOf)
      invariant charges == SumBy(rows[..i], ChargesOf)
    {
      var d := rows[i];
      assert rows[..i + 1][..i] == rows[..i];
      var f := OrZero(d.fines);
      fines := fines + f;
      arrests := arrests + OrZero(d.arrests);
      charges := charges + OrZero(d.charges);
      var method_ := MethodText(d);
      if Contains(method_, "police") {
        police := police + f;
      } else if Contains(method_, "camera") {
        camera := camera + f;
      }
      i := i + 1;
    }
    assert rows[..|rows|] == rows;
    return Panel(year, fines, police, camera, arrests, charges);
  }

  /** Every row's fines land in exactly one of police, camera or neither. */
  lemma {:induction false} FinesSplit(rows: seq<Row>)
    ensures SumBy(rows, FinesOf) == SumBy(rows, PoliceFinesOf) + SumBy(rows, CameraFinesOf) + SumBy(rows, OtherFinesOf)
    decreases |rows|
  {
    if |rows| > 0 {
      FinesSplit(rows[..|rows| - 1]);
    }
  }

  /** With no negative fines, the police and camera totals together never
      exceed the fines total. */
  lemma SplitWithinTotal(rows: seq<Row>)
    requires forall i :: 0 <= i < |rows| ==> FinesOf(rows[i]) >= 0.0
    ensures SumBy(rows, PoliceFinesOf) + SumBy(rows, CameraFinesOf) <= SumBy(rows, FinesOf)
  {
    FinesSplit(rows);
    SumByNonNegative(rows, OtherFinesOf);
  }

  /** A method naming both police and camera counts as police only. */
  lemma PoliceBeforeCamera(r: Row)
    requires Contains(MethodText(r), "police") && Contains(MethodText(r), "camera")
    ensures PoliceFinesOf(r) == FinesOf(r) && CameraFinesOf(r) == 0.0 && OtherFinesOf(r) == 0.0
  {
  }
}

=== FILE: ordering.dfy ===
/** The orderings the charts apply: Array.prototype.sort with a descending
    numeric comparator (stable), and the sorted, duplicate-free lists built
    from a Set of years or of names. */
module Ordering {
  import opened Common
  import opened Aggregate

  /** Sorted by non-increasing score, as `(a, b) => score(b) - score(a)`. */
  predicate NonIncreasing<T>(s: seq<T>, score: T -> real) {
    forall i, j :: 0 <= i < j < |s| ==> score(s[i]) >= score(s[j])
  }

  /** Inserts x in front of the first element whose score is not above x's,
      so x stays ahead of the equal-scored elements that followed it. */
  function InsertByScore<T(==)>(x: T, s: seq<T>, score: T -> real): (r: seq<T>)
    requires NonIncreasing(s, score)
    ensures NonIncreasing(r, score)
    ensures multiset(r) == multiset(s) + multiset{x}
    ensures |r| == |s| + 1
    decreases |s|
  {
    if |s| == 0 then [x]
    else if score(x) >= score(s[0]) then [x] + s
    else
      var rest := InsertByScore(x, s[1..], score);
      assert s == [s[0]] + s[1..];
      HeadBoundsRest(x, s, rest, score);
      [s[0]] + rest
  }

  /** The head of a non-increasing list bounds the rest of it with one
      lower-scored element added. */
  lemma HeadBoundsRest<T>(x: T, s: seq<T>, rest: seq<T>, score: T -> real)
    requires |s| > 0 && NonIncreasing(s, score) && score(x) < score(s[0])
    requires multiset(rest) == multiset(s[1..]) + multiset{x}
    ensures forall k :: 0 <= k < |rest| ==> score(rest[k]) <= score(s[0])
  {
    forall k | 0 <= k < |rest| ensures score(rest[k]) <= score(s[0]) {
      assert rest[k] in multiset(rest);
      if rest[k] != x {
        assert rest[k] in multiset(s[1..]);
        var m :| 0 <= m < |s[1..]| && s[1..][m] == rest[k];
        assert s[m + 1] == rest[k];
      }
    }
  }

  /** The stable descending sort `s.sort((a, b) => score(b) - score(a))`. */
  function SortDesc<T(==)>(s: seq<T>, score: T -> real): (r: seq<T>)
    ensures NonIncreasing(r, score)
    ensures multiset(r) == multiset(s)
    ensures |r| == |s|
    decreases |s|
  {
    if |s| == 0 then []
    else
      assert s == [s[0]] + s[1..];
      InsertByScore(s[0], SortDesc(s[1..], score), score)
  }

  lemma {:induction false} InsertByScoreSum<T>(x: T, s: seq<T>, score: T -> real, f: T -> real)
    requires NonIncreasing(s, score)
    ensures SumBy(InsertByScore(x, s, score), f) == SumBy(s, f) + f(x)
    decreases |s|
  {
    if |s| == 0 {
      assert SumBy([x], f) == SumBy([], f) + f(x);
    } else if score(x) >= score(s[0]) {
      SumByAppend([x], s, f);
      assert SumBy([x], f) == SumBy([], f) + f(x);
    } else {
      InsertByScoreSum(x, s[1..], score, f);
      SumByAppend([s[0]], InsertByScore(x, s[1..], score), f);
      SumByAppend([s[0]], s[1..], f);
      assert [s[0]] + s[1..] == s;
      assert SumBy([s[0]], f) == SumBy([], f) + f(s[0]);
    }
  }

  /** Sorting moves elements but changes no sum over them. */
  lemma {:induction false} SortDescSum<T>(s: seq<T>, score: T -> real, f: T -> real)
    ensures SumBy(SortDesc(s, score), f) == SumBy(s, f)
    decreases |s|
  {
    if |s| > 0 {
      SortDescSum(s[1..], score, f);
      InsertByScoreSum(s[0], SortDesc(s[1..], score), score, f);
      SumByAppend([s[0]], s[1..], f);
      assert [s[0]] + s[1..] == s;
      assert SumBy([s[0]], f) == SumBy([], f) + f(s[0]);
    }
  }

  /** Putting an element with a new key in front keeps the keys distinct. */
  lemma DistinctKeysCons<T, K>(y: T, u: seq<T>, key: T -> K)
    requires NoDuplicates(KeysOf(u, key))
    requires forall z :: z in u ==> key(z) != key(y)
    ensures NoDuplicates(KeysOf([y] + u, key))
  {
  }

  /** The tail of a list with distinct keys has distinct keys, none of them
      the head's. */
  lemma DistinctKeysTail<T, K>(s: seq<T>, key: T -> K)
    requires |s| > 0 && NoDuplicates(KeysOf(s, key))
    ensures NoDuplicates(KeysOf(s[1..], key))
    ensures forall z :: z in s[1..] ==> key(z) != key(s[0])
  {
  }

  /** Inserting an element whose key is new keeps the keys distinct. */
  lemma {:induction false} InsertByScoreKeepsDistinctKeys<T, K>(x: T, t: seq<T>, score: T -> real, key: T -> K)
    requires NonIncreasing(t, score)
    requires NoDuplicates(KeysOf(t, key))
    requires forall y :: y in t ==> key(y) != key(x)
    ensures NoDuplicates(KeysOf(InsertByScore(x, t, score), key))
    decreases |t|
  {
    if |t| == 0 {
      DistinctKeysCons(x, t, key);
    } else if score(x) >= score(t[0]) {
      DistinctKeysCons(x, t, key);
    } else {
      var rest := InsertByScore(x, t[1..], score);
      assert t == [t[0]] + t[1..];
      DistinctKeysTail(t, key);
      InsertByScoreKeepsDistinctKeys(x, t[1..], score, key);
      forall z | z in rest ensures key(z) != key(t[0]) {
        assert z in multiset(rest);
        if z != x {
          assert z in multiset(t[1..]);
        }
      }
      DistinctKeysCons(t[0], rest, key);
    }
  }

  /** Sorting keeps the keys of the elements distinct when they were. */
  lemma {:induction false} SortDescKeepsDistinctKeys<T, K>(s: seq<T>, score: T -> real, key: T -> K)
    requires NoDuplicates(KeysOf(s, key))
    ensures NoDuplicates(KeysOf(SortDesc(s, score), key))
    decreases |s|
  {
    if |s| > 0 {
      assert s == [s[0]] + s[1..];
      DistinctKeysTail(s, key);
      SortDescKeepsDistinctKeys(s[1..], score, key);
      var t := SortDesc(s[1..], score);
      forall z | z in t ensures key(z) != key(s[0]) {
        assert z in multiset(s[1..]);
      }
      InsertByScoreKeepsDistinctKeys(s[0], t, score, key);
    }
  }

  /** Sorting keeps the set of keys. */
  lemma SortDescKeys<T, K>(s: seq<T>, score: T -> real, key: T -> K)
    ensures forall k :: k in KeysOf(SortDesc(s, score), key) <==> k in KeysOf(s, key)
  {
    var r := SortDesc(s, score);
    forall k ensures k in KeysOf(r, key) <==> k in KeysOf(s, key) {
      if k in KeysOf(r, key) {
        var i :| 0 <= i < |r| && KeysOf(r, key)[i] == k;
        assert r[i] in multiset(s);
        var m :| 0 <= m < |s| && s[m] == r[i];
        assert KeysOf(s, key)[m] == k;
      }
      if k in KeysOf(s, key) {
        var i :| 0 <= i < |s| && KeysOf(s, key)[i] == k;
        assert s[i] in multiset(r);
        var m :| 0 <= m < |r| && r[m] == s[i];
        assert KeysOf(r, key)[m] == k;
      }
    }
  }

  /** The first element of a non-increasing list is a maximum of it. */
  lemma FirstIsMaximal<T>(s: seq<T>, score: T -> real, x: T)
    requires NonIncreasing(s, score) && x in s
    ensures score(s[0]) >= score(x)
  {
  }

  /** The position of the first element with the highest score. */
  function FirstMaxIndex<T>(s: seq<T>, score: T -> real): (i: nat)
    requires |s| > 0
    ensures i < |s|
    ensures forall j :: 0 <= j < |s| ==> score(s[j]) <= score(s[i])
    ensures forall j :: 0 <= j < i ==> score(s[j]) < score(s[i])
    decreases |s|
  {
    if |s| == 1 then 0
    else
      var k := FirstMaxIndex(s[1..], score) + 1;
      assert forall j :: 1 <= j < |s| ==> s[j] == s[1..][j - 1];
      if score(s[0]) >= score(s[k]) then 0 else k
  }

  /** Because the sort is stable, its first element is the first of the
      highest-scored elements in the original order. */
  lemma {:induction false} SortDescHeadIsFirstMaximal<T>(s: seq<T>, score: T -> real)
    requires |s| > 0
    ensures SortDesc(s, score)[0] == s[FirstMaxIndex(s, score)]
    decreases |s|
  {
    if |s| > 1 {
      var rest := SortDesc(s[1..], score);
      SortDescHeadIsFirstMaximal(s[1..], score);
      assert s == [s[0]] + s[1..];
      assert SortDesc(s, score) == InsertByScore(s[0], rest, score);
      var k := FirstMaxIndex(s[1..], score) + 1;
      assert rest[0] == s[k];
      InsertByScoreHead(s[0], rest, score);
    }
  }

  /** Inserting into a non-empty list puts the new element first exactly
      when it scores at least as high as the current head. */
  lemma InsertByScoreHead<T>(x: T, s: seq<T>, score: T -> real)
    requires NonIncreasing(s, score) && |s| > 0
    ensures InsertByScore(x, s, score)[0] == if score(x) >= score(s[0]) then x else s[0]
  {
  }

  predicate StrictlyIncreasing(s: seq<int>) {
    forall i, j :: 0 <= i < j < |s| ==> s[i] < s[j]
  }

  predicate StrictlyDecreasing(s: seq<int>) {
    forall i, j :: 0 <= i < j < |s| ==> s[i] > s[j]
  }

  function InsertUniqueInt(x: int, s: seq<int>): (r: seq<int>)
    requires StrictlyIncreasing(s)
    ensures StrictlyIncreasing(r)
    ensures forall y :: y in r <==> y in s || y == x
    decreases |s|
  {
    if |s| == 0 then [x]
    else if x < s[0] then [x] + s
    else if x == s[0] then s
    else
      assert forall y :: y in s <==> y == s[0] || y in s[1..];
      var rest := InsertUniqueInt(x, s[1..]);
      assert forall k :: 0 <= k < |rest| ==> s[0] < rest[k] by {
        forall k | 0 <= k < |rest| ensures s[0] < rest[k] {
          assert rest[k] in rest;
        }
      }
      [s[0]] + rest
  }

  /** `Array.from(new Set(s)).sort(d3.ascending)` on numbers. */
  function SortUniqueAsc(s: seq<int>): (r: seq<int>)
    ensures StrictlyIncreasing(r)
    ensures forall y :: y in r <==> y in s
    decreases |s|
  {
    if |s| == 0 then []
    else
      assert forall y :: y in s <==> y == s[0] || y in s[1..];
      InsertUniqueInt(s[0], SortUniqueAsc(s[1..]))
  }

  function Reverse<T>(s: seq<T>): (r: seq<T>)
    ensures |r| == |s| && forall i :: 0 <= i < |s| ==> r[i] == s[|s| - 1 - i]
    decreases |s|
  {
    if |s| == 0 then [] else Reverse(s[1..]) + [s[0]]
  }

  /** `Array.from(new Set(s)).sort((a, b) => b - a)`. */
  function SortUniqueDesc(s: seq<int>): (r: seq<int>)
    ensures StrictlyDecreasing(r)
    ensures forall y :: y in r <==> y in s
  {
    var a := SortUniqueAsc(s);
    var r := Reverse(a);
    assert forall y :: y in r <==> y in a by {
      forall y ensures y in r <==> y in a {
        if y in a {
          var i :| 0 <= i < |a| && a[i] == y;
          assert r[|a| - 1 - i] == y;
        }
      }
    }
    r
  }

  predicate StrictlyIncreasingStr(s: seq<string>) {
    forall i, j :: 0 <= i < j < |s| ==> StrLt(s[i], s[j])
  }

  function InsertUniqueStr(x: string, s: seq<string>): (r: seq<string>)
    requires StrictlyIncreasingStr(s)
    ensures StrictlyIncreasingStr(r)
    ensures forall y :: y in r <==> y in s || y == x
    decreases |s|
  {
    if |s| == 0 then [x]
    else if x == s[0] then s
    else if StrLt(x, s[0]) then
      assert forall j :: 0 <= j < |s| ==> StrLt(x, s[j]) by {
        forall j | 0 <= j < |s| ensures StrLt(x, s[j]) {
          if j > 0 { StrLtTransitive(x, s[0], s[j]); }
        }
      }
      [x] + s
    else
      StrLtTotal(x, s[0]);
      assert forall y :: y in s <==> y == s[0] || y in s[1..];
      var rest := InsertUniqueStr(x, s[1..]);
      assert forall k :: 0 <= k < |rest| ==> StrLt(s[0], rest[k]) by {
        forall k | 0 <= k < |rest| ensures StrLt(s[0], rest[k]) {
          assert rest[k] in rest;
        }
      }
      [s[0]] + rest
  }

  /** `Array.from(new Set(s)).sort()` on strings: duplicate-free and in
      the character order `Common.StrLt`. */
  function SortUniqueStr(s: seq<string>): (r: seq<string>)
    ensures StrictlyIncreasingStr(r)
    ensures forall y :: y in r <==> y in s
    decreases |s|
  {
    if |s| == 0 then []
    else
      assert forall y :: y in s <==> y == s[0] || y in s[1..];
      InsertUniqueStr(s[0], SortUniqueStr(s[1..]))
  }
}
